=== FILE: README.md ===
# openmelt core in Dafny

A Dafny model of the core of openmelt, the ESP32 firmware for a "melty brain"
translational-drift robot: the parts of the firmware that compute, as
opposed to the parts that drive hardware.

- `machine.dfy` (`Machine`): the machine arithmetic the firmware relies on.
  This covers `unsigned long` millisecond and microsecond counters that wrap
  modulo 2^32, 32-bit `int`, float-to-int truncation toward zero, `abs` and
  `constrain`.
- `texts.dfy` (`Texts`): the Arduino `String` operations the parser uses.
  `indexOf` becomes `IndexOf`, `substring(k)` becomes `Suffix`, and `toInt`
  becomes `Atol`: the C library's `atol`, which skips spaces, reads a sign
  and digits, and clamps to the 32-bit `long` range. `%d` becomes
  `IntToString`. The file also holds the search lemmas the read-back proofs
  use.
- `melty_config.dfy` (`MeltyConfig`): the four throttle modes, the selected
  mode and the PWM duty constants. It also holds the servo pulse convention
  (1000/1500/2000 us), the translate and coast percentages, and the
  well-formedness facts the motor engine relies on.
- `rc_handler.dfy` (`RcHandler`): the RC receiver decoder.
  - One edge step per interrupt, with the lock flag.
  - Last-known-good pulse acceptance.
  - The throttle-channel health check.
  - The zoned throttle-percent mapping.
  - The left/right and forward/back readers, the forward/back classifier
    and the two dead-zone predicates.
- `motor_driver.dfy` (`MotorDriver`): the motor firing engine. Its state is
  the two stored ESC pulse widths and the direct-control flag. Each
  operation returns the new state with the list of pin writes it makes:
  `motor_on`, `motor_coast` and `motor_off` in all four throttle modes,
  `motors_off`, `set_servo_pwm`, `set_esc_throttle`, `update_pwm_values`,
  `normal_driving_mode`, and the end state of `arm_calibrate_escs` and
  `init_motors`.
- `debug_handler.dfy` (`DebugLog`): the 20-slot debug ring buffer.
  - The 50 ms rate limit and the bypass before initialisation.
  - `"[module] message"` entries, truncated to 99 characters.
  - Newest-first rendering with level glyphs.
  - `clear`, which keeps the write index.
- `diagnostics.dfy` (`Diagnostics`): `update_standard_diagnostics`.
  - The 250 ms / update-needed gate.
  - The entries logged while the readings are taken, which re-arm the
    gate.
  - The labelled telemetry line, built with bounded `strncat`.
  - The accelerometer suffix.
  - The split of the combined text at the first blank line into the web
    buffers.
  - The read-back of that line by the dashboard parser.
- `web_server.dfy` (`WebServer`): the data side of the web server.
  - The truncating hand-off into the 1024- and 2048-byte buffers.
  - `/logs` and `/clear`.
  - The integer fields of `parseTelemetryToJSON` and the key order of its
    JSON.
  - The JSON of `/eeprom`.
- `line_plot.dfy` (`LinePlot`): the bookkeeping of the dashboard's
  `TinyLinePlot` chart. Its state is the datasets, the view-window start,
  auto-scroll and the options. The operations are `addDataset`, `addPoint`,
  `clear`, `clearDataset`, the auto-scroll switches, `scroll`, `scrollTo`,
  `scrollToStart`, `scrollToEnd` and `getDataLength`.
- `wrappers.dfy` (`Wrappers`): `Option`.

Every interrupt, task step and HTTP handler is one atomic step of a pure
function. The clocks (`millis()`, `micros()`) are parameters, sampled once
per step. Values from headers this model does not include are parameters
of the functions that use them. `RcConfig` holds those from `rc_handler.h`:
pulse limits, idle/full throttle, centres, thresholds and dead zones.
`MotorParams` holds the coast percent, the steering dead zone and the motor
reversal flags. `RcConfig` comes with the predicate `ValidConfig`: every
pulse length, both centres and the update gap are non-negative and fit 32
bits, `MIN <= MAX`, and `(FULL - 1550) * 100` fits the 32-bit `long` the throttle
interpolation computes in. The forward/back threshold and the dead zones
are unconstrained. `MotorParams` has no such predicate; a lemma that
needs an assumption about it (a coast percent in `(0, 1]`, a dead zone
below 1) states it as its own precondition.

Behaviours of the code a reader may not expect:
- In servo mode, while translating, the powered pulse is
  `1500 + 500 * (1 + (TRANSLATE_PERCENT - 1) * s)`
  (`motor_driver.cpp:204-209`). With the configured percent of 1.0 this
  is 2000 us for every translation intensity `s`, including `s = 0`. It is
  not neutral at `s = 0`.
- A servo coast at `s = 0` keeps the motor's current width; it does not
  fall back to neutral (`motor_driver.cpp:257-306`).
- The diagnostics line labels the sticks `RC L/R:` and `RC F/B:`
  (`debug_handler.cpp:249-253`), but the dashboard parser looks for
  `RC Steering:` (`web_server.cpp:1370-1373`). The dashboard's
  `rcSteering` is therefore always 0 for telemetry the firmware builds
  (`Diagnostics.DashboardReadsBack`).
- `addPoint` with streaming on and `retainData` off trims the dataset but
  does not move the view window (`TinyLinePlot.js:77-91`). The window can
  therefore start past the data that remains
  (`LinePlot.TrimmingCanLeaveWindowPastData`).

## Model

| member | source | states |
|---|---|---|
| Machine.Elapsed | openmelt/debug_handler.cpp:84 | the `unsigned long` difference `now - since` is the plain difference when `since <= now`, and the difference plus 2^32 when the clock wrapped in between |
| Machine.Trunc | openmelt/motor_driver.cpp:203 | a float-to-int conversion truncates toward zero: the result is the integer nearest zero within 1 of the value |
| Texts.IndexOf | openmelt/web_server.cpp:1363 | `indexOf` answers -1 exactly when the pattern does not occur, and otherwise the position of its first occurrence |
| Texts.IndexOfIs | openmelt/web_server.cpp:1363 | a position where the pattern matches with no match before it is what `indexOf` answers |
| Texts.FirstOccurrenceSplit | openmelt/debug_handler.cpp:287-291 | cutting a text at the first occurrence of a non-empty pattern gives the part before, the pattern and the rest, and the part before holds no occurrence |
| Texts.IntToString | openmelt/debug_handler.cpp:246 | `%d` of an integer is a non-empty run of digits, preceded by `-` exactly for a negative value |
| Texts.DigitsValueOfNatToString | openmelt/debug_handler.cpp:246 | the digits `%d` writes for a natural number have that number as their decimal value |
| Texts.Truncate | openmelt/web_server.cpp:1457-1461 | a bounded copy keeps a prefix of the text: all of it when it fits, otherwise exactly the first `n` characters |
| Texts.Atol | openmelt/web_server.cpp:1365 | `toInt` skips leading spaces and reads 0 when what follows is neither a digit nor a sign |
| Texts.AtolSaturatesHigh | openmelt/web_server.cpp:1365 | `toInt` of a digit run whose value exceeds the 32-bit `long` range saturates at `2147483647` |
| Texts.AtolSaturatesLow | openmelt/web_server.cpp:1365 | `toInt` of a minus sign and a digit run whose value exceeds the 32-bit `long` range saturates at `-2147483648` |
| Texts.AtolReadsIntToString | openmelt/web_server.cpp:1362-1366 | `toInt` of spaces, the `%d` text of a 32-bit value and a tail that does not start with a digit reads back that value |
| MeltyConfig.ModeValue | openmelt/melty_config.h:86-100 | the enum values of the four throttle modes are 0 to 3, in declaration order |
| MeltyConfig.ModeOfValue | openmelt/melty_config.h:86-100 | the mode with a given enum value, defined exactly for 0 to 3, is the inverse of `ModeValue` |
| MeltyConfig.ExactlyFourModes | openmelt/melty_config.h:86-100 | there are exactly four modes: the values 0 to 3, one per mode, and value and mode convert back and forth |
| MeltyConfig.ServoPulse | openmelt/melty_config.h:110-115 | a fraction `f >= -1` gives the truncation of `1500 + 500 f` (the integer `us` with `us <= 1500 + 500 f < us + 1`); `[-1, 1]` maps into `[1000, 2000]` us and `[0, 1]` into `[1500, 2000]` us |
| MeltyConfig.ServoConvention | openmelt/melty_config.h:110-130 | 1000 us is full reverse, 1500 us neutral, 2000 us full forward, half of full forward is 1750 us, and the configured translate percent gives 2000 us |
| MeltyConfig.ConfigurationWellFormed | openmelt/melty_config.h:71-139 | the duty values are 0-255 with OFF = COAST <= ON, the dynamic PWM divisor is positive, the coast percent lies in `[0, 1]`, the translate percent in `(0, 1]`, and the two motor pins differ |
| RcHandler.InitialChannel | openmelt/rc_handler.cpp:21-40 | every channel starts with the minimum pulse length and no good signal yet |
| RcHandler.UpdateChannel | openmelt/rc_handler.cpp:52-77 | an edge keeps the pin and keeps the pulse length in range; a changed length is always `now - start` and a changed last-good time is always `now` |
| RcHandler.LockedEdgeIsIgnored | openmelt/rc_handler.cpp:56 | while the lock flag is set an edge leaves the channel record unchanged |
| RcHandler.RisingEdgeStampsStart | openmelt/rc_handler.cpp:60-62 | a rising edge records the start time and changes nothing else |
| RcHandler.FallingEdgeKeepsLastGood | openmelt/rc_handler.cpp:65-76 | a falling edge stores the width and refreshes the last-good time exactly when `now > start` and the width is within `[MIN, MAX]`; otherwise the record is unchanged |
| RcHandler.PulseRoundTrip | openmelt/rc_handler.cpp:60-76 | a rising edge at `t` followed by a falling edge at `t + w` with an in-range `w` stores exactly `w` |
| RcHandler.Isr | openmelt/rc_handler.cpp:196-204 | an interrupt updates only its own channel, keeps the lock flag, and preserves the pulse-range invariant |
| RcHandler.PulseRangeInvariant | openmelt/rc_handler.cpp:71-74 | any run of interrupts from an in-range state keeps every channel's pulse length in `[MIN, MAX]` |
| RcHandler.InitialStateInRange | openmelt/rc_handler.cpp:21-40 | the start-up state satisfies the pulse-range invariant |
| RcHandler.LockedRunChangesNothing | openmelt/rc_handler.cpp:43-56 | any run of interrupts while locked leaves the whole decoder state unchanged |
| RcHandler.LockRcData | openmelt/rc_handler.cpp:43-45 | locking sets the lock flag and changes nothing else in the decoder state |
| RcHandler.UnlockRcData | openmelt/rc_handler.cpp:47-49 | unlocking clears the lock flag and changes nothing else in the decoder state |
| RcHandler.LockThenUnlockRestores | openmelt/rc_handler.cpp:43-49 | locking an unlocked decoder and unlocking it again gives back exactly the state it started from |
| RcHandler.SignalIsHealthy | openmelt/rc_handler.cpp:81-93 | a healthy signal has had a throttle pulse accepted (last-good time not 0) no more than `MAX_MS_BETWEEN_RC_UPDATES` ms ago on the wrapping clock |
| RcHandler.HealthIsThrottleRecency | openmelt/rc_handler.cpp:81-93 | health depends only on the throttle channel's last-good time, and holds iff that time is non-zero and at most the configured gap before now |
| RcHandler.UnhealthyUntilFirstSample | openmelt/rc_handler.cpp:85-87 | before any pulse has been accepted the signal is unhealthy |
| RcHandler.HealthyWindowAfterSample | openmelt/rc_handler.cpp:65-93 | after an accepted throttle pulse the signal is healthy for the configured gap and unhealthy after it |
| RcHandler.PercentOfSpan | openmelt/rc_handler.cpp:123-146 | the integer percentage `offset * 100 / span` over a positive span is the `p` with `p * span <= offset * 100 < (p + 1) * span`, and is below 100 for an offset inside the span |
| RcHandler.ThrottlePercent | openmelt/rc_handler.cpp:98-147 | the throttle percent lies in `[0, 100]`; it is 100 from the full pulse up (checked first, and only there), and 0 in the neutral band and at or below idle; above the band it is `(pulse - 1550) * 100 / (full - 1550)` and in the low zone `(pulse - idle) * 100 / (full - idle)`, each given by the bracket `pct * span <= offset * 100 < (pct + 1) * span` |
| RcHandler.InterpolationFitsLong | openmelt/rc_handler.cpp:123-146 | for a valid configuration both interpolation products `offset * 100` are positive and fit the 32-bit `long` they are computed in, so the integer division sees the true product |
| RcHandler.ThrottleHalfway | openmelt/rc_handler.cpp:122-138 | with a 2000 us full pulse, 1775 us (halfway between 1550 and 2000) reads as 50 percent |
| RcHandler.ThrottleMonotoneAboveNeutral | openmelt/rc_handler.cpp:116-139 | from the neutral band upward a longer pulse never gives a smaller throttle percent |
| RcHandler.RcThrottlePercent | openmelt/rc_handler.cpp:98-112 | the percent read from the decoder state lies in `[0, 100]` |
| RcHandler.OffsetIsSignedDifference | openmelt/rc_handler.cpp:176-193 | the stick offset is the signed difference of pulse and centre whenever both fit in 32 bits |
| RcHandler.LeftRight | openmelt/rc_handler.cpp:176-183 | the left/right reading is `pulse - centre` for an in-range state |
| RcHandler.ForBack | openmelt/rc_handler.cpp:187-193 | the forward/back reading is `pulse - centre` for an in-range state |
| RcHandler.ForBackEnum | openmelt/rc_handler.cpp:161-171 | the classifier says forward iff the offset is above the threshold, backward iff below its negation, neutral otherwise |
| RcHandler.ForBackBands | openmelt/rc_handler.cpp:161-171 | with a non-negative threshold exactly one of the three directions applies |
| RcHandler.InConfigDeadzone | openmelt/rc_handler.cpp:149-152 | the configuration dead zone holds iff the left/right offset is strictly inside its width |
| RcHandler.InNormalDeadzone | openmelt/rc_handler.cpp:154-157 | the driving dead zone holds iff the left/right offset is strictly inside its width |
| RcHandler.NormalDeadzoneWithinConfigDeadzone | openmelt/rc_handler.cpp:149-157 | with the narrower driving width, a stick inside the driving dead zone is inside the configuration one |
| MotorDriver.MotorOfPin | openmelt/motor_driver.cpp:114-122 | pin 9 addresses motor 1, pin 10 motor 2, and any other pin no motor |
| MotorDriver.SetPin | openmelt/motor_driver.cpp:232-238 | a servo write stores the width of the addressed motor only and sends exactly one servo write of that width to that motor; any other pin changes nothing and sends nothing |
| MotorDriver.ThrottlePulse | openmelt/motor_driver.cpp:196-203 | a non-positive throttle gives neutral; a throttle in `(0, 1]` gives `trunc(1500 + 500 t)` between neutral and full forward |
| MotorDriver.ThrottlePulseMonotone | openmelt/motor_driver.cpp:196-203 | more throttle never gives a shorter pulse |
| MotorDriver.FullThrottleIsFullForward | openmelt/motor_driver.cpp:211-214 | full throttle gives 2000 us |
| MotorDriver.TranslateFraction | openmelt/motor_driver.cpp:204-209 | the translating fraction lies between the translate percent and 1 for an intensity in `[0, 1]` |
| MotorDriver.ServoOnPulse | openmelt/motor_driver.cpp:194-215 | the powered pulse is neutral for non-positive throttle; it is the throttle pulse under direct control or when not translating, and the translating pulse otherwise; it stays in `[1500, 2000]` |
| MotorDriver.TranslatingIgnoresThrottle | openmelt/motor_driver.cpp:204-209 | while translating the powered pulse does not depend on the throttle and is 2000 us with the configured percent |
| MotorDriver.CoastFactor | openmelt/motor_driver.cpp:271-276 | the kept share of throttle is 1 at intensity 0, the coast percent at intensity 1, and between them otherwise |
| MotorDriver.CoastPulse | openmelt/motor_driver.cpp:257-306 | a non-positive coast percent gives neutral; otherwise the width is kept at intensity 0, and for a non-negative width, a percent `c` in `(0, 1]` and intensity `s` in `[0, 1]` it is the truncation of `1500 + (cur - 1500) * ((1 - s) + c s)` |
| MotorDriver.CoastBetweenNeutralAndCurrent | openmelt/motor_driver.cpp:257-306 | for a coast percent in `(0, 1]` and intensity in `[0, 1]` the coast width lies between neutral and the current width |
| MotorDriver.ScaledTowardNeutral | openmelt/motor_driver.cpp:298-303 | moving a width toward neutral by a factor in `[0, 1]` and truncating lands between neutral and the width |
| MotorDriver.DynamicOnDuty | openmelt/motor_driver.cpp:188-192 | the dynamic duty never exceeds ON and is ON at or above the maximum throttle; for a throttle in `[0, MAX]` it is the truncation of `COAST + t / MAX * (ON - COAST)`, so COAST at 0 |
| MotorDriver.DynamicOnDutyMonotone | openmelt/motor_driver.cpp:188-192 | more throttle never gives a smaller dynamic duty |
| MotorDriver.MotorOn | openmelt/motor_driver.cpp:168-240 | in each mode the powered phase makes the write that mode prescribes; in servo mode it sends the powered pulse to the addressed motor, and only servo mode stores a width, only for that motor |
| MotorDriver.MotorCoast | openmelt/motor_driver.cpp:250-309 | in each mode the coast makes the write that mode prescribes; in servo mode it sends the coast width to the addressed motor and stores it for that motor only |
| MotorDriver.MotorOff | openmelt/motor_driver.cpp:319-336 | the motor is turned off in each mode; in servo mode 1500 us is sent to the addressed motor, its width becomes neutral and nothing else changes |
| MotorDriver.MotorsOff | openmelt/motor_driver.cpp:346-349 | both motors are turned off, motor 1 first: two low digital writes in binary mode, two OFF duty writes in the PWM modes, and two 1500 us servo writes in servo mode, where both widths become neutral |
| MotorDriver.MirrorsServoSequential | openmelt/motor_driver.cpp:114-122 | two steps that each keep the stored widths equal to the last widths sent still do so when run one after the other |
| MotorDriver.SetServoPwm | openmelt/motor_driver.cpp:114-122 | a raw width is stored and sent to the addressed motor only; another pin changes nothing and sends nothing |
| MotorDriver.SetDirectEscControl | openmelt/motor_driver.cpp:31-40 | the flag takes the requested value and the widths are kept |
| MotorDriver.SetEscThrottle | openmelt/motor_driver.cpp:87-105 | nothing changes without direct control in servo mode; with it both motors are sent and store the same throttle pulse, motor 1 first |
| MotorDriver.UpdatePwmValues | openmelt/motor_driver.cpp:108-111 | the stored widths take the given values, the flag is kept, and nothing is sent |
| MotorDriver.ApplyDeadzone | openmelt/motor_driver.cpp:49-50 | a value within the dead zone becomes 0 and any other value is kept |
| MotorDriver.MixedPulse | openmelt/motor_driver.cpp:58-68 | a mixed value in `[-1, 1]` gives the truncation of `1500 + 500 v`, or of `1500 - 500 v` when the motor is reversed; a (sign-corrected) value at or beyond +-1 saturates at 2000 or 1000 us |
| MotorDriver.MixedPulseReversal | openmelt/motor_driver.cpp:58-59 | a reversed motor gets the pulse of the negated mix |
| MotorDriver.NormalDrivingMode | openmelt/motor_driver.cpp:45-74 | outside servo mode nothing changes; in servo mode both widths lie in `[1000, 2000]` and are written, motor 1 then motor 2, exactly as stored |
| MotorDriver.NormalDrivingTankMix | openmelt/motor_driver.cpp:49-69 | motor 1 gets the truncation of `1500 + 500 m1` and motor 2 of `1500 + 500 m2`, where `m1` is `y + x` and `m2` is `y - x` of the dead-zoned stick, each negated for a reversed motor and clamped to `[-1, 1]` |
| MotorDriver.NormalDrivingStickAnchors | openmelt/motor_driver.cpp:43-74 | without reversal and with a dead zone below full deflection, forward gives 2000/2000, backward 1000/1000, right 2000/1000 and left 1000/2000 |
| MotorDriver.NormalDrivingDeadzoneIsNeutral | openmelt/motor_driver.cpp:45-74 | a stick inside the dead zone on both axes leaves both motors at neutral |
| MotorDriver.NormalDrivingZeroStickIsNeutral | openmelt/motor_driver.cpp:45-74 | a centred stick gives 1500/1500 |
| MotorDriver.NormalDrivingMirror | openmelt/motor_driver.cpp:45-74 | with equal reversal settings, mirroring the steering swaps the two motors' widths |
| MotorDriver.NormalDrivingStraightAhead | openmelt/motor_driver.cpp:45-74 | a straight-ahead stick without reversal drives both motors equally, at or above neutral |
| MotorDriver.ArmCalibrateEscs | openmelt/motor_driver.cpp:127-162 | arming in servo mode sends full forward to both motors when calibrating, then neutral to both, and ends with both at neutral; other modes change nothing |
| MotorDriver.InitMotors | openmelt/motor_driver.cpp:351-382 | initialisation in servo mode sends neutral to both motors three times and leaves both widths neutral; the other modes send their off writes; the direct-control flag is kept as it was |
| MotorDriver.StartupIsNeutral | openmelt/motor_driver.cpp:15-19 | in the configured mode start-up leaves both motors at 1500 us with direct control off |
| MotorDriver.MotorOffIdempotent | openmelt/motor_driver.cpp:319-336 | turning a motor off twice is the same as once |
| MotorDriver.CoastAfterOffStaysNeutral | openmelt/motor_driver.cpp:250-349 | after `motors_off` a coast keeps the motor at neutral |
| DebugLog.LevelValue | openmelt/debug_handler.h:7-16 | the three levels have the enum values 0, 1, 2 |
| DebugLog.InitialStateValid | openmelt/debug_handler.cpp:13-42 | the start-up state has 20 slots with messages that fit their buffers, a write index in range, and is not initialised |
| DebugLog.InitDebugHandler | openmelt/debug_handler.cpp:44-56 | initialisation empties every slot (unused, no text) but keeps its level and timestamp, empties the telemetry, marks the log initialised, and changes nothing else (index, last-entry time, web flags) |
| DebugLog.FormatEntry | openmelt/debug_handler.cpp:115-127 | the stored text is `"[module] message"` cut to at most 99 characters, and uncut when it fits |
| DebugLog.FormatEntryShowsModule | openmelt/debug_handler.cpp:115-116 | when the module name fits, every stored entry starts with `[module]` |
| DebugLog.RingWrite | openmelt/debug_handler.cpp:122-130 | the entry goes into the write slot, every other slot is kept, and the index advances modulo 20 |
| DebugLog.AddDebugEntry | openmelt/debug_handler.cpp:72-136 | an entry before initialisation or within 50 ms of the last one changes nothing; an accepted entry is written at the index as used, with its level and time, and the last-entry time becomes now |
| DebugLog.SecondEntryTooSoonIsDropped | openmelt/debug_handler.cpp:82-87 | a second entry less than 50 ms after an accepted one is dropped |
| DebugLog.AddDebugEntries | openmelt/debug_handler.cpp:72-136 | a run of log calls made at one clock reading keeps the ring buffer well formed |
| DebugLog.OneEntryPerInstant | openmelt/debug_handler.cpp:82-87 | of several log calls at one clock reading only the first can be stored: the run has the effect of its first call alone |
| DebugLog.RejectedRun | openmelt/debug_handler.cpp:72-87 | when the rate limit already rejects an entry, a run of calls at that instant changes nothing |
| DebugLog.Glyph | openmelt/debug_handler.cpp:193-198 | only informational entries have no glyph |
| DebugLog.NewestFirst | openmelt/debug_handler.cpp:189-190 | the rendering order visits slot `w - 1 - i` modulo 20 at position `i` |
| DebugLog.LogLine | openmelt/debug_handler.cpp:191-203 | an entry renders to nothing iff its slot is unused |
| DebugLog.GetDebugData | openmelt/debug_handler.cpp:166-208 | before initialisation the text is the fixed notice; after it the text starts with the telemetry, the accelerometer suffix and a blank line, and is exactly that when no slot is used |
| DebugLog.ClearDebugData | openmelt/debug_handler.cpp:210-220 | before initialisation nothing changes; after it every slot is marked unused with its text, level and timestamp kept, the telemetry is empty, nothing else changes, and the rendered log is empty |
| DebugLog.RenderAfterClear | openmelt/debug_handler.cpp:166-220 | after a clear the debug data is just the accelerometer text and the blank line, with no log lines |
| DebugLog.NoUsedNoText | openmelt/debug_handler.cpp:189-204 | slots that are all unused render to no text |
| DebugLog.LogTextAppend | openmelt/debug_handler.cpp:189-204 | rendering distributes over concatenation |
| DebugLog.MostRecent | openmelt/debug_handler.cpp:130 | the last at most 20 entries of a history, newest first |
| DebugLog.RingIndex | openmelt/debug_handler.cpp:130 | after `n` writes the index is the start index plus `n`, modulo 20 |
| DebugLog.RingSlot | openmelt/debug_handler.cpp:122-130 | after a run of writes the slot `k` back from the index holds the `k`-th newest write, or its old content if fewer writes were made |
| DebugLog.RenderShowsMostRecent | openmelt/debug_handler.cpp:122-205 | after any number of accepted entries into a cleared ring the rendered log is exactly the 20 most recent, newest first, the oldest overwritten first |
| Diagnostics.StrnCat | openmelt/debug_handler.cpp:241 | a bounded append never exceeds 511 characters, keeps the line as a prefix, and appends the whole piece when it fits |
| Diagnostics.Pieces | openmelt/debug_handler.cpp:239-278 | the step formats ten readings, each ending in the two spaces that separate it from the next |
| Diagnostics.PiecesAt | openmelt/debug_handler.cpp:239-278 | the ten pieces are, in order, the labelled accelerometer, RC health, throttle, left/right, forward/back, two motor pulses (with `us`), radius, heading and zero-g texts |
| Diagnostics.BuildLine | openmelt/debug_handler.cpp:239-278 | the line never exceeds 511 characters, and each further append keeps the line built so far as its prefix |
| Diagnostics.BuildLineExact | openmelt/debug_handler.cpp:239-278 | when the pieces fit, the bounded appends produce exactly their concatenation |
| Diagnostics.ConcatSplit | openmelt/debug_handler.cpp:239-278 | the line is the pieces before a piece, the piece itself, then the pieces after it |
| Diagnostics.ConcatLength | openmelt/debug_handler.cpp:236-278 | the line is no longer than the sum of the piece capacities |
| Diagnostics.TelemetryLineExact | openmelt/debug_handler.cpp:236-278 | the telemetry line is the exact concatenation of the ten labelled readings and is at most 322 characters, so no append ever truncates |
| Diagnostics.TelemetryLine | openmelt/debug_handler.cpp:236-284 | the telemetry line built by bounded appends never exceeds its 511 characters |
| Diagnostics.AccelText | openmelt/debug_handler.cpp:178-184 | the accelerometer suffix is at most 127 characters and is empty when all three axes read zero |
| Diagnostics.UpdateStandardDiagnostics | openmelt/debug_handler.cpp:222-296 | nothing changes before initialisation or when the update is not due; otherwise the update time is now, the update-needed flag ends set exactly when an entry logged while taking the readings was accepted, that entry is the one ring write (else the ring is kept), and the web buffers are within their bounds |
| Diagnostics.PublishedBuffers | openmelt/debug_handler.cpp:282-295 | a due update publishes the telemetry line with its accelerometer suffix, and the newest-first text of the ring as the step leaves it, cut to 2047 characters |
| Diagnostics.RateLimited | openmelt/debug_handler.cpp:227-233 | right after an update that stored no entry, a second call less than 250 ms later changes nothing, whatever the new readings |
| Diagnostics.RepublishedAfterLogging | openmelt/debug_handler.cpp:227-233 | within 250 ms of an update the next one is due exactly when the first stored an entry while taking its readings |
| Diagnostics.SplitFindsSeparator | openmelt/debug_handler.cpp:287-291 | splitting `t + "\n\n" + logs` at the first blank line recovers `t` and `logs` when `t` has no newline |
| Diagnostics.SplitData | openmelt/debug_handler.cpp:287-295 | with a blank line in the text, the two parts joined by it give the text back and the first part holds no blank line; without one the whole text is telemetry and the logs are empty |
| Diagnostics.NoNewlineInLine | openmelt/debug_handler.cpp:239-284 | the telemetry line and its suffix contain no newline, so the split is exact |
| Diagnostics.ThrottleFieldRead | openmelt/debug_handler.cpp:246 | the dashboard reads the `RC Throttle:` value written into the line back as the same integer |
| Diagnostics.Motor1FieldRead | openmelt/debug_handler.cpp:257 | the dashboard reads the `Motor1 PWM:` value back as the same integer |
| Diagnostics.Motor2FieldRead | openmelt/debug_handler.cpp:260 | the dashboard reads the `Motor2 PWM:` value back as the same integer |
| Diagnostics.SteeringNeverWritten | openmelt/debug_handler.cpp:249-253 | the built telemetry never contains `RC Steering:` |
| Diagnostics.DashboardReadsBack | openmelt/web_server.cpp:1363-1393 | for published telemetry the dashboard's `rcThrottle` is the firmware's throttle percent, its `rcSteering` is 0, and each motor's throttle is the one its width gives |
| WebServer.UpdateWebData | openmelt/web_server.cpp:1455-1463 | each buffer keeps a prefix of its text of at most 1023 or 2047 characters, and the whole text when it fits |
| WebServer.HandleLogs | openmelt/web_server.cpp:804-813 | `/logs` answers with the stored log buffer as it is |
| WebServer.LogsServedAsStored | openmelt/web_server.cpp:804-813 | `/logs` serves the stored log text, or its first 2047 characters when it is longer |
| WebServer.HandleClear | openmelt/web_server.cpp:816-819 | `/clear` empties every log slot and answers `Logs cleared` |
| WebServer.ReadIntAt | openmelt/web_server.cpp:1363-1365 | a field is read iff its label occurs |
| WebServer.PwmToPercent | openmelt/web_server.cpp:1381-1382 | a forward pulse maps to `(pwm - 1500) / 5`, which is at most 100 for a pulse up to 2000 |
| WebServer.MotorThrottle | openmelt/web_server.cpp:1377-1393 | a missing pulse, or one at or below neutral, keeps the default |
| WebServer.ParseIntFields | openmelt/web_server.cpp:1362-1441 | a missing label gives 0 for the RC fields, the RC throttle for the motors, and the estimate for rpm |
| WebServer.MotorThrottleAnchors | openmelt/web_server.cpp:1380-1382 | 2000 us reads as 100%, 1750 us as 50%, and neutral keeps the default |
| WebServer.ReadIntAfterLabel | openmelt/web_server.cpp:1363-1365 | an integer written after a label and a space, followed by a non-digit, is read back exactly |
| WebServer.TelemetryKeyOrder | openmelt/web_server.cpp:1402-1448 | the keys are the nine fixed ones in order, then `battery` when present, `rpm` always, and `radius` when present |
| WebServer.ParseTelemetryToJson | openmelt/web_server.cpp:1310-1451 | the parser's output is the JSON object of those members, with `battery` iff `Battery:` occurs and `radius` iff `Radius:` occurs |
| WebServer.EepromSettingsReported | openmelt/web_server.cpp:822-864 | the EEPROM keys are `ledOffset`, `accelRadius`, `zeroGOffset`, `eepromSentinel` in that order; the LED offset reports the stored value against a default of 0, the radius and zero-g offset their rendered floats, and the sentinel 42 as both value and default |
| WebServer.SettingMembers | openmelt/web_server.cpp:827-833 | each setting carries `name`, `value`, `default`, `unit`, `description` in that order, with its value and default as the `value` and `default` members |
| WebServer.SettingTextIsMember | openmelt/web_server.cpp:826-832 | the text written field by field for one setting is its key with the setting's JSON object |
| WebServer.HandleEeprom | openmelt/web_server.cpp:822-864 | the `/eeprom` response is exactly the JSON object of the four settings |
| WebServer.EepromLedOffsetRoundTrip | openmelt/web_server.cpp:825-829 | the `value` text of the `ledOffset` setting reads back as the stored offset |
| LinePlot.NumberOr | openmelt/tiny_line_plot/TinyLinePlot.js:28-31 | a numeric option that is missing or zero takes the default, as a falsy value does in JavaScript |
| LinePlot.BoolOr | openmelt/tiny_line_plot/TinyLinePlot.js:29-32 | a flag that is present is kept, and a missing one takes the default |
| LinePlot.NewPlot | openmelt/tiny_line_plot/TinyLinePlot.js:7-58 | a new chart has no datasets, its window starts at 0 and auto-scroll follows its option; every supplied flag and palette is used as given, a supplied non-zero `maxPoints` or `viewWindowSize` is used and a missing or zero one becomes 100 or 50, and missing flags default to off, off and on |
| LinePlot.MaxLength | openmelt/tiny_line_plot/TinyLinePlot.js:488-495 | the data length bounds every dataset and is attained by one, or is 0 without datasets |
| LinePlot.GetDataLength | openmelt/tiny_line_plot/TinyLinePlot.js:489-495 | the data length bounds every dataset and is attained by one, or is 0 without datasets |
| LinePlot.NewPlotInRange | openmelt/tiny_line_plot/TinyLinePlot.js:51-54 | a new chart's window is in range |
| LinePlot.AddDataset | openmelt/tiny_line_plot/TinyLinePlot.js:60-68 | one dataset is appended with colour `count mod palette`, and the others and the window are kept |
| LinePlot.SliceFrom | openmelt/tiny_line_plot/TinyLinePlot.js:81 | `slice(k)` keeps the last `-k` items for negative `k` and drops the first `k` otherwise |
| LinePlot.AddPoint | openmelt/tiny_line_plot/TinyLinePlot.js:70-94 | an index out of range changes nothing; otherwise only that dataset's data changes, the point is appended unless streaming without retention trims it, and the window moves only when streaming with retention and auto-scroll once the dataset outgrows the window |
| LinePlot.StreamingKeepsNewest | openmelt/tiny_line_plot/TinyLinePlot.js:77-82 | streaming without retention keeps at most `maxPoints` points, the newest ones in order |
| LinePlot.NonStreamingKeepsAll | openmelt/tiny_line_plot/TinyLinePlot.js:76-77 | without streaming the point is appended and the window is kept |
| LinePlot.AutoScrollFollowsNewest | openmelt/tiny_line_plot/TinyLinePlot.js:86-91 | retaining and auto-scrolling, once the dataset exceeds the window the window ends at the newest point |
| LinePlot.Clear | openmelt/tiny_line_plot/TinyLinePlot.js:96-102 | all datasets are removed, the window starts at 0, and auto-scroll returns to its option |
| LinePlot.ClearDataset | openmelt/tiny_line_plot/TinyLinePlot.js:105-112 | only the named dataset is emptied, while the window and auto-scroll are reset in any case |
| LinePlot.EnableAutoScroll | openmelt/tiny_line_plot/TinyLinePlot.js:115-118 | auto-scroll is on and nothing else changes |
| LinePlot.DisableAutoScroll | openmelt/tiny_line_plot/TinyLinePlot.js:121-124 | auto-scroll is off and nothing else changes |
| LinePlot.ToggleAutoScroll | openmelt/tiny_line_plot/TinyLinePlot.js:127-130 | auto-scroll flips and nothing else changes |
| LinePlot.Scroll | openmelt/tiny_line_plot/TinyLinePlot.js:133-153 | a scroll that stays in range moves the start and turns auto-scroll off when backward; any other scroll changes nothing |
| LinePlot.ScrollTo | openmelt/tiny_line_plot/TinyLinePlot.js:156-177 | an in-range position becomes the start and turns auto-scroll off unless it is at the end; any other position changes nothing |
| LinePlot.ScrollToStart | openmelt/tiny_line_plot/TinyLinePlot.js:180-184 | the window starts at 0 with auto-scroll off |
| LinePlot.ScrollToEnd | openmelt/tiny_line_plot/TinyLinePlot.js:187-196 | the window starts at the last in-range position with auto-scroll on |
| LinePlot.ScrollToAgreesWithScroll | openmelt/tiny_line_plot/TinyLinePlot.js:133-177 | jumping to a position moves the start as scrolling by the difference does |
| LinePlot.ScrollBackRestoresStart | openmelt/tiny_line_plot/TinyLinePlot.js:133-153 | scrolling by `k` and then by `-k` restores the start |
| LinePlot.ScrollToEndIdempotent | openmelt/tiny_line_plot/TinyLinePlot.js:187-196 | scrolling to the end twice is the same as once |
| LinePlot.AddDatasetKeepsRange | openmelt/tiny_line_plot/TinyLinePlot.js:60-68 | adding a dataset keeps the window in range |
| LinePlot.ScrollingKeepsRange | openmelt/tiny_line_plot/TinyLinePlot.js:96-196 | every scroll, jump, clear and dataset clear keeps the window in range |
| LinePlot.AddPointKeepsRange | openmelt/tiny_line_plot/TinyLinePlot.js:70-94 | adding a point keeps the window in range unless the dataset is being trimmed |
| LinePlot.TrimmingCanLeaveWindowPastData | openmelt/tiny_line_plot/TinyLinePlot.js:77-82 | a concrete chart whose window is in range leaves it after a trimming `addPoint` |
| LinePlot.GrowingOneDataset | openmelt/tiny_line_plot/TinyLinePlot.js:488-495 | growing one dataset never shrinks the data length |

## Left out

- Floating point: float readings and formulas are `real`, and conversions
  to `int` truncate toward zero explicitly. Single-precision rounding is
  not modelled.
- Text is `seq<char>` and lengths count characters, where the C buffers
  count bytes. The two agree only for ASCII. The level glyphs are
  non-ASCII, and so is the `μ` (two bytes in UTF-8) of the RC pulse report
  (`rc_handler.cpp:107`) and of the motor messages (`motor_driver.cpp:223`,
  `227`, `281`). For text holding such characters the 99-byte entry cut
  (`debug_handler.cpp:116-126`) and the 2047-byte log buffer
  (`web_server.cpp:1460`) keep fewer characters than the model does.
- DebugLog.FormatEntry: cuts at 99 characters, not 99 bytes, so an entry
  holding `μ` keeps up to one character more than the firmware's.
- WebServer.UpdateWebData: cuts at 1023 and 2047 characters, not bytes;
  the difference arises only for log text holding glyphs or `μ`.
- Concurrency: the critical sections, the interrupt context and the web
  server task are not modelled. Each call is one atomic sequential step,
  with one clock sample per interrupt even where the code reads `micros()`
  twice.
- Hardware: servo, analog and digital writes are a list of `PinWrite`
  values in the order they are made. The `delay`s and the calibration
  timing of `arm_calibrate_escs` are not modelled; only its end state is.
- Serial output, `debug_printf`'s `vsnprintf` formatting, and the sniffing
  of `ACCEL` messages with `atof` are not modelled; they are float parsing
  and I/O.
- Float-valued dashboard fields (`gForce`, `accelUsed`, `accelX/Y/Z`,
  `battery`, `radius`) are rendered texts given as inputs. The parser's
  `toFloat` reads and the square-root RPM estimate are not modelled; the
  estimate is an integer parameter `rpmEstimate`.
- Float readings that go into the telemetry line are their `%.2f` texts,
  assumed to be at most 43 characters of digits, `.`, `-`, `inf` and `nan`.
  That covers every float.
- Values produced by other subsystems (accelerometer, battery monitor,
  EEPROM storage, spin control) are inputs of the diagnostics step.
  `accel_handler.cpp`, `led_driver.cpp`, `spin_control.cpp` and
  `config_storage.cpp` are not part of this model.
- `rc_get_translation_percent()` is not part of this model. The motor
  engine takes the translation intensity `s` as an input.
- Header constants not included here (`rc_handler.h`, the servo coast
  percent, the steering dead zone and motor reversal flags) are parameters
  with the assumptions the code needs.
- RcHandler.ThrottlePercent: the `long` products `(pulse - 1550) * 100`
  and `(pulse - IDLE) * 100` are exact only because `ValidConfig` bounds
  `FULL_THROTTLE_PULSE_LENGTH` so that they fit 32 bits
  (`RcHandler.InterpolationFitsLong`); a full-throttle length above
  21 476 386 us, where the product would wrap, is outside the model.
- Log calls outside the diagnostics step are not modelled: the motor
  engine's `debug_printf` reports (`motor_driver.cpp:223`, `227`, `281`)
  and the start-up messages do not enter the ring. Within the step, the
  entries logged while the readings are taken are the parameter `logged`
  of `Diagnostics.UpdateStandardDiagnostics`; whether
  `rc_get_throttle_percent` logs at a given call depends on its own
  1-second and 2-second timers, which are not modelled.
- Diagnostics.DashboardReadsBack: does not prove that the dashboard's
  `rpm` falls back to the estimate. No `RPM:` label is ever written, but
  the proof would need a search lemma over every label pair of the line.
- The HTML and JavaScript page, HTTP routing, `handleRoot`,
  `handleNotFound`, Wi-Fi setup and the chart's canvas drawing
  (`findMinMax`, `scalePoint`, `drawAxes`, `draw`) are not modelled; they
  are UI and float rendering.
- The dashboard's accelerometer fields are not modelled. The parser looks
  for `Accel X:` but the suffix writes ` X: `; showing that mismatch needs
  the float fields.
- Safety supervision, the watchdog and the boot throttle check are not
  modelled; only their configuration flags are visible.

=== FILE: debug_handler.dfy ===
/** The debug log of openmelt/debug_handler.cpp: a 20-slot circular buffer
    of formatted entries with a global rate limit, the telemetry line the
    diagnostics task maintains, and the text `get_debug_data` renders from
    both. */
module DebugLog {
  import opened Machine
  import opened Texts

  const DEBUG_MAX_ENTRIES: int := 20
  const DEBUG_ENTRY_LENGTH: int := 100
  const MIN_MS_BETWEEN_ENTRIES: int := 50
  /** `telemetry_data` is a 512-byte C string. */
  const TELEMETRY_CAPACITY: int := 511

  /** `enum DebugLevel`. */
  datatype Level = Info | Warning | Error

  function LevelValue(l: Level): (v: nat)
    ensures v <= 2
  {
    match l
    case Info => 0
    case Warning => 1
    case Error => 2
  }

  /** One slot of the ring. */
  datatype Entry = Entry(message: string, level: Level, timestamp: U32, used: bool)

  datatype DebugState = DebugState(
    entries: seq<Entry>,
    writeIndex: int,
    lastEntryTime: U32,
    initialized: bool,
    telemetry: string,
    webUpdateNeeded: bool,
    lastWebUpdate: U32)

  /** The shape every reachable state has: twenty slots, a write index inside
      the ring, and stored texts within their C buffers. */
  predicate Valid(st: DebugState)
  {
    && |st.entries| == DEBUG_MAX_ENTRIES
    && 0 <= st.writeIndex < DEBUG_MAX_ENTRIES
    && (forall i :: 0 <= i < |st.entries| ==> |st.entries[i].message| < DEBUG_ENTRY_LENGTH)
    && |st.telemetry| <= TELEMETRY_CAPACITY
  }

  /** The zero-initialised statics before `init_debug_handler` runs. */
  const InitialDebugState: DebugState :=
    DebugState(seq(DEBUG_MAX_ENTRIES, _ => Entry("", Info, 0, false)), 0, 0, false, "", false, 0)

  lemma InitialStateValid()
    ensures Valid(InitialDebugState)
    ensures !InitialDebugState.initialized
  {
  }

  /** `init_debug_handler`: every slot unused and empty, telemetry empty, and
      the log switched on.  The write index and the clocks are kept. */
  function InitDebugHandler(st: DebugState): (r: DebugState)
    requires Valid(st)
    ensures Valid(r) && r.initialized
    ensures forall i :: 0 <= i < |r.entries| ==> !r.entries[i].used && r.entries[i].message == ""
    ensures r.telemetry == ""
    ensures r.writeIndex == st.writeIndex && r.lastEntryTime == st.lastEntryTime
    ensures r == st.(entries := r.entries, telemetry := "", initialized := true)
    ensures |r.entries| == |st.entries|
    ensures forall i :: 0 <= i < |r.entries| ==> r.entries[i] == st.entries[i].(used := false, message := "")
  {
    var es := seq(|st.entries|, i requires 0 <= i < |st.entries| => st.entries[i].(used := false, message := ""));
    st.(entries := es, telemetry := "", initialized := true)
  }

  /** The entry text: `"[" module "] " message`, cut to the 99 characters a
      100-byte buffer holds. */
  function FormatEntry(origin: string, message: string): (r: string)
    ensures |r| < DEBUG_ENTRY_LENGTH
    ensures r <= "[" + origin + "] " + message
    ensures |origin| + |message| + 3 < DEBUG_ENTRY_LENGTH ==> r == "[" + origin + "] " + message
  {
    Truncate("[" + origin + "] " + message, DEBUG_ENTRY_LENGTH - 1)
  }

  /** A short module name is always visible in full at the head of the entry. */
  lemma FormatEntryShowsModule(origin: string, message: string)
    requires |origin| + 2 < DEBUG_ENTRY_LENGTH
    ensures FormatEntry(origin, message)[..|origin| + 2] == "[" + origin + "]"
  {
    var full := "[" + origin + "] " + message;
    assert full[..|origin| + 2] == "[" + origin + "]";
  }

  /** Whether `add_debug_entry` stores an entry at time `now`. */
  predicate Accepts(st: DebugState, now: U32)
  {
    st.initialized && Elapsed(now, st.lastEntryTime) >= MIN_MS_BETWEEN_ENTRIES
  }

  /** Writing one entry into the ring: the slot at the write index is
      replaced and the index moves on, wrapping at 20. */
  function RingWrite(es: seq<Entry>, w: int, e: Entry): (r: (seq<Entry>, int))
    requires |es| == DEBUG_MAX_ENTRIES && 0 <= w < DEBUG_MAX_ENTRIES
    ensures |r.0| == DEBUG_MAX_ENTRIES && 0 <= r.1 < DEBUG_MAX_ENTRIES
    ensures r.0[w] == e
    ensures forall i :: 0 <= i < DEBUG_MAX_ENTRIES && i != w ==> r.0[i] == es[i]
    ensures r.1 == (w + 1) % DEBUG_MAX_ENTRIES
  {
    (es[w := e], (w + 1) % DEBUG_MAX_ENTRIES)
  }

  /** `add_debug_entry`. Before initialisation and inside the 50 ms rate
      limit nothing is stored (the entry goes to the serial port only). */
  function AddDebugEntry(st: DebugState, level: Level, origin: string, message: string, now: U32): (r: DebugState)
    requires Valid(st)
    ensures Valid(r)
    ensures !Accepts(st, now) ==> r == st
    ensures Accepts(st, now) ==>
      && (r.entries, r.writeIndex) == RingWrite(st.entries, st.writeIndex, Entry(FormatEntry(origin, message), level, now, true))
      && r.lastEntryTime == now
      && r.webUpdateNeeded
      && r.telemetry == st.telemetry && r.initialized && r.lastWebUpdate == st.lastWebUpdate
  {
    if !st.initialized then st
    else if Elapsed(now, st.lastEntryTime) < MIN_MS_BETWEEN_ENTRIES then st
    else
      var ring := RingWrite(st.entries, st.writeIndex, Entry(FormatEntry(origin, message), level, now, true));
      st.(entries := ring.0, writeIndex := ring.1, lastEntryTime := now, webUpdateNeeded := true)
  }

  /** An entry arriving less than 50 ms after an accepted one is dropped,
      and the drop does not move the rate-limit clock. */
  lemma SecondEntryTooSoonIsDropped(st: DebugState, l1: Level, m1: string, t1: string, now: U32,
                                    l2: Level, m2: string, t2: string, later: U32)
    requires Valid(st) && Accepts(st, now)
    requires Elapsed(later, now) < MIN_MS_BETWEEN_ENTRIES
    ensures
      var a := AddDebugEntry(st, l1, m1, t1, now);
      AddDebugEntry(a, l2, m2, t2, later) == a
  {
  }

  /** One `debug_print`/`debug_printf` call as it reaches `add_debug_entry`:
      the level, the module and the already formatted message. */
  datatype LogRequest = LogRequest(level: Level, origin: string, message: string)

  /** Several entries logged one after the other at the same millisecond. */
  function AddDebugEntries(st: DebugState, reqs: seq<LogRequest>, now: U32): (r: DebugState)
    requires Valid(st)
    ensures Valid(r)
    decreases |reqs|
  {
    if |reqs| == 0 then st
    else AddDebugEntries(AddDebugEntry(st, reqs[0].level, reqs[0].origin, reqs[0].message, now), reqs[1..], now)
  }

  /** Within one millisecond the rate limit lets at most the first entry
      through: logging a run of entries at `now` is logging its first one. */
  lemma {:induction false} OneEntryPerInstant(st: DebugState, reqs: seq<LogRequest>, now: U32)
    requires Valid(st)
    ensures AddDebugEntries(st, reqs, now)
      == if |reqs| == 0 then st else AddDebugEntry(st, reqs[0].level, reqs[0].origin, reqs[0].message, now)
  {
    if |reqs| > 0 {
      var a := AddDebugEntry(st, reqs[0].level, reqs[0].origin, reqs[0].message, now);
      assert !Accepts(a, now);
      RejectedRun(a, reqs[1..], now);
    }
  }

  /** Entries the rate limit rejects change nothing. */
  lemma {:induction false} RejectedRun(st: DebugState, reqs: seq<LogRequest>, now: U32)
    requires Valid(st) && !Accepts(st, now)
    ensures AddDebugEntries(st, reqs, now) == st
    decreases |reqs|
  {
    if |reqs| > 0 {
      RejectedRun(st, reqs[1..], now);
    }
  }

  // ---------------------------------------------------------------------------
  // Rendering
  // ---------------------------------------------------------------------------

  /** The level indicator put in front of an entry. */
  function Glyph(l: Level): (g: string)
    ensures l == Info <==> g == ""
  {
    match l
    case Info => ""
    case Warning => "\U{26A0}\U{FE0F} "
    case Error => "\U{1F6D1} "
  }

  /** The ring read newest-first: slot w-1, then w-2, ..., wrapping round. */
  function NewestFirst(es: seq<Entry>, w: int): (r: seq<Entry>)
    requires |es| == DEBUG_MAX_ENTRIES && 0 <= w < DEBUG_MAX_ENTRIES
    ensures |r| == DEBUG_MAX_ENTRIES
    ensures forall i :: 0 <= i < DEBUG_MAX_ENTRIES ==> r[i] == es[Back(w, i)]
  {
    seq(DEBUG_MAX_ENTRIES, i requires 0 <= i < DEBUG_MAX_ENTRIES => es[(w - 1 - i + DEBUG_MAX_ENTRIES) % DEBUG_MAX_ENTRIES])
  }

  /** One line of the log: the glyph, the text and a newline; unused slots
      print nothing. */
  function LogLine(e: Entry): (r: string)
    ensures !e.used <==> r == ""
  {
    if e.used then Glyph(e.level) + e.message + "\n" else ""
  }

  function LogText(es: seq<Entry>): string
  {
    if |es| == 0 then "" else LogLine(es[0]) + LogText(es[1..])
  }

  /** `get_debug_data`. `accelText` is the optional accelerometer suffix the
      function formats from the latest readings ("" when all are zero). */
  function GetDebugData(st: DebugState, accelText: string): (r: string)
    requires Valid(st)
    ensures !st.initialized ==> r == "Debug system not initialized"
    ensures st.initialized ==> st.telemetry + accelText + "\n\n" <= r
    ensures st.initialized && (forall i :: 0 <= i < |st.entries| ==> !st.entries[i].used) ==>
      r == st.telemetry + accelText + "\n\n"
  {
    if !st.initialized then "Debug system not initialized"
    else
      var log := LogText(NewestFirst(st.entries, st.writeIndex));
      assert (forall i :: 0 <= i < |st.entries| ==> !st.entries[i].used) ==> log == "" by {
        if forall i :: 0 <= i < |st.entries| ==> !st.entries[i].used {
          NoUsedNoText(NewestFirst(st.entries, st.writeIndex));
        }
      }
      st.telemetry + accelText + "\n\n" + log
  }

  /** `clear_debug_data`: every slot unused and telemetry empty; the write
      index is deliberately left where it is. */
  function ClearDebugData(st: DebugState): (r: DebugState)
    requires Valid(st)
    ensures Valid(r)
    ensures !st.initialized ==> r == st
    ensures st.initialized ==>
      && r.telemetry == ""
      && r.writeIndex == st.writeIndex
      && (forall i :: 0 <= i < |r.entries| ==> !r.entries[i].used)
      && LogText(NewestFirst(r.entries, r.writeIndex)) == ""
    ensures st.initialized ==>
      && r == st.(entries := r.entries, telemetry := "")
      && |r.entries| == |st.entries|
      && forall i :: 0 <= i < |r.entries| ==> r.entries[i] == st.entries[i].(used := false)
  {
    if !st.initialized then st
    else
      var es := seq(|st.entries|, i requires 0 <= i < |st.entries| => st.entries[i].(used := false));
      NoUsedNoText(NewestFirst(es, st.writeIndex));
      st.(entries := es, telemetry := "")
  }

  /** After a clear the rendered text is just the telemetry separator. */
  lemma RenderAfterClear(st: DebugState, accelText: string)
    requires Valid(st) && st.initialized
    ensures GetDebugData(ClearDebugData(st), accelText) == accelText + "\n\n"
  {
    var r := ClearDebugData(st);
    var log := LogText(NewestFirst(r.entries, r.writeIndex));
    assert GetDebugData(r, accelText) == r.telemetry + accelText + "\n\n" + log;
    DropEmpty(r.telemetry, accelText, "\n\n", log);
  }

  lemma DropEmpty(t: string, x: string, y: string, l: string)
    requires t == [] && l == []
    ensures t + x + y + l == x + y
  {
  }

  lemma {:induction false} NoUsedNoText(es: seq<Entry>)
    requires forall i :: 0 <= i < |es| ==> !es[i].used
    ensures LogText(es) == ""
  {
    if |es| > 0 {
      NoUsedNoText(es[1..]);
    }
  }

  lemma {:induction false} LogTextAppend(a: seq<Entry>, b: seq<Entry>)
    ensures LogText(a + b) == LogText(a) + LogText(b)
  {
    if |a| == 0 {
      assert a + b == b;
    } else {
      assert (a + b)[1..] == a[1..] + b;
      LogTextAppend(a[1..], b);
    }
  }

  // ---------------------------------------------------------------------------
  // History: the ring keeps the twenty most recent entries
  // ---------------------------------------------------------------------------

  /** The ring after writing `hs` in order. */
  function RingWriteAll(es: seq<Entry>, w: int, hs: seq<Entry>): (r: (seq<Entry>, int))
    requires |es| == DEBUG_MAX_ENTRIES && 0 <= w < DEBUG_MAX_ENTRIES
    ensures |r.0| == DEBUG_MAX_ENTRIES && 0 <= r.1 < DEBUG_MAX_ENTRIES
  {
    if |hs| == 0 then (es, w)
    else
      var before := RingWriteAll(es, w, hs[..|hs| - 1]);
      RingWrite(before.0, before.1, hs[|hs| - 1])
  }

  /** The at most twenty most recent entries of `hs`, newest first. */
  function MostRecent(hs: seq<Entry>): (r: seq<Entry>)
    ensures |r| == if |hs| < DEBUG_MAX_ENTRIES then |hs| else DEBUG_MAX_ENTRIES
    ensures forall i :: 0 <= i < |r| ==> r[i] == hs[|hs| - 1 - i]
  {
    var m := if |hs| < DEBUG_MAX_ENTRIES then |hs| else DEBUG_MAX_ENTRIES;
    seq(m, i requires 0 <= i < m => hs[|hs| - 1 - i])
  }

  /** The slot `k` places before write index `w`, wrapping round the ring. */
  function Back(w: int, k: int): (j: int)
    ensures 0 <= j < DEBUG_MAX_ENTRIES
  {
    (w - 1 - k) % DEBUG_MAX_ENTRIES
  }

  /** The write index after a run of writes has advanced once per entry. */
  lemma {:induction false} RingIndex(es: seq<Entry>, w: int, hs: seq<Entry>)
    requires |es| == DEBUG_MAX_ENTRIES && 0 <= w < DEBUG_MAX_ENTRIES
    ensures RingWriteAll(es, w, hs).1 == (w + |hs|) % DEBUG_MAX_ENTRIES
  {
    if |hs| > 0 {
      var n := |hs|;
      var before := RingWriteAll(es, w, hs[..n - 1]);
      RingIndex(es, w, hs[..n - 1]);
      assert RingWriteAll(es, w, hs).1 == (before.1 + 1) % DEBUG_MAX_ENTRIES;
      ModAddCongruent(w + n - 1, 1);
    }
  }

  /** Where each entry sits after a run of writes: counting back from the
      slot before the write index, the k-th slot holds the k-th most recent
      entry, or its old content when fewer than k+1 entries were written. */
  lemma {:induction false} RingSlot(es: seq<Entry>, w: int, hs: seq<Entry>, k: int)
    requires |es| == DEBUG_MAX_ENTRIES && 0 <= w < DEBUG_MAX_ENTRIES
    requires 0 <= k < DEBUG_MAX_ENTRIES
    ensures RingWriteAll(es, w, hs).0[Back(w + |hs|, k)]
      == if k < |hs| then hs[|hs| - 1 - k] else es[Back(w + |hs|, k)]
  {
    var n := |hs|;
    if n > 0 {
      var prev := hs[..n - 1];
      var before := RingWriteAll(es, w, prev);
      var after := RingWrite(before.0, before.1, hs[n - 1]);
      assert RingWriteAll(es, w, hs) == after;
      RingIndex(es, w, prev);
      BackStep(w, n, k);
      if k > 0 {
        RingSlot(es, w, prev, k - 1);
        if k < n {
          assert prev[n - 1 - 1 - (k - 1)] == hs[n - 1 - k];
        }
      }
    }
  }

  /** Counting back from the newest slot: step 0 is the slot last written,
      and every later step is one step earlier counted from the ring one
      write before. */
  lemma BackStep(w: int, n: int, k: int)
    requires 0 <= k < DEBUG_MAX_ENTRIES
    ensures k == 0 ==> Back(w + n, k) == (w + n - 1) % DEBUG_MAX_ENTRIES
    ensures k > 0 ==> Back(w + n, k) != (w + n - 1) % DEBUG_MAX_ENTRIES
    ensures k > 0 ==> Back(w + n, k) == Back(w + (n - 1), k - 1)
  {
    if k > 0 {
      var a, b := w + n - 1 - k, w + n - 1;
      assert b - a == k;
      assert (a - b) % DEBUG_MAX_ENTRIES != 0;
      ModSub(a, b);
    }
  }

  /** Two numbers less than 20 apart modulo 20 are distinct. */
  lemma ModSub(a: int, b: int)
    requires 0 < b - a < DEBUG_MAX_ENTRIES
    ensures a % DEBUG_MAX_ENTRIES != b % DEBUG_MAX_ENTRIES
  {
    var qa, qb := a / DEBUG_MAX_ENTRIES, b / DEBUG_MAX_ENTRIES;
    assert a == DEBUG_MAX_ENTRIES * qa + a % DEBUG_MAX_ENTRIES;
    assert b == DEBUG_MAX_ENTRIES * qb + b % DEBUG_MAX_ENTRIES;
  }

  /** After any run of accepted entries into a cleared ring, the log lists
      exactly the twenty most recent of them, newest first: older entries
      have been overwritten, oldest first. */
  lemma RenderShowsMostRecent(es: seq<Entry>, w: int, hs: seq<Entry>)
    requires |es| == DEBUG_MAX_ENTRIES && 0 <= w < DEBUG_MAX_ENTRIES
    requires forall i :: 0 <= i < |es| ==> !es[i].used
    ensures
      var ring := RingWriteAll(es, w, hs);
      LogText(NewestFirst(ring.0, ring.1)) == LogText(MostRecent(hs))
  {
    var ring := RingWriteAll(es, w, hs);
    var view := NewestFirst(ring.0, ring.1);
    var recent := MostRecent(hs);
    var m := |recent|;
    forall i | 0 <= i < m
      ensures view[i] == recent[i]
    {
      ViewSlot(es, w, hs, i);
    }
    forall i | m <= i < DEBUG_MAX_ENTRIES
      ensures !view[i].used
    {
      ViewSlot(es, w, hs, i);
    }
    SplitRender(view, recent);
  }

  /** The i-th entry of the newest-first view after a run of writes. */
  lemma ViewSlot(es: seq<Entry>, w: int, hs: seq<Entry>, i: int)
    requires |es| == DEBUG_MAX_ENTRIES && 0 <= w < DEBUG_MAX_ENTRIES
    requires 0 <= i < DEBUG_MAX_ENTRIES
    ensures
      var ring := RingWriteAll(es, w, hs);
      NewestFirst(ring.0, ring.1)[i] == if i < |hs| then hs[|hs| - 1 - i] else es[Back(w + |hs|, i)]
  {
    var ring := RingWriteAll(es, w, hs);
    RingIndex(es, w, hs);
    ModAddCongruent(w + |hs|, -1 - i);
    assert Back(ring.1, i) == Back(w + |hs|, i);
    RingSlot(es, w, hs, i);
  }

  /** Reducing a summand modulo 20 first does not change the result. */
  lemma ModAddCongruent(a: int, b: int)
    ensures (a % DEBUG_MAX_ENTRIES + b) % DEBUG_MAX_ENTRIES == (a + b) % DEBUG_MAX_ENTRIES
  {
    var q := a / DEBUG_MAX_ENTRIES;
    assert a == DEBUG_MAX_ENTRIES * q + a % DEBUG_MAX_ENTRIES;
  }

  /** A view that starts with `recent` and has only unused slots after it
      renders as `recent` does. */
  lemma SplitRender(view: seq<Entry>, recent: seq<Entry>)
    requires |recent| <= |view|
    requires forall i :: 0 <= i < |recent| ==> view[i] == recent[i]
    requires forall i :: |recent| <= i < |view| ==> !view[i].used
    ensures LogText(view) == LogText(recent)
  {
    var m := |recent|;
    assert LogText(view[..m]) == LogText(recent) by { SamePrefix(view, recent); }
    assert LogText(view[m..]) == "" by { UnusedTail(view, m); }
    assert LogText(view) == LogText(view[..m]) + LogText(view[m..]) by { SplitAt(view, m); }
  }

  lemma SamePrefix(view: seq<Entry>, recent: seq<Entry>)
    requires |recent| <= |view|
    requires forall i :: 0 <= i < |recent| ==> view[i] == recent[i]
    ensures view[..|recent|] == recent
  {
  }

  lemma SplitAt(view: seq<Entry>, m: int)
    requires 0 <= m <= |view|
    ensures LogText(view) == LogText(view[..m]) + LogText(view[m..])
  {
    assert view == view[..m] + view[m..];
    LogTextAppend(view[..m], view[m..]);
  }

  lemma UnusedTail(view: seq<Entry>, m: int)
    requires 0 <= m <= |view|
    requires forall i :: m <= i < |view| ==> !view[i].used
    ensures LogText(view[m..]) == ""
  {
    var back := view[m..];
    assert forall j :: 0 <= j < |back| ==> back[j] == view[m + j];
    NoUsedNoText(back);
  }
}

=== FILE: diagnostics.dfy ===
/** The periodic diagnostics step (`update_standard_diagnostics` in
    openmelt/debug_handler.cpp): build the one-line telemetry text from the
    current readings, store it in the debug log, and publish telemetry and
    log to the web buffers.  The lemmas follow the line through the web
    server's parser and say which readings the dashboard gets back. */
module Diagnostics {
  import opened Machine
  import opened Texts
  import opened MeltyConfig
  import opened Wrappers
  import DebugLog
  import WebServer

  /** The web copy is refreshed at most every 250 ms unless an entry asked for it. */
  const WEB_UPDATE_INTERVAL_MS: int := 250

  /** `char buffer[64]`: one formatted piece holds at most 63 characters. */
  const PIECE_CAPACITY: int := 63

  /** `char accelBuffer[128]` in `get_debug_data`. */
  const ACCEL_TEXT_CAPACITY: int := 127

  /** The readings one diagnostics step reports, as the other subsystems
      return them.  Floating-point readings arrive already rendered by
      `%.2f`. */
  datatype Readings = Readings(
    accelG: string,
    rcHealthy: bool,
    rcThrottle: Int32,
    leftRight: Int32,
    forBack: Int32,
    motor1Width: Int32,
    motor2Width: Int32,
    battery: string,
    radius: string,
    heading: Int32,
    zeroG: string)

  /** The latest accelerometer values `get_debug_data` appends, rendered by
      `%.2f`; `nonZero` is whether any of x, y, z differs from 0. */
  datatype AccelReadings = AccelReadings(x: string, y: string, z: string, used: string, nonZero: bool)

  /** Every character of `t` is one of `alphabet`. */
  predicate CharsIn(t: string, alphabet: string)
  {
    forall i :: 0 <= i < |t| ==> t[i] in alphabet
  }

  /** What `%.2f` prints for a finite float, `inf` or `nan`: at most 43
      characters (sign, 39 integer digits, point and two decimals). */
  predicate FloatText(t: string)
  {
    |t| <= 43 && CharsIn(t, "0123456789.-infa")
  }

  predicate ReadingsWellFormed(r: Readings)
  {
    FloatText(r.accelG) && FloatText(r.battery) && FloatText(r.radius) && FloatText(r.zeroG)
  }

  predicate AccelWellFormed(a: AccelReadings)
  {
    FloatText(a.x) && FloatText(a.y) && FloatText(a.z) && FloatText(a.used)
  }

  lemma CharNotIn(t: string, alphabet: string, c: char)
    requires CharsIn(t, alphabet) && c !in alphabet
    ensures c !in t
  {
  }

  lemma IntToStringChars(n: int)
    ensures CharsIn(IntToString(n), "0123456789-")
  {
    NumeralChars(n);
  }

  // ---------------------------------------------------------------------------
  // Building the telemetry line
  // ---------------------------------------------------------------------------

  /** The texts the step formats, in order.  Motor pulses appear because the
      build drives servo-pulse ESCs; battery only when the battery alert is
      configured; radius, heading and zero-g with EEPROM storage. */
  function Pieces(r: Readings): (ps: seq<string>)
    ensures |ps| == 10
    ensures forall i :: 0 <= i < |ps| ==> EndsWithGap(ps[i])
  {
    [ ACCEL_G_LABEL + r.accelG + "  ",
      RC_HEALTH_LABEL + (if r.rcHealthy then "1" else "0") + "  ",
      RC_THROTTLE_LABEL + IntToString(r.rcThrottle) + "  ",
      RC_LR_LABEL + IntToString(r.leftRight) + "  ",
      RC_FB_LABEL + IntToString(r.forBack) + "  " ]
    + (if THROTTLE_TYPE == ServoPwmThrottle then
         [ MOTOR1_LABEL + IntToString(r.motor1Width) + "us  ",
           MOTOR2_LABEL + IntToString(r.motor2Width) + "us  " ]
       else [])
    + (if BATTERY_ALERT_ENABLED then [BATTERY_LABEL + r.battery + "V  "] else [])
    + (if ENABLE_EEPROM_STORAGE then
         [ RADIUS_LABEL + r.radius + "  ",
           HEADING_LABEL + IntToString(r.heading) + "  ",
           ZERO_G_LABEL + r.zeroG + "  " ]
       else [])
  }

  /** Every reading is followed by the two spaces that separate it from the next. */
  predicate EndsWithGap(p: string)
  {
    |p| >= 2 && p[|p| - 2..] == "  "
  }

  /** The labels the telemetry line puts before each value. */
  const ACCEL_G_LABEL: string := "Raw Accel G: "
  const RC_HEALTH_LABEL: string := "RC Health: "
  const RC_THROTTLE_LABEL: string := "RC Throttle: "
  const RC_LR_LABEL: string := "RC L/R: "
  const RC_FB_LABEL: string := "RC F/B: "
  const MOTOR1_LABEL: string := "Motor1 PWM: "
  const MOTOR2_LABEL: string := "Motor2 PWM: "
  const BATTERY_LABEL: string := "Battery: "
  const RADIUS_LABEL: string := "Radius: "
  const HEADING_LABEL: string := "Heading: "
  const ZERO_G_LABEL: string := "Zero G: "

  /** `strncat(line, piece, 512 - strlen(line) - 1)`: append as much as the
      512-byte line still holds. */
  function StrnCat(line: string, piece: string): (r: string)
    requires |line| <= DebugLog.TELEMETRY_CAPACITY
    ensures |r| <= DebugLog.TELEMETRY_CAPACITY
    ensures line <= r
    ensures |line| + |piece| <= DebugLog.TELEMETRY_CAPACITY ==> r == line + piece
  {
    line + Truncate(piece, DebugLog.TELEMETRY_CAPACITY - |line|)
  }

  /** The line the step builds: each piece cut to its 64-byte buffer by
      `snprintf`, then appended with `strncat`. */
  function BuildLine(ps: seq<string>): (r: string)
    ensures |r| <= DebugLog.TELEMETRY_CAPACITY
    ensures |ps| > 0 ==> BuildLine(ps[..|ps| - 1]) <= r
  {
    if |ps| == 0 then ""
    else StrnCat(BuildLine(ps[..|ps| - 1]), Truncate(ps[|ps| - 1], PIECE_CAPACITY))
  }

  /** The pieces joined with nothing lost. */
  function Concat(ps: seq<string>): string
  {
    if |ps| == 0 then "" else Concat(ps[..|ps| - 1]) + ps[|ps| - 1]
  }

  /** Pieces that fit their buffers and a total that fits the line are
      appended intact: the line is their plain concatenation. */
  lemma {:induction false} BuildLineExact(ps: seq<string>)
    requires forall i :: 0 <= i < |ps| ==> |ps[i]| <= PIECE_CAPACITY
    requires |Concat(ps)| <= DebugLog.TELEMETRY_CAPACITY
    ensures BuildLine(ps) == Concat(ps)
  {
    if |ps| > 0 {
      var init := ps[..|ps| - 1];
      assert forall i :: 0 <= i < |init| ==> init[i] == ps[i];
      BuildLineExact(init);
    }
  }

  lemma {:induction false} ConcatSplit(ps: seq<string>, i: nat)
    requires i < |ps|
    ensures Concat(ps) == Concat(ps[..i]) + ps[i] + Concat(ps[i + 1..])
    decreases |ps|
  {
    var n := |ps|;
    if i == n - 1 {
      assert ps[..n - 1] == ps[..i];
      assert ps[i + 1..] == [];
    } else {
      var init := ps[..n - 1];
      ConcatSplit(init, i);
      assert init[..i] == ps[..i];
      assert init[i] == ps[i];
      assert ps[i + 1..][..|ps[i + 1..]| - 1] == init[i + 1..];
      assert ps[i + 1..][|ps[i + 1..]| - 1] == ps[n - 1];
    }
  }

  lemma {:induction false} ConcatAvoids(ps: seq<string>, c: char)
    requires forall j :: 0 <= j < |ps| ==> c !in ps[j]
    ensures c !in Concat(ps)
  {
    if |ps| > 0 {
      var init := ps[..|ps| - 1];
      assert forall j :: 0 <= j < |init| ==> init[j] == ps[j];
      ConcatAvoids(init, c);
    }
  }

  lemma {:induction false} ConcatLength(ps: seq<string>, caps: seq<int>)
    requires |caps| == |ps|
    requires forall i :: 0 <= i < |ps| ==> |ps[i]| <= caps[i]
    ensures |Concat(ps)| <= Sum(caps)
  {
    if |ps| > 0 {
      var n := |ps|;
      assert forall i :: 0 <= i < n - 1 ==> ps[..n - 1][i] == ps[i] && caps[..n - 1][i] == caps[i];
      ConcatLength(ps[..n - 1], caps[..n - 1]);
    }
  }

  function Sum(xs: seq<int>): int
  {
    if |xs| == 0 then 0 else Sum(xs[..|xs| - 1]) + xs[|xs| - 1]
  }

  /** The longest each piece can be: a float piece carries at most 43
      rendered characters and an integer piece at most 11. */
  lemma PieceLengths(r: Readings)
    requires ReadingsWellFormed(r)
    ensures forall i :: 0 <= i < 10 ==> |Pieces(r)[i]| <= [58, 14, 26, 21, 21, 27, 27, 53, 22, 53][i]
  {
    IntToStringInt32Length(r.rcThrottle);
    IntToStringInt32Length(r.leftRight);
    IntToStringInt32Length(r.forBack);
    IntToStringInt32Length(r.motor1Width);
    IntToStringInt32Length(r.motor2Width);
    IntToStringInt32Length(r.heading);
  }

  lemma SumOfCaps(caps: seq<int>)
    requires caps == [58, 14, 26, 21, 21, 27, 27, 53, 22, 53]
    ensures Sum(caps) == 322
  {
    assert Sum(caps[..1]) == 58 by { assert caps[..1][..0] == []; }
    assert Sum(caps[..2]) == 72 by { assert caps[..2][..1] == caps[..1]; }
    assert Sum(caps[..3]) == 98 by { assert caps[..3][..2] == caps[..2]; }
    assert Sum(caps[..4]) == 119 by { assert caps[..4][..3] == caps[..3]; }
    assert Sum(caps[..5]) == 140 by { assert caps[..5][..4] == caps[..4]; }
    assert Sum(caps[..6]) == 167 by { assert caps[..6][..5] == caps[..5]; }
    assert Sum(caps[..7]) == 194 by { assert caps[..7][..6] == caps[..6]; }
    assert Sum(caps[..8]) == 247 by { assert caps[..8][..7] == caps[..7]; }
    assert Sum(caps[..9]) == 269 by { assert caps[..9][..8] == caps[..8]; }
    assert caps[..10] == caps;
    assert caps[..10][..9] == caps[..9];
  }

  /** The telemetry line the step builds from the readings. */
  function TelemetryLine(r: Readings): (line: string)
    ensures |line| <= DebugLog.TELEMETRY_CAPACITY
  {
    BuildLine(Pieces(r))
  }

  /** For well-formed readings no piece is cut: the line is the plain
      concatenation of the pieces and stays far inside its 511 characters
      (at most 322). */
  lemma TelemetryLineExact(r: Readings)
    requires ReadingsWellFormed(r)
    ensures TelemetryLine(r) == Concat(Pieces(r))
    ensures |TelemetryLine(r)| <= 322
  {
    var ps := Pieces(r);
    var caps := [58, 14, 26, 21, 21, 27, 27, 53, 22, 53];
    PieceLengths(r);
    ConcatLength(ps, caps);
    SumOfCaps(caps);
    BuildLineExact(ps);
  }

  /** The accelerometer suffix `get_debug_data` appends when any axis reads
      non-zero, cut to its 128-byte buffer. */
  function AccelText(a: AccelReadings): (t: string)
    ensures |t| <= ACCEL_TEXT_CAPACITY
    ensures !a.nonZero ==> t == ""
  {
    if a.nonZero then
      Truncate(" X: " + a.x + "g, Y: " + a.y + "g, Z: " + a.z + "g, Used value: " + a.used + "g",
               ACCEL_TEXT_CAPACITY)
    else ""
  }

  // ---------------------------------------------------------------------------
  // The step
  // ---------------------------------------------------------------------------

  /** The rate limit: publish when 250 ms have passed since the last publish
      (on the wrapping millisecond clock) or an entry asked for it. */
  predicate PublishDue(st: DebugLog.DebugState, now: U32)
  {
    Elapsed(now, st.lastWebUpdate) >= WEB_UPDATE_INTERVAL_MS || st.webUpdateNeeded
  }

  /** Split `get_debug_data`'s text at the first blank line into the
      telemetry part and the log part; without one, everything is telemetry. */
  function SplitData(data: string): (r: (string, string))
    ensures Occurs(data, "\n\n") ==> data == r.0 + "\n\n" + r.1 && !Occurs(r.0, "\n\n")
    ensures !Occurs(data, "\n\n") ==> r == (data, "")
  {
    var sep := IndexOf(data, "\n\n");
    if sep != -1 then
      FirstOccurrenceSplit(data, "\n\n");
      (data[..sep], Suffix(data, sep + 2))
    else (data, "")
  }

  /** `update_standard_diagnostics`: nothing happens before the log is
      initialised or while the rate limit holds; otherwise the clock and the
      request flag are reset and the readings are taken.  Taking them can log
      (`rc_get_throttle_percent` reports the raw pulse every second); those
      entries, `logged`, go through `add_debug_entry` after the flag was
      cleared, so an accepted one sets it again and appears in the log
      published by this very step.  The new line then replaces the stored
      telemetry, and the debug text is split into the two web buffers. */
  function UpdateStandardDiagnostics(st: DebugLog.DebugState, web: WebServer.WebBuffers, now: U32,
                                     r: Readings, a: AccelReadings, logged: seq<DebugLog.LogRequest>)
    : (res: (DebugLog.DebugState, WebServer.WebBuffers))
    requires DebugLog.Valid(st)
    ensures DebugLog.Valid(res.0)
    ensures !st.initialized || !PublishDue(st, now) ==> res == (st, web)
    ensures st.initialized && PublishDue(st, now) ==>
      && res.0.lastWebUpdate == now && res.0.initialized
      && (res.0.webUpdateNeeded <==> |logged| > 0 && DebugLog.Accepts(st, now))
      && (res.0.webUpdateNeeded ==>
            && (res.0.entries, res.0.writeIndex) == DebugLog.RingWrite(st.entries, st.writeIndex,
                 DebugLog.Entry(DebugLog.FormatEntry(logged[0].origin, logged[0].message), logged[0].level, now, true))
            && res.0.lastEntryTime == now)
      && (!res.0.webUpdateNeeded ==>
            res.0.entries == st.entries && res.0.writeIndex == st.writeIndex && res.0.lastEntryTime == st.lastEntryTime)
      && |res.1.telemetry| <= WebServer.TELEMETRY_BUFFER_CAPACITY
      && |res.1.logs| <= WebServer.LOG_BUFFER_CAPACITY
  {
    if !st.initialized then (st, web)
    else if Elapsed(now, st.lastWebUpdate) < WEB_UPDATE_INTERVAL_MS && !st.webUpdateNeeded then (st, web)
    else
      var st1 := st.(lastWebUpdate := now, webUpdateNeeded := false);
      var st2 := DebugLog.AddDebugEntries(st1, logged, now);
      DebugLog.OneEntryPerInstant(st1, logged, now);
      var st3 := st2.(telemetry := Truncate(TelemetryLine(r), DebugLog.TELEMETRY_CAPACITY));
      var parts := SplitData(DebugLog.GetDebugData(st3, AccelText(a)));
      (st3, WebServer.UpdateWebData(parts.0, parts.1))
  }

  /** A published step stores the line as the log's telemetry and hands the
      web server the line with the accelerometer suffix as telemetry and, as
      the log text, the ring as the step leaves it, rendered newest first:
      an entry logged while the readings were taken is already in it. */
  lemma PublishedBuffers(st: DebugLog.DebugState, web: WebServer.WebBuffers, now: U32, r: Readings, a: AccelReadings,
                         logged: seq<DebugLog.LogRequest>)
    requires DebugLog.Valid(st) && st.initialized && PublishDue(st, now)
    requires ReadingsWellFormed(r) && AccelWellFormed(a)
    ensures var res := UpdateStandardDiagnostics(st, web, now, r, a, logged);
      && res.0.telemetry == Concat(Pieces(r))
      && res.1.telemetry == Concat(Pieces(r)) + AccelText(a)
      && res.1.logs == Truncate(DebugLog.LogText(DebugLog.NewestFirst(res.0.entries, res.0.writeIndex)), WebServer.LOG_BUFFER_CAPACITY)
  {
    var res := UpdateStandardDiagnostics(st, web, now, r, a, logged);
    TelemetryLineExact(r);
    NoNewlineInLine(r, a);
    var t := TelemetryLine(r) + AccelText(a);
    var logs := DebugLog.LogText(DebugLog.NewestFirst(res.0.entries, res.0.writeIndex));
    SplitFindsSeparator(t, logs);
    assert |t| <= 322 + ACCEL_TEXT_CAPACITY;
  }

  /** Between two publishes closer than 250 ms, when the first step logged
      nothing that the ring accepted, the second step changes nothing. */
  lemma RateLimited(st: DebugLog.DebugState, web: WebServer.WebBuffers, now: U32, later: U32,
                    r1: Readings, a1: AccelReadings, l1: seq<DebugLog.LogRequest>,
                    r2: Readings, a2: AccelReadings, l2: seq<DebugLog.LogRequest>)
    requires DebugLog.Valid(st) && st.initialized && PublishDue(st, now)
    requires |l1| == 0 || !DebugLog.Accepts(st, now)
    requires Elapsed(later, now) < WEB_UPDATE_INTERVAL_MS
    ensures var s1 := UpdateStandardDiagnostics(st, web, now, r1, a1, l1);
      UpdateStandardDiagnostics(s1.0, s1.1, later, r2, a2, l2) == s1
  {
  }

  /** Within 250 ms of a publish, the next step publishes again exactly when
      the first one stored an entry while taking its readings. */
  lemma RepublishedAfterLogging(st: DebugLog.DebugState, web: WebServer.WebBuffers, now: U32, later: U32,
                                r: Readings, a: AccelReadings, logged: seq<DebugLog.LogRequest>)
    requires DebugLog.Valid(st) && st.initialized && PublishDue(st, now)
    requires Elapsed(later, now) < WEB_UPDATE_INTERVAL_MS
    ensures PublishDue(UpdateStandardDiagnostics(st, web, now, r, a, logged).0, later)
      <==> |logged| > 0 && DebugLog.Accepts(st, now)
  {
  }

  /** The blank line is found where `get_debug_data` put it: the telemetry
      line and the accelerometer suffix contain no newline. */
  lemma {:induction false} SplitFindsSeparator(t: string, logs: string)
    requires '\n' !in t
    ensures SplitData(t + "\n\n" + logs) == (t, logs)
  {
    FoundAfterPrefix(t, "\n\n", logs, 0);
    var data := t + "\n\n" + logs;
    assert data[..|t|] == t;
    assert Suffix(data, |t| + 2) == logs;
  }

  lemma NoNewlineInLine(r: Readings, a: AccelReadings)
    requires ReadingsWellFormed(r) && AccelWellFormed(a)
    ensures '\n' !in TelemetryLine(r) + AccelText(a)
  {
    TelemetryLineExact(r);
    PrefixAvoids(r, 10, '\n');
    assert Pieces(r)[..10] == Pieces(r);
    AccelAvoids(a, '\n');
  }

  /** A character that none of the first `i` pieces contains: newline and
      `S` appear in no piece, `T` not before the throttle piece and `M` not
      before the first motor piece. */
  lemma PrefixAvoids(r: Readings, i: nat, c: char)
    requires ReadingsWellFormed(r) && i <= 10
    requires c == '\n' || c == 'S' || (c == 'T' && i <= 2) || (c == 'M' && i <= 5) || (c == 'W' && i <= 5)
    ensures c !in Concat(Pieces(r)[..i])
  {
    var ps := Pieces(r)[..i];
    forall j | 0 <= j < |ps|
      ensures c !in ps[j]
    {
      PieceAvoids(r, j, c);
    }
    ConcatAvoids(ps, c);
  }

  lemma PieceAvoids(r: Readings, j: nat, c: char)
    requires ReadingsWellFormed(r) && j < 10
    requires c == '\n' || c == 'S' || (c == 'T' && j < 2) || (c == 'M' && j < 5) || (c == 'W' && j < 5)
    ensures c !in Pieces(r)[j]
  {
    if j < 5 {
      RcPieceAvoids(r, j, c);
    } else {
      LaterPieceAvoids(r, j, c);
    }
  }

  lemma RcPieceAvoids(r: Readings, j: nat, c: char)
    requires ReadingsWellFormed(r) && j < 5
    requires c == '\n' || c == 'S' || (c == 'T' && j < 2) || c == 'M' || c == 'W'
    ensures c !in Pieces(r)[j]
  {
    if j < 2 {
      HeadPieceAvoids(r, j, c);
    } else {
      StickPieceAvoids(r, j, c);
    }
  }

  lemma HeadPieceAvoids(r: Readings, j: nat, c: char)
    requires ReadingsWellFormed(r) && j < 2
    requires c == '\n' || c == 'S' || c == 'T' || c == 'M' || c == 'W'
    ensures c !in Pieces(r)[j]
  {
    PiecesAt(r);
    if j == 0 {
      AccelPieceAvoids(r.accelG, c);
    } else {
      HealthPieceAvoids(if r.rcHealthy then "1" else "0", c);
    }
  }

  lemma AccelPieceAvoids(t: string, c: char)
    requires FloatText(t)
    requires c == '\n' || c == 'S' || c == 'T' || c == 'M' || c == 'W'
    ensures c !in ACCEL_G_LABEL + t + "  "
  {
    FloatAvoids(t, c);
    PieceOf(ACCEL_G_LABEL, t, "  ", c);
  }

  lemma HealthPieceAvoids(h: string, c: char)
    requires h == "1" || h == "0"
    requires c == '\n' || c == 'S' || c == 'T' || c == 'M' || c == 'W'
    ensures c !in RC_HEALTH_LABEL + h + "  "
  {
    PieceOf(RC_HEALTH_LABEL, h, "  ", c);
  }

  lemma StickPieceAvoids(r: Readings, j: nat, c: char)
    requires ReadingsWellFormed(r) && 2 <= j < 5
    requires c == '\n' || c == 'S' || c == 'M' || c == 'W'
    ensures c !in Pieces(r)[j]
  {
    PiecesAt(r);
    if j == 2 {
      IntAvoids(r.rcThrottle, c);
      PieceOf("RC Throttle: ", IntToString(r.rcThrottle), "  ", c);
    } else if j == 3 {
      IntAvoids(r.leftRight, c);
      PieceOf("RC L/R: ", IntToString(r.leftRight), "  ", c);
    } else {
      IntAvoids(r.forBack, c);
      PieceOf("RC F/B: ", IntToString(r.forBack), "  ", c);
    }
  }

  lemma LaterPieceAvoids(r: Readings, j: nat, c: char)
    requires ReadingsWellFormed(r) && 5 <= j < 10
    requires c == '\n' || c == 'S'
    ensures c !in Pieces(r)[j]
  {
    PiecesAt(r);
    if j == 5 {
      IntAvoids(r.motor1Width, c);
      PieceOf("Motor1 PWM: ", IntToString(r.motor1Width), "us  ", c);
    } else if j == 6 {
      IntAvoids(r.motor2Width, c);
      PieceOf("Motor2 PWM: ", IntToString(r.motor2Width), "us  ", c);
    } else if j == 7 {
      FloatAvoids(r.radius, c);
      PieceOf("Radius: ", r.radius, "  ", c);
    } else if j == 8 {
      IntAvoids(r.heading, c);
      PieceOf("Heading: ", IntToString(r.heading), "  ", c);
    } else {
      FloatAvoids(r.zeroG, c);
      PieceOf("Zero G: ", r.zeroG, "  ", c);
    }
  }

  /** The ten pieces one by one, under the configured build flags. */
  lemma PiecesAt(r: Readings)
    ensures var ps := Pieces(r);
      && ps[0] == "Raw Accel G: " + r.accelG + "  "
      && ps[1] == "RC Health: " + (if r.rcHealthy then "1" else "0") + "  "
      && ps[2] == "RC Throttle: " + IntToString(r.rcThrottle) + "  "
      && ps[3] == "RC L/R: " + IntToString(r.leftRight) + "  "
      && ps[4] == "RC F/B: " + IntToString(r.forBack) + "  "
      && ps[5] == "Motor1 PWM: " + IntToString(r.motor1Width) + "us  "
      && ps[6] == "Motor2 PWM: " + IntToString(r.motor2Width) + "us  "
      && ps[7] == "Radius: " + r.radius + "  "
      && ps[8] == "Heading: " + IntToString(r.heading) + "  "
      && ps[9] == "Zero G: " + r.zeroG + "  "
  {
  }

  /** `%.2f` output holds no letter other than those of `inf` and `nan`, and no newline. */
  lemma FloatAvoids(t: string, c: char)
    requires FloatText(t)
    requires c == '\n' || c == 'S' || c == 'T' || c == 'M' || c == 'W'
    ensures c !in t
  {
    CharNotIn(t, "0123456789.-infa", c);
  }

  lemma PieceOf(head: string, value: string, tail: string, c: char)
    requires c !in head && c !in value && c !in tail
    ensures c !in head + value + tail
  {
  }

  /** `%d` output holds no letter and no newline. */
  lemma IntAvoids(n: int, c: char)
    requires c == '\n' || c == 'S' || c == 'T' || c == 'M' || c == 'W'
    ensures c !in IntToString(n)
  {
    IntToStringChars(n);
    CharNotIn(IntToString(n), "0123456789-", c);
  }

  lemma AccelAvoids(a: AccelReadings, c: char)
    requires AccelWellFormed(a)
    requires c == '\n' || c == 'S' || c == 'T' || c == 'M'
    ensures c !in AccelText(a)
  {
    FloatAvoids(a.x, c);
    FloatAvoids(a.y, c);
    FloatAvoids(a.z, c);
    FloatAvoids(a.used, c);
    AccelLineAvoids(a.x, a.y, a.z, a.used, c);
    TruncateAvoids(" X: " + a.x + "g, Y: " + a.y + "g, Z: " + a.z + "g, Used value: " + a.used + "g", ACCEL_TEXT_CAPACITY, c);
  }

  lemma AccelLineAvoids(x: string, y: string, z: string, used: string, c: char)
    requires c !in x && c !in y && c !in z && c !in used
    requires c == '\n' || c == 'S' || c == 'T' || c == 'M'
    ensures c !in " X: " + x + "g, Y: " + y + "g, Z: " + z + "g, Used value: " + used + "g"
  {
  }

  lemma TruncateAvoids(s: string, n: nat, c: char)
    requires c !in s
    ensures c !in Truncate(s, n)
  {
    if n < |s| {
      assert forall i :: 0 <= i < n ==> s[..n][i] == s[i];
    }
  }

  // ---------------------------------------------------------------------------
  // What the dashboard reads back
  // ---------------------------------------------------------------------------

  /** An integer piece `tag + " " + %d + tail` is read back by the parser
      from the joined pieces when a character of the tag occurs in no earlier
      piece and not earlier in the tag. */
  lemma {:induction false} ReadFieldOfLine(ps: seq<string>, i: nat, tag: string, k: nat, n: Int32, tail: string, extra: string)
    requires i < |ps| && ps[i] == tag + " " + IntToString(n) + tail
    requires |tail| > 0 && !IsDigit(tail[0])
    requires k < |tag| && tag[k] !in tag[..k] && tag[k] !in Concat(ps[..i])
    ensures WebServer.ReadIntAt(Concat(ps) + extra, tag, |tag|) == Some(n)
  {
    var p, after := Concat(ps[..i]), Concat(ps[i + 1..]);
    var rest := tail + (after + extra);
    assert Concat(ps) + extra == p + ps[i] + (after + extra) by {
      ConcatSplit(ps, i);
    }
    Regroup(p, tag, " ", IntToString(n), tail, after + extra);
    WebServer.ReadIntAfterLabel(p, tag, k, n, rest);
  }

  /** Moving the parentheses of a piece written out in four parts. */
  lemma Regroup(p: string, a: string, b: string, c: string, d: string, e: string)
    ensures p + (a + b + c + d) + e == p + a + b + c + (d + e)
  {
  }

  /** The second motor's piece is found even though the first motor's piece,
      which differs from it in one digit, comes before it. */
  lemma Motor2FieldRead(r: Readings, extra: string)
    requires ReadingsWellFormed(r)
    ensures WebServer.ReadIntAt(Concat(Pieces(r)) + extra, "Motor2 PWM:", 11) == Some(r.motor2Width)
  {
    var ps := Pieces(r);
    var front := Concat(ps[..5]);
    var tail := "us  " + Concat(ps[7..]) + extra;
    MotorPiecesLayout(r, extra);
    PrefixAvoids(r, 5, 'W');
    IntAvoids(r.motor1Width, 'W');
    ReadAfterDecoy(front, IntToString(r.motor1Width), r.motor2Width, tail);
  }

  /** Where the two motor pieces sit in the line. */
  lemma MotorPiecesLayout(r: Readings, extra: string)
    ensures Concat(Pieces(r)) + extra
      == Concat(Pieces(r)[..5]) + "Motor1 PWM:" + (" " + IntToString(r.motor1Width) + "us  ")
         + "Motor2 PWM:" + (" " + IntToString(r.motor2Width) + ("us  " + Concat(Pieces(r)[7..]) + extra))
  {
    var ps := Pieces(r);
    var decoy, between := "Motor1 PWM:", " " + IntToString(r.motor1Width) + "us  ";
    var pat, num := "Motor2 PWM:", " " + IntToString(r.motor2Width);
    assert ps[5] == decoy + between && ps[6] == pat + num + "us  " by {
      MotorPieces(r);
    }
    SeventhPiece(ps, extra);
    TwoPieces(Concat(ps[..5]), decoy, between, pat, num, "us  ", Concat(ps[7..]) + extra);
  }

  lemma MotorPieces(r: Readings)
    ensures Pieces(r)[5] == "Motor1 PWM:" + (" " + IntToString(r.motor1Width) + "us  ")
    ensures Pieces(r)[6] == "Motor2 PWM:" + " " + IntToString(r.motor2Width) + "us  "
  {
  }

  /** The line around its sixth and seventh pieces. */
  lemma SeventhPiece(ps: seq<string>, extra: string)
    requires |ps| >= 7
    ensures Concat(ps) + extra == Concat(ps[..5]) + ps[5] + (ps[6] + (Concat(ps[7..]) + extra))
  {
    var six := ps[..6];
    var a, c := Concat(ps[..5]), Concat(ps[7..]);
    assert Concat(six) == a + ps[5] by {
      assert six[..5] == ps[..5];
    }
    assert Concat(ps) == Concat(six) + ps[6] + c by {
      ConcatSplit(ps, 6);
    }
    Regroup3(a, ps[5], ps[6], c, extra);
  }

  lemma Regroup3(a: string, b: string, c: string, d: string, e: string)
    ensures a + b + c + d + e == a + b + (c + (d + e))
  {
  }

  lemma TwoPieces(f: string, d: string, b: string, p: string, x: string, u: string, rest: string)
    ensures f + (d + b) + (p + x + u + rest) == f + d + b + p + (x + (u + rest))
  {
  }

  lemma ReadAfterDecoy(front: string, first: string, n: Int32, tail: string)
    requires 'W' !in front && 'W' !in first
    requires |tail| > 0 && !IsDigit(tail[0])
    ensures WebServer.ReadIntAt(front + "Motor1 PWM:" + (" " + first + "us  ") + "Motor2 PWM:" + (" " + IntToString(n) + tail),
                                "Motor2 PWM:", 11) == Some(n)
  {
    var decoy := "Motor1 PWM:";
    var pat := "Motor2 PWM:";
    var between := " " + first + "us  ";
    var rest := " " + IntToString(n) + tail;
    var s := front + decoy + between + pat + rest;
    PieceOf(" ", first, "us  ", 'W');
    assert pat[8] == 'W' && pat[..8] == "Motor2 P";
    FoundAfterDecoy(front, decoy, between, pat, rest, 8, 5);
    var pos := |front| + |decoy| + |between|;
    assert Suffix(s, pos + 11) == [' '] + IntToString(n) + tail;
    AtolReadsIntToString([' '], n, tail);
  }

  /** The integer fields the dashboard shows after a published step: the
      RC throttle and both motor pulses come back as they were reported
      (the pulses as throttle percentages), while the RC steering field is
      always 0, because the line reports steering under `RC L/R:` and
      `RC F/B:` and never under the `RC Steering:` tag the parser looks for. */
  lemma DashboardReadsBack(st: DebugLog.DebugState, web: WebServer.WebBuffers, now: U32,
                           r: Readings, a: AccelReadings, logged: seq<DebugLog.LogRequest>, rpmEstimate: int)
    requires DebugLog.Valid(st) && st.initialized && PublishDue(st, now)
    requires ReadingsWellFormed(r) && AccelWellFormed(a)
    ensures var f := WebServer.ParseIntFields(UpdateStandardDiagnostics(st, web, now, r, a, logged).1.telemetry, rpmEstimate);
      && f.rcThrottle == r.rcThrottle
      && f.rcSteering == 0
      && f.motor1Throttle == WebServer.MotorThrottle(Some(r.motor1Width), r.rcThrottle)
      && f.motor2Throttle == WebServer.MotorThrottle(Some(r.motor2Width), r.rcThrottle)
  {
    PublishedBuffers(st, web, now, r, a, logged);
    var extra := AccelText(a);
    ThrottleFieldRead(r, extra);
    Motor1FieldRead(r, extra);
    Motor2FieldRead(r, extra);
    SteeringNeverWritten(r, a);
  }

  lemma ThrottleFieldRead(r: Readings, extra: string)
    requires ReadingsWellFormed(r)
    ensures WebServer.ReadIntAt(Concat(Pieces(r)) + extra, "RC Throttle:", 12) == Some(r.rcThrottle)
  {
    var ps := Pieces(r);
    PrefixAvoids(r, 2, 'T');
    assert ps[2] == "RC Throttle:" + " " + IntToString(r.rcThrottle) + "  ";
    ReadFieldOfLine(ps, 2, "RC Throttle:", 3, r.rcThrottle, "  ", extra);
  }

  lemma Motor1FieldRead(r: Readings, extra: string)
    requires ReadingsWellFormed(r)
    ensures WebServer.ReadIntAt(Concat(Pieces(r)) + extra, "Motor1 PWM:", 11) == Some(r.motor1Width)
  {
    var ps := Pieces(r);
    PrefixAvoids(r, 5, 'M');
    assert ps[5] == "Motor1 PWM:" + " " + IntToString(r.motor1Width) + "us  ";
    ReadFieldOfLine(ps, 5, "Motor1 PWM:", 0, r.motor1Width, "us  ", extra);
  }

  /** No piece and no accelerometer suffix mentions `RC Steering:`. */
  lemma SteeringNeverWritten(r: Readings, a: AccelReadings)
    requires ReadingsWellFormed(r) && AccelWellFormed(a)
    ensures WebServer.ReadIntAt(Concat(Pieces(r)) + AccelText(a), "RC Steering:", 12) == None
  {
    var ps := Pieces(r);
    PrefixAvoids(r, 10, 'S');
    assert ps[..10] == ps;
    AccelAvoids(a, 'S');
    AbsentCharNotFound(Concat(ps) + AccelText(a), "RC Steering:", 3);
  }
}

=== FILE: line_plot.dfy ===
/** The bookkeeping half of the dashboard's plotting class
    (openmelt/tiny_line_plot/TinyLinePlot.js): datasets held as sequences, a
    view window that scrolls over them, and the auto-scroll flag that
    follows the newest data.  Canvas drawing is not part of the model. */
module LinePlot {
  import opened Wrappers

  /** The palette used when the caller supplies none. */
  const DEFAULT_LINE_COLORS: seq<string> := ["#3366CC", "#DC3912", "#FF9900", "#109618", "#990099"]
  const DEFAULT_MAX_POINTS: int := 100
  const DEFAULT_VIEW_WINDOW_SIZE: int := 50

  /** The options the bookkeeping reads, after defaults are applied. */
  datatype Options = Options(
    lineColors: seq<string>,
    maxPoints: int,
    streaming: bool,
    retainData: bool,
    viewWindowSize: int,
    autoScrollWithNewData: bool)

  /** Options as a caller passes them: any of them may be missing. */
  datatype UserOptions = UserOptions(
    lineColors: Option<seq<string>>,
    maxPoints: Option<int>,
    streaming: Option<bool>,
    retainData: Option<bool>,
    viewWindowSize: Option<int>,
    autoScrollWithNewData: Option<bool>)

  /** One plotted series.  `color` is absent when the palette is empty (the
      colour index is then `NaN` and the lookup yields `undefined`). */
  datatype Dataset<T> = Dataset(data: seq<T>, name: string, color: Option<string>)

  datatype Plot<T> = Plot(options: Options, datasets: seq<Dataset<T>>, start: int, autoScroll: bool)

  /** JavaScript's `x || d` on a number: 0 (falsy) or a missing value gives the default. */
  function NumberOr(x: Option<int>, d: int): (r: int)
    ensures x.None? ==> r == d
    ensures x.Some? && x.value == 0 ==> r == d
    ensures x.Some? && x.value != 0 ==> r == x.value
  {
    if x.Some? && x.value != 0 then x.value else d
  }

  /** JavaScript's `x !== undefined ? x : d`. */
  function BoolOr(x: Option<bool>, d: bool): (r: bool)
    ensures x.Some? ==> r == x.value
    ensures x.None? ==> r == d
  {
    if x.Some? then x.value else d
  }

  /** The constructor: defaults for missing options, no datasets, the window
      at the start, and auto-scroll as the options say.  An empty palette is
      kept, as an array is truthy even when empty. */
  function NewPlot<T>(u: UserOptions): (p: Plot<T>)
    ensures p.datasets == [] && p.start == 0
    ensures p.autoScroll == p.options.autoScrollWithNewData
    ensures p.options.maxPoints != 0 && p.options.viewWindowSize != 0
    ensures u.lineColors.None? ==> p.options.lineColors == DEFAULT_LINE_COLORS
    ensures u.streaming.None? ==> !p.options.streaming
    ensures u.retainData.None? ==> !p.options.retainData
    ensures u.autoScrollWithNewData.None? ==> p.options.autoScrollWithNewData
    ensures u.lineColors.Some? ==> p.options.lineColors == u.lineColors.value
    ensures u.streaming.Some? ==> p.options.streaming == u.streaming.value
    ensures u.retainData.Some? ==> p.options.retainData == u.retainData.value
    ensures u.autoScrollWithNewData.Some? ==> p.options.autoScrollWithNewData == u.autoScrollWithNewData.value
    ensures u.maxPoints.Some? && u.maxPoints.value != 0 ==> p.options.maxPoints == u.maxPoints.value
    ensures u.maxPoints.None? || u.maxPoints.value == 0 ==> p.options.maxPoints == DEFAULT_MAX_POINTS
    ensures u.viewWindowSize.Some? && u.viewWindowSize.value != 0 ==> p.options.viewWindowSize == u.viewWindowSize.value
    ensures u.viewWindowSize.None? || u.viewWindowSize.value == 0 ==> p.options.viewWindowSize == DEFAULT_VIEW_WINDOW_SIZE
  {
    var o := Options(
      if u.lineColors.Some? then u.lineColors.value else DEFAULT_LINE_COLORS,
      NumberOr(u.maxPoints, DEFAULT_MAX_POINTS),
      BoolOr(u.streaming, false),
      BoolOr(u.retainData, false),
      NumberOr(u.viewWindowSize, DEFAULT_VIEW_WINDOW_SIZE),
      BoolOr(u.autoScrollWithNewData, true));
    Plot(o, [], 0, o.autoScrollWithNewData)
  }

  // ---------------------------------------------------------------------------
  // Data length and the window's range
  // ---------------------------------------------------------------------------

  /** The length of the longest dataset (`getDataLength`), 0 with none. */
  function MaxLength<T>(ds: seq<Dataset<T>>): (n: nat)
    ensures forall i :: 0 <= i < |ds| ==> |ds[i].data| <= n
    ensures |ds| == 0 ==> n == 0
    ensures |ds| > 0 ==> exists i :: 0 <= i < |ds| && |ds[i].data| == n
  {
    if |ds| == 0 then 0
    else
      var rest := MaxLength(ds[..|ds| - 1]);
      var last := |ds[|ds| - 1].data|;
      if last >= rest then last else rest
  }

  /** `getDataLength`: the length of the longest dataset, 0 without any. */
  function GetDataLength<T>(p: Plot<T>): (n: nat)
    ensures forall i :: 0 <= i < |p.datasets| ==> |p.datasets[i].data| <= n
    ensures |p.datasets| > 0 ==> exists i :: 0 <= i < |p.datasets| && |p.datasets[i].data| == n
    ensures |p.datasets| == 0 ==> n == 0
  {
    MaxLength(p.datasets)
  }

  function Max(a: int, b: int): int
  {
    if a >= b then a else b
  }

  /** The last start position scrolling accepts. */
  function LastStart<T>(p: Plot<T>): (r: int)
    ensures r >= 0
  {
    Max(0, GetDataLength(p) - p.options.viewWindowSize)
  }

  /** The window starts inside the range scrolling accepts. */
  predicate WindowInRange<T>(p: Plot<T>)
  {
    0 <= p.start <= LastStart(p)
  }

  lemma NewPlotInRange<T>(u: UserOptions)
    ensures WindowInRange(NewPlot<T>(u))
  {
  }

  // ---------------------------------------------------------------------------
  // Datasets
  // ---------------------------------------------------------------------------

  /** `addDataset`: one more dataset at the end, coloured by its position
      modulo the palette size; the others are untouched. */
  function AddDataset<T>(p: Plot<T>, data: seq<T>, name: string): (r: Plot<T>)
    ensures |r.datasets| == |p.datasets| + 1
    ensures r.datasets[..|p.datasets|] == p.datasets
    ensures r.datasets[|p.datasets|].data == data && r.datasets[|p.datasets|].name == name
    ensures |p.options.lineColors| > 0 ==>
      r.datasets[|p.datasets|].color == Some(p.options.lineColors[|p.datasets| % |p.options.lineColors|])
    ensures |p.options.lineColors| == 0 ==> r.datasets[|p.datasets|].color.None?
    ensures r.options == p.options && r.start == p.start && r.autoScroll == p.autoScroll
  {
    var palette := p.options.lineColors;
    var color := if |palette| > 0 then Some(palette[|p.datasets| % |palette|]) else None;
    p.(datasets := p.datasets + [Dataset(data, name, color)])
  }

  /** JavaScript's `s.slice(k)` for a negative or non-negative `k`. */
  function SliceFrom<T>(s: seq<T>, k: int): (r: seq<T>)
    ensures k < 0 ==> r == s[Max(0, |s| + k)..]
    ensures 0 <= k <= |s| ==> r == s[k..]
    ensures |s| < k ==> r == []
  {
    if k < 0 then s[Max(0, |s| + k)..] else if k <= |s| then s[k..] else []
  }

  /** `addPoint` moves the window only when streaming with retention and
      auto-scroll, once the grown dataset is longer than the window. */
  predicate AutoScrollMoves<T>(p: Plot<T>, index: int)
    requires 0 <= index < |p.datasets|
  {
    p.options.streaming && p.options.retainData && p.autoScroll
      && |p.datasets[index].data| + 1 > p.options.viewWindowSize
  }

  /** `addPoint`: append to the addressed dataset.  Streaming without
      retention keeps only the newest `maxPoints` points (`slice(-maxPoints)`);
      streaming with retention and auto-scroll moves the window so its last
      slot shows the new point.  An index out of range changes nothing. */
  function AddPoint<T>(p: Plot<T>, index: int, point: T): (r: Plot<T>)
    ensures index < 0 || index >= |p.datasets| ==> r == p
    ensures 0 <= index < |p.datasets| ==>
      && |r.datasets| == |p.datasets|
      && (forall j :: 0 <= j < |p.datasets| && j != index ==> r.datasets[j] == p.datasets[j])
      && r.datasets[index].name == p.datasets[index].name
      && r.datasets[index].color == p.datasets[index].color
      && r.options == p.options && r.autoScroll == p.autoScroll
    ensures 0 <= index < |p.datasets| && !(p.options.streaming && !p.options.retainData) ==>
      r.datasets[index].data == p.datasets[index].data + [point]
    ensures (0 <= index < |p.datasets| && !AutoScrollMoves(p, index)) ==> r.start == p.start
  {
    if index < 0 || index >= |p.datasets| then p
    else
      var o := p.options;
      var ds := p.datasets[index];
      var grown := ds.data + [point];
      var data := if o.streaming && !o.retainData && |grown| > o.maxPoints then SliceFrom(grown, -o.maxPoints) else grown;
      var start :=
        if o.streaming && o.retainData && p.autoScroll && |data| - 1 >= o.viewWindowSize
        then |data| - 1 - o.viewWindowSize + 1
        else p.start;
      p.(datasets := p.datasets[index := ds.(data := data)], start := start)
  }

  /** Streaming without retention: the dataset holds the newest points, in
      order, never more than `maxPoints` of them, and ends with the new one. */
  lemma StreamingKeepsNewest<T>(p: Plot<T>, index: int, point: T)
    requires 0 <= index < |p.datasets|
    requires p.options.streaming && !p.options.retainData && p.options.maxPoints > 0
    ensures var grown := p.datasets[index].data + [point];
      var data := AddPoint(p, index, point).datasets[index].data;
      && |data| == (if |grown| <= p.options.maxPoints then |grown| else p.options.maxPoints)
      && data == grown[|grown| - |data|..]
      && data[|data| - 1] == point
  {
  }

  /** Without streaming every point is kept: the dataset just grows by one. */
  lemma NonStreamingKeepsAll<T>(p: Plot<T>, index: int, point: T)
    requires 0 <= index < |p.datasets| && !p.options.streaming
    ensures AddPoint(p, index, point).datasets[index].data == p.datasets[index].data + [point]
    ensures AddPoint(p, index, point).start == p.start
  {
  }

  /** Streaming with retention and auto-scroll: once the dataset is longer
      than the window, the window's last slot is the newest point. */
  lemma AutoScrollFollowsNewest<T>(p: Plot<T>, index: int, point: T)
    requires 0 <= index < |p.datasets|
    requires p.options.streaming && p.options.retainData && p.autoScroll
    requires |p.datasets[index].data| + 1 > p.options.viewWindowSize
    ensures var r := AddPoint(p, index, point);
      r.start == |r.datasets[index].data| - p.options.viewWindowSize
  {
  }

  /** `clear`: no datasets, window at the start, auto-scroll as configured. */
  function Clear<T>(p: Plot<T>): (r: Plot<T>)
    ensures r.datasets == [] && GetDataLength(r) == 0
    ensures r.start == 0 && r.autoScroll == p.options.autoScrollWithNewData
    ensures r.options == p.options
  {
    p.(datasets := [], start := 0, autoScroll := p.options.autoScrollWithNewData)
  }

  /** `clearDataset`: only the addressed dataset is emptied (none when the
      index is out of range), and the window and auto-scroll are reset in
      every case. */
  function ClearDataset<T>(p: Plot<T>, index: int): (r: Plot<T>)
    ensures |r.datasets| == |p.datasets|
    ensures forall j :: 0 <= j < |p.datasets| && j != index ==> r.datasets[j] == p.datasets[j]
    ensures 0 <= index < |p.datasets| ==>
      r.datasets[index] == p.datasets[index].(data := [])
    ensures r.start == 0 && r.autoScroll == p.options.autoScrollWithNewData
    ensures r.options == p.options
  {
    var ds :=
      if 0 <= index < |p.datasets| then p.datasets[index := p.datasets[index].(data := [])]
      else p.datasets;
    p.(datasets := ds, start := 0, autoScroll := p.options.autoScrollWithNewData)
  }

  // ---------------------------------------------------------------------------
  // Auto-scroll switch
  // ---------------------------------------------------------------------------

  function EnableAutoScroll<T>(p: Plot<T>): (r: Plot<T>)
    ensures r.autoScroll && r.(autoScroll := p.autoScroll) == p
  {
    p.(autoScroll := true)
  }

  function DisableAutoScroll<T>(p: Plot<T>): (r: Plot<T>)
    ensures !r.autoScroll && r.(autoScroll := p.autoScroll) == p
  {
    p.(autoScroll := false)
  }

  function ToggleAutoScroll<T>(p: Plot<T>): (r: Plot<T>)
    ensures r.autoScroll != p.autoScroll && r.(autoScroll := p.autoScroll) == p
  {
    p.(autoScroll := !p.autoScroll)
  }

  // ---------------------------------------------------------------------------
  // Scrolling
  // ---------------------------------------------------------------------------

  /** `scroll(steps)`: move the window by `steps` if the new start is in
      range; moving backwards switches auto-scroll off.  Out of range,
      nothing changes. */
  function Scroll<T>(p: Plot<T>, steps: int): (r: Plot<T>)
    ensures r.datasets == p.datasets && r.options == p.options
    ensures 0 <= p.start + steps <= LastStart(p) ==>
      r.start == p.start + steps && r.autoScroll == (p.autoScroll && steps >= 0)
    ensures !(0 <= p.start + steps <= LastStart(p)) ==> r == p
  {
    var newStart := p.start + steps;
    if 0 <= newStart <= LastStart(p) then
      p.(start := newStart, autoScroll := if steps < 0 then false else p.autoScroll)
    else p
  }

  /** `scrollTo(position)`: jump if the position is in range; a jump to a
      position before the last one switches auto-scroll off. */
  function ScrollTo<T>(p: Plot<T>, position: int): (r: Plot<T>)
    ensures r.datasets == p.datasets && r.options == p.options
    ensures 0 <= position <= LastStart(p) ==>
      && r.start == position
      && r.autoScroll == (p.autoScroll && position >= GetDataLength(p) - p.options.viewWindowSize)
    ensures !(0 <= position <= LastStart(p)) ==> r == p
  {
    var isAtEnd := position >= GetDataLength(p) - p.options.viewWindowSize;
    if 0 <= position <= LastStart(p) then
      p.(start := position, autoScroll := if !isAtEnd then false else p.autoScroll)
    else p
  }

  /** `scrollToStart`. */
  function ScrollToStart<T>(p: Plot<T>): (r: Plot<T>)
    ensures r.start == 0 && !r.autoScroll
    ensures r.datasets == p.datasets && r.options == p.options
  {
    p.(start := 0, autoScroll := false)
  }

  /** `scrollToEnd`: the window at the last start position, auto-scroll on. */
  function ScrollToEnd<T>(p: Plot<T>): (r: Plot<T>)
    ensures r.autoScroll
    ensures r.datasets == p.datasets && r.options == p.options
    ensures WindowInRange(r)
    ensures !WindowInRange(r.(start := r.start + 1))
  {
    p.(start := LastStart(p), autoScroll := true)
  }

  /** Jumping and scrolling agree on where the window lands: `scrollTo(q)`
      puts it where `scroll(q - start)` does. */
  lemma ScrollToAgreesWithScroll<T>(p: Plot<T>, position: int)
    ensures ScrollTo(p, position).start == Scroll(p, position - p.start).start
  {
  }

  /** A scroll that was accepted is undone by the opposite scroll. */
  lemma ScrollBackRestoresStart<T>(p: Plot<T>, steps: int)
    requires WindowInRange(p)
    requires 0 <= p.start + steps <= LastStart(p)
    ensures Scroll(Scroll(p, steps), -steps).start == p.start
  {
  }

  lemma ScrollToEndIdempotent<T>(p: Plot<T>)
    ensures ScrollToEnd(ScrollToEnd(p)) == ScrollToEnd(p)
  {
  }

  // ---------------------------------------------------------------------------
  // The window stays in range
  // ---------------------------------------------------------------------------

  /** Adding a dataset never shortens the data, so the window stays in range. */
  lemma AddDatasetKeepsRange<T>(p: Plot<T>, data: seq<T>, name: string)
    requires WindowInRange(p)
    ensures WindowInRange(AddDataset(p, data, name))
  {
    var r := AddDataset(p, data, name);
    MaxLengthOfPrefix(r.datasets, |p.datasets|);
  }

  /** Every scrolling and clearing operation leaves the window in range. */
  lemma ScrollingKeepsRange<T>(p: Plot<T>, steps: int, position: int, index: int)
    requires WindowInRange(p)
    ensures WindowInRange(Scroll(p, steps))
    ensures WindowInRange(ScrollTo(p, position))
    ensures WindowInRange(ScrollToStart(p))
    ensures WindowInRange(ScrollToEnd(p))
    ensures WindowInRange(Clear(p))
    ensures WindowInRange(ClearDataset(p, index))
  {
  }

  /** Adding a point keeps the window in range unless streaming without
      retention trims the dataset, which is the one way data gets shorter. */
  lemma AddPointKeepsRange<T>(p: Plot<T>, index: int, point: T)
    requires WindowInRange(p)
    requires !p.options.streaming || p.options.retainData
    ensures WindowInRange(AddPoint(p, index, point))
  {
    if 0 <= index < |p.datasets| {
      var r := AddPoint(p, index, point);
      assert |r.datasets[index].data| == |p.datasets[index].data| + 1;
      GrowingOneDataset(p.datasets, r.datasets, index);
    }
  }

  /** Trimming can leave the window past the data: a dataset added with
      more points than `maxPoints`, scrolled to its end, then cut back by the
      next streamed point. */
  lemma TrimmingCanLeaveWindowPastData()
    ensures var p0 := Plot(Options(DEFAULT_LINE_COLORS, 2, true, false, 1, true), [], 0, true);
      var p1 := ScrollToEnd(AddDataset(p0, [0, 0, 0, 0], ""));
      && WindowInRange(p1) && p1.start == 3
      && !WindowInRange(AddPoint(p1, 0, 0))
  {
    var p0 := Plot(Options(DEFAULT_LINE_COLORS, 2, true, false, 1, true), [], 0, true);
    var p1 := ScrollToEnd(AddDataset(p0, [0, 0, 0, 0], ""));
    assert GetDataLength(p1) == 4 by {
      assert p1.datasets[..0] == [];
    }
    var p2 := AddPoint(p1, 0, 0);
    assert |p2.datasets[0].data| == 2;
    assert GetDataLength(p2) == 2 by {
      assert p2.datasets[..0] == [];
    }
  }

  lemma {:induction false} MaxLengthOfPrefix<T>(ds: seq<Dataset<T>>, n: nat)
    requires n <= |ds|
    ensures MaxLength(ds[..n]) <= MaxLength(ds)
  {
    if 0 < n {
      var k :| 0 <= k < n && |ds[..n][k].data| == MaxLength(ds[..n]);
      assert ds[..n][k] == ds[k];
    }
  }

  /** Lengthening one dataset does not shorten the longest one. */
  lemma GrowingOneDataset<T>(before: seq<Dataset<T>>, after: seq<Dataset<T>>, index: int)
    requires |before| == |after| && 0 <= index < |before|
    requires forall j :: 0 <= j < |before| && j != index ==> after[j] == before[j]
    requires |after[index].data| >= |before[index].data|
    ensures MaxLength(after) >= MaxLength(before)
  {
    if 0 < |before| {
      var k :| 0 <= k < |before| && |before[k].data| == MaxLength(before);
      assert |after[k].data| >= |before[k].data|;
    }
  }
}

=== FILE: machine.dfy ===
/** Machine-level arithmetic of the ESP32 target: 32-bit `unsigned long`
    clocks that wrap, 32-bit `int`/`long`, and the C conversion of a
    floating-point value to an integer (truncation toward zero). */
module Machine {

  const U32_MODULUS: int := 0x1_0000_0000
  const INT32_MIN: int := -0x8000_0000
  const INT32_MAX: int := 0x7FFF_FFFF

  /** An `unsigned long` on the target (`millis()`, `micros()`, time stamps). */
  type U32 = x: int | 0 <= x < U32_MODULUS

  /** An `int` or `long` on the target. */
  type Int32 = x: int | INT32_MIN <= x <= INT32_MAX

  /** Reduce a mathematical integer to its `unsigned long` representative. */
  function WrapU32(x: int): (r: U32)
    ensures (r - x) % U32_MODULUS == 0
    ensures 0 <= x < U32_MODULUS ==> r == x
  {
    x % U32_MODULUS
  }

  /** `now - since` computed in `unsigned long`: the time elapsed since `since`,
      correct across one wrap-around of the clock. */
  function Elapsed(now: U32, since: U32): (r: U32)
    ensures since <= now ==> r == now - since
    ensures now < since ==> r == now - since + U32_MODULUS
  {
    WrapU32(now - since)
  }

  /** The two's-complement reading of a 32-bit pattern as a signed `int`. */
  function AsInt32(u: U32): (r: Int32)
    ensures (r - u) % U32_MODULUS == 0
    ensures u <= INT32_MAX ==> r == u
  {
    if u <= INT32_MAX then u else u - U32_MODULUS
  }

  /** Conversion of a floating-point value to an integer type: the
      fractional part is discarded (rounding toward zero). */
  function Trunc(x: real): (r: int)
    ensures 0.0 <= x ==> r as real <= x < r as real + 1.0
    ensures x < 0.0 ==> r as real - 1.0 < x <= r as real
  {
    if x >= 0.0 then x.Floor else -((-x).Floor)
  }

  /** Truncating a value that lies between two integers stays between them. */
  lemma TruncBetween(x: real, lo: int, hi: int)
    requires lo as real <= x <= hi as real
    ensures lo <= Trunc(x) <= hi
  {
  }

  /** Truncation is the identity on values that are already integers. */
  lemma TruncOfInt(n: int)
    ensures Trunc(n as real) == n
  {
  }

  /** Truncation is monotone. */
  lemma TruncMonotone(x: real, y: real)
    requires x <= y
    ensures Trunc(x) <= Trunc(y)
  {
  }

  /** The product of two non-negative reals is non-negative. */
  lemma MulNonNegative(a: real, b: real)
    ensures a >= 0.0 && b >= 0.0 ==> a * b >= 0.0
  {
    if a >= 0.0 && b >= 0.0 {
      assert a * b >= 0.0 * b;
    }
  }

  function Abs(x: int): (r: nat)
    ensures r == x || r == -x
  {
    if x < 0 then -x else x
  }

  function AbsReal(x: real): (r: real)
    ensures r >= 0.0
    ensures r == x || r == -x
  {
    if x < 0.0 then -x else x
  }

  /** Arduino `constrain(x, lo, hi)`. */
  function Constrain(x: real, lo: real, hi: real): (r: real)
    requires lo <= hi
    ensures lo <= r <= hi
    ensures lo <= x <= hi ==> r == x
  {
    if x < lo then lo else if x > hi then hi else x
  }
}

=== FILE: melty_config.dfy ===
/** Compile-time configuration of the robot (openmelt/melty_config.h):
    drive modes, PWM duty constants, the servo pulse convention, and the
    translate / coast percentages the servo drive mode uses. */
module MeltyConfig {
  import opened Machine
  import opened Wrappers

  /** The four ways a motor pin can be driven (`enum throttle_modes`). */
  datatype ThrottleMode =
    | BinaryThrottle       // pin fully on / off
    | FixedPwmThrottle     // PWM at the ON / COAST / OFF duty constants
    | DynamicPwmThrottle   // PWM scaled between COAST and ON by throttle
    | ServoPwmThrottle     // RC servo pulse, 1000-2000 us

  /** The enumerator values the C compiler assigns, in declaration order. */
  function ModeValue(m: ThrottleMode): (v: nat)
    ensures v < 4
  {
    match m
    case BinaryThrottle => 0
    case FixedPwmThrottle => 1
    case DynamicPwmThrottle => 2
    case ServoPwmThrottle => 3
  }

  function ModeOfValue(v: nat): (m: Option<ThrottleMode>)
    ensures v < 4 <==> m.Some?
    ensures m.Some? ==> ModeValue(m.value) == v
  {
    if v == 0 then Some(BinaryThrottle)
    else if v == 1 then Some(FixedPwmThrottle)
    else if v == 2 then Some(DynamicPwmThrottle)
    else if v == 3 then Some(ServoPwmThrottle)
    else None
  }

  /** There are exactly four drive modes: enumerator values are 0..3, one each. */
  lemma ExactlyFourModes()
    ensures forall m: ThrottleMode :: ModeOfValue(ModeValue(m)) == Some(m)
    ensures forall m1: ThrottleMode, m2: ThrottleMode :: ModeValue(m1) == ModeValue(m2) ==> m1 == m2
    ensures forall v: nat :: v < 4 <==> ModeOfValue(v).Some?
  {
  }

  /** `THROTTLE_TYPE`: the build uses RC servo pulses for BLHeli ESCs. */
  const THROTTLE_TYPE: ThrottleMode := ServoPwmThrottle

  // PWM duty cycles, 0-255.
  const PWM_MOTOR_ON: int := 230
  const PWM_MOTOR_COAST: int := 100
  const PWM_MOTOR_OFF: int := 100

  /** Throttle fraction over which dynamic PWM is scaled (1.0 = whole range). */
  const DYNAMIC_PWM_THROTTLE_PERCENT_MAX: real := 1.0

  /** Fraction of full forward used for the powered phase while translating. */
  const SERVO_PWM_TRANSLATE_PERCENT: real := 1.0

  /** Coast percentage as the configuration file defines it. */
  const SET_SERVO_PWM_COAST_PERCENT: real := 0.9

  const EEPROM_WRITTEN_SENTINEL_VALUE: int := 42
  const DEFAULT_LED_OFFSET_PERCENT: int := 0

  const MOTOR_PIN1: int := 9
  const MOTOR_PIN2: int := 10

  // Feature switches that decide which telemetry fields exist.
  const ENABLE_EEPROM_STORAGE: bool := true
  const BATTERY_ALERT_ENABLED: bool := false

  // Servo pulse convention, in microseconds.
  const SERVO_FULL_REVERSE_US: int := 1000
  const SERVO_NEUTRAL_US: int := 1500
  const SERVO_FULL_FORWARD_US: int := 2000

  /** Pulse width for a signed throttle fraction in the servo convention:
      -1 is full reverse, 0 neutral, +1 full forward. */
  function ServoPulse(fraction: real): (us: int)
    ensures -1.0 <= fraction <= 1.0 ==> SERVO_FULL_REVERSE_US <= us <= SERVO_FULL_FORWARD_US
    ensures 0.0 <= fraction <= 1.0 ==> SERVO_NEUTRAL_US <= us <= SERVO_FULL_FORWARD_US
    ensures -1.0 <= fraction ==> us as real <= 1500.0 + 500.0 * fraction < us as real + 1.0
  {
    var x := SERVO_NEUTRAL_US as real + fraction * 500.0;
    assert -1.0 <= fraction <= 1.0 ==> 1000.0 <= x <= 2000.0;
    Trunc(x)
  }

  /** The documented anchor points of the convention: 1000 / 1500 / 2000 us
      for -100% / 0% / +100%, and 0.5 of full forward is 1750 us. */
  lemma ServoConvention()
    ensures ServoPulse(-1.0) == SERVO_FULL_REVERSE_US
    ensures ServoPulse(0.0) == SERVO_NEUTRAL_US
    ensures ServoPulse(1.0) == SERVO_FULL_FORWARD_US
    ensures ServoPulse(0.5) == 1750
    ensures ServoPulse(SERVO_PWM_TRANSLATE_PERCENT) == SERVO_FULL_FORWARD_US
  {
    TruncOfInt(1000);
    TruncOfInt(1500);
    TruncOfInt(2000);
    TruncOfInt(1750);
  }

  /** PWM duties are 0-255 values with OFF = COAST <= ON. */
  predicate PwmDutiesWellFormed()
  {
    && 0 <= PWM_MOTOR_OFF <= 255
    && 0 <= PWM_MOTOR_COAST <= 255
    && 0 <= PWM_MOTOR_ON <= 255
    && PWM_MOTOR_OFF == PWM_MOTOR_COAST <= PWM_MOTOR_ON
  }

  /** A coast percentage is meant to lie in [0, 1]; 0 means neutral. */
  predicate CoastPercentInRange(c: real)
  {
    0.0 <= c <= 1.0
  }

  lemma ConfigurationWellFormed()
    ensures PwmDutiesWellFormed()
    ensures DYNAMIC_PWM_THROTTLE_PERCENT_MAX > 0.0
    ensures CoastPercentInRange(SET_SERVO_PWM_COAST_PERCENT)
    ensures 0.0 < SERVO_PWM_TRANSLATE_PERCENT <= 1.0
    ensures MOTOR_PIN1 != MOTOR_PIN2
  {
  }
}

=== FILE: motor_driver.dfy ===
/** The motor firing engine (openmelt/motor_driver.cpp): the powered, coast
    and off phases of each rotation, direct ESC control for testing, and the
    tank-style "normal driving" mixer used while the robot is not spinning.

    The engine's state is the two stored servo pulse widths and the
    direct-ESC-control flag.  Every operation is a pure step returning the new
    state together with the pin writes it performs, so the output of every
    drive mode is visible, not just the stored widths. */
module MotorDriver {
  import opened Machine
  import opened MeltyConfig
  import opened Wrappers

  /** The two ESC outputs driven through servo objects. */
  datatype Motor = Motor1 | Motor2

  /** One write to the hardware. */
  datatype PinWrite =
    | DigitalWrite(pin: int, high: bool)       // BINARY_THROTTLE
    | AnalogWrite(pin: int, duty: int)         // FIXED_PWM / DYNAMIC_PWM duty, 0-255
    | ServoWrite(motor: Motor, us: int)        // pulse width in microseconds

  /** `current_motor1_pulse_width`, `current_motor2_pulse_width`, `direct_esc_control`. */
  datatype MotorState = MotorState(width1: int, width2: int, directEscControl: bool)

  /** The new state and the writes, in the order they are made. */
  datatype Step = Step(state: MotorState, writes: seq<PinWrite>)

  /** Configuration values the motor engine reads from headers that are not
      part of this model: `SERVO_PWM_COAST_PERCENT`,
      `NORMAL_DRIVING_MODE_STEERING_DEADZONE` and the two
      `NORMAL_DRIVING_MOTOR_*_REVERSE` switches. */
  datatype MotorParams = MotorParams(
    coastPercent: real,
    steeringDeadzone: real,
    reverse1: bool,
    reverse2: bool)

  /** Start-up values of the globals. */
  const InitialMotorState: MotorState := MotorState(SERVO_NEUTRAL_US, SERVO_NEUTRAL_US, false)

  function Width(st: MotorState, m: Motor): int
  {
    match m
    case Motor1 => st.width1
    case Motor2 => st.width2
  }

  /** The motor a pin number addresses, if any. */
  function MotorOfPin(pin: int): (m: Option<Motor>)
    ensures m == Some(Motor1) <==> pin == MOTOR_PIN1
    ensures m == Some(Motor2) <==> pin == MOTOR_PIN2
  {
    if pin == MOTOR_PIN1 then Some(Motor1)
    else if pin == MOTOR_PIN2 then Some(Motor2)
    else None
  }

  /** Store and send `us` on the motor the pin addresses; any other pin is ignored. */
  function SetPin(st: MotorState, pin: int, us: int): (r: Step)
    ensures OnlyPinChanged(st, r.state, pin)
    ensures MotorOfPin(pin).Some? ==> Width(r.state, MotorOfPin(pin).value) == us
    ensures MotorOfPin(pin).Some? ==> r.writes == [ServoWrite(MotorOfPin(pin).value, us)]
    ensures MotorOfPin(pin).None? ==> r == Step(st, [])
    ensures MirrorsServo(r)
  {
    if pin == MOTOR_PIN1 then Step(st.(width1 := us), [ServoWrite(Motor1, us)])
    else if pin == MOTOR_PIN2 then Step(st.(width2 := us), [ServoWrite(Motor2, us)])
    else Step(st, [])
  }

  /** Only the width of the motor `pin` addresses may differ; the flag is kept. */
  predicate OnlyPinChanged(st: MotorState, st': MotorState, pin: int)
  {
    && st'.directEscControl == st.directEscControl
    && (pin != MOTOR_PIN1 ==> st'.width1 == st.width1)
    && (pin != MOTOR_PIN2 ==> st'.width2 == st.width2)
  }

  /** The last servo write to motor `m` in `writes`, if there is one. */
  function LastServoWrite(writes: seq<PinWrite>, m: Motor): (r: Option<int>)
    ensures r.None? <==> forall i :: 0 <= i < |writes| ==> !(writes[i].ServoWrite? && writes[i].motor == m)
    ensures r.Some? ==> exists i :: 0 <= i < |writes| && writes[i] == ServoWrite(m, r.value)
  {
    if |writes| == 0 then None
    else
      var w := writes[|writes| - 1];
      if w.ServoWrite? && w.motor == m then Some(w.us)
      else
        var r := LastServoWrite(writes[..|writes| - 1], m);
        assert forall i :: 0 <= i < |writes| - 1 ==> writes[..|writes| - 1][i] == writes[i];
        r
  }

  /** The stored widths report what each ESC was last sent: whenever a step
      writes a servo pulse, the stored width of that motor equals the last
      pulse written to it. */
  predicate MirrorsServo(r: Step)
  {
    forall m: Motor :: LastServoWrite(r.writes, m).Some? ==> LastServoWrite(r.writes, m).value == Width(r.state, m)
  }

  // ---------------------------------------------------------------------------
  // Pulse widths of the servo drive mode
  // ---------------------------------------------------------------------------

  /** The pulse for a throttle fraction in the forward half of the servo range:
      neutral unless the throttle is positive. */
  function ThrottlePulse(t: real): (us: int)
    ensures t <= 0.0 ==> us == SERVO_NEUTRAL_US
    ensures 0.0 < t <= 1.0 ==> SERVO_NEUTRAL_US <= us <= SERVO_FULL_FORWARD_US
    ensures t > 0.0 ==> us == ServoPulse(t)
  {
    if t > 0.0 then ServoPulse(t) else SERVO_NEUTRAL_US
  }

  /** A larger throttle never gives a shorter pulse. */
  lemma ThrottlePulseMonotone(t1: real, t2: real)
    requires t1 <= t2
    ensures ThrottlePulse(t1) <= ThrottlePulse(t2)
  {
    if t1 > 0.0 {
      TruncMonotone(1500.0 + t1 * 500.0, 1500.0 + t2 * 500.0);
    } else if t2 > 0.0 {
      TruncMonotone(1500.0, 1500.0 + t2 * 500.0);
      TruncOfInt(1500);
    }
  }

  /** Full throttle is full forward, 2000 us. */
  lemma FullThrottleIsFullForward()
    ensures ThrottlePulse(1.0) == SERVO_FULL_FORWARD_US
  {
    ServoConvention();
  }

  /** The fraction of full forward used for the powered phase while
      translating: 1.0 at translation 0, moving linearly to the configured
      translate percentage at translation 1. */
  function TranslateFraction(s: real): (f: real)
    ensures 0.0 <= s <= 1.0 ==> SERVO_PWM_TRANSLATE_PERCENT <= f <= 1.0
  {
    1.0 + (SERVO_PWM_TRANSLATE_PERCENT - 1.0) * s
  }

  /** Pulse width of `motor_on` in servo mode, for throttle `t`, translation
      scale `s` (the value `rc_get_translation_percent()` returns). */
  function ServoOnPulse(t: real, direct: bool, translating: bool, s: real): (us: int)
    ensures t <= 0.0 ==> us == SERVO_NEUTRAL_US
    ensures t > 0.0 && (direct || !translating) ==> us == ThrottlePulse(t)
    ensures t > 0.0 && !direct && translating ==> us == ServoPulse(TranslateFraction(s))
    ensures 0.0 < t <= 1.0 && 0.0 <= s <= 1.0 ==> SERVO_NEUTRAL_US <= us <= SERVO_FULL_FORWARD_US
  {
    if t > 0.0 then
      if direct then ServoPulse(t)
      else if translating then ServoPulse(TranslateFraction(s))
      else ServoPulse(t)
    else SERVO_NEUTRAL_US
  }

  /** While translating (and not under direct control) the powered pulse does
      not depend on the throttle; with the configured translate percentage of
      1.0 it is full forward for every translation scale. */
  lemma TranslatingIgnoresThrottle(t1: real, t2: real, s: real)
    requires t1 > 0.0 && t2 > 0.0
    ensures ServoOnPulse(t1, false, true, s) == ServoOnPulse(t2, false, true, s)
    ensures ServoOnPulse(t1, false, true, s) == SERVO_FULL_FORWARD_US
  {
    assert TranslateFraction(s) == 1.0;
    ServoConvention();
  }

  /** The share of the current throttle a coast keeps: 1.0 (no coasting) at
      translation 0, moving linearly to the coast percentage at translation 1. */
  function CoastFactor(c: real, s: real): (f: real)
    ensures s == 0.0 ==> f == 1.0
    ensures s == 1.0 ==> f == c
    ensures c <= 1.0 && 0.0 <= s <= 1.0 ==> c <= f <= 1.0
  {
    var f := 1.0 * (1.0 - s) + c * s;
    assert f - c == (1.0 - s) * (1.0 - c);
    assert 1.0 - f == s * (1.0 - c);
    MulNonNegative(1.0 - s, 1.0 - c);
    MulNonNegative(s, 1.0 - c);
    f
  }

  /** The width a servo coast gives a motor whose stored width is `cur`. */
  function CoastPulse(cur: int, c: real, s: real): (us: int)
    ensures c <= 0.0 ==> us == SERVO_NEUTRAL_US
    ensures c > 0.0 && s == 0.0 ==> us == cur
    ensures c > 0.0 && s == 1.0 ==> us == Trunc(1500.0 + (cur - 1500) as real * c)
    ensures cur >= 0 && 0.0 < c <= 1.0 && 0.0 <= s <= 1.0 ==>
      us as real <= 1500.0 + (cur - 1500) as real * ((1.0 - s) + c * s) < us as real + 1.0
  {
    if c <= 0.0 then SERVO_NEUTRAL_US
    else
      var f := CoastFactor(c, s);
      CoastFacts(cur, c, s, f);
      Trunc(1500.0 + (cur - 1500) as real * f)
  }

  /** What `CoastPulse` needs about the kept share: the current width at
      translation 0, the coast percentage at 1, and a non-negative width
      to truncate for a non-negative current width. */
  lemma CoastFacts(cur: int, c: real, s: real, f: real)
    requires c > 0.0 && f == CoastFactor(c, s)
    ensures s == 0.0 ==> Trunc(1500.0 + (cur - 1500) as real * f) == cur
    ensures s == 1.0 ==> f == c
    ensures f == (1.0 - s) + c * s
    ensures cur >= 0 && c <= 1.0 && 0.0 <= s <= 1.0 ==> 1500.0 + (cur - 1500) as real * f >= 0.0
  {
    if s == 0.0 {
      assert 1500.0 + (cur - 1500) as real * f == cur as real;
      TruncOfInt(cur);
    }
    if cur >= 0 && c <= 1.0 && 0.0 <= s <= 1.0 {
      ScaleBetween((cur - 1500) as real, f);
    }
  }


  /** Coasting never pushes a motor away from neutral: for a translation
      scale in [0, 1] and a coast percentage in (0, 1] the new width lies
      between 1500 us and the current width. */
  lemma CoastBetweenNeutralAndCurrent(cur: int, c: real, s: real)
    requires 0.0 < c <= 1.0 && 0.0 <= s <= 1.0
    ensures cur >= SERVO_NEUTRAL_US ==> SERVO_NEUTRAL_US <= CoastPulse(cur, c, s) <= cur
    ensures cur <= SERVO_NEUTRAL_US ==> cur <= CoastPulse(cur, c, s) <= SERVO_NEUTRAL_US
  {
    var f := CoastFactor(c, s);
    assert CoastPulse(cur, c, s) == Trunc(1500.0 + (cur - 1500) as real * f);
    ScaledTowardNeutral(cur, f);
  }

  /** Moving a width toward neutral by a factor in [0, 1] lands between
      neutral and the width. */
  lemma ScaledTowardNeutral(cur: int, f: real)
    requires 0.0 <= f <= 1.0
    ensures cur >= 1500 ==> 1500 <= Trunc(1500.0 + (cur - 1500) as real * f) <= cur
    ensures cur <= 1500 ==> cur <= Trunc(1500.0 + (cur - 1500) as real * f) <= 1500
  {
    var x := 1500.0 + (cur - 1500) as real * f;
    if cur >= 1500 {
      ScaleBetween((cur - 1500) as real, f);
      TruncBetween(x, 1500, cur);
    } else {
      var g := (1500 - cur) as real;
      assert (cur - 1500) as real * f == -(g * f);
      ScaleBetween(g, f);
      TruncBetween(x, cur, 1500);
    }
  }

  /** Scaling by a factor in [0, 1] keeps a value between 0 and itself. */
  lemma ScaleBetween(d: real, f: real)
    requires 0.0 <= f <= 1.0
    ensures d >= 0.0 ==> 0.0 <= d * f <= d
    ensures d < 0.0 ==> d <= d * f <= 0.0
  {
    assert d - d * f == d * (1.0 - f);
    MulNonNegative(d, f);
    MulNonNegative(d, 1.0 - f);
    MulNonNegative(-d, f);
    MulNonNegative(-d, 1.0 - f);
  }

  /** Duty of `motor_on` in dynamic PWM mode: linear from the coast duty at
      throttle 0 to the on duty at `DYNAMIC_PWM_THROTTLE_PERCENT_MAX`, capped at
      the on duty above it. */
  function DynamicOnDuty(t: real): (duty: int)
    ensures duty <= PWM_MOTOR_ON
    ensures t >= DYNAMIC_PWM_THROTTLE_PERCENT_MAX ==> duty == PWM_MOTOR_ON
    ensures t >= 0.0 ==> PWM_MOTOR_COAST <= duty
    ensures t == 0.0 ==> duty == PWM_MOTOR_COAST
    ensures 0.0 <= t <= DYNAMIC_PWM_THROTTLE_PERCENT_MAX ==>
      var exact := PWM_MOTOR_COAST as real
        + t / DYNAMIC_PWM_THROTTLE_PERCENT_MAX * (PWM_MOTOR_ON - PWM_MOTOR_COAST) as real;
      duty as real <= exact < duty as real + 1.0
  {
    var pwm := PWM_MOTOR_COAST as real
      + (t / DYNAMIC_PWM_THROTTLE_PERCENT_MAX) * (PWM_MOTOR_ON - PWM_MOTOR_COAST) as real;
    var capped := if pwm > PWM_MOTOR_ON as real then PWM_MOTOR_ON as real else pwm;
    TruncOfInt(PWM_MOTOR_ON);
    TruncOfInt(PWM_MOTOR_COAST);
    TruncMonotone(capped, PWM_MOTOR_ON as real);
    Trunc(capped)
  }

  /** The dynamic duty never decreases as the throttle grows. */
  lemma DynamicOnDutyMonotone(t1: real, t2: real)
    requires t1 <= t2
    ensures DynamicOnDuty(t1) <= DynamicOnDuty(t2)
  {
    var p1 := 100.0 + (t1 / 1.0) * 130.0;
    var p2 := 100.0 + (t2 / 1.0) * 130.0;
    var c1 := if p1 > 230.0 then 230.0 else p1;
    var c2 := if p2 > 230.0 then 230.0 else p2;
    TruncMonotone(c1, c2);
  }

  // ---------------------------------------------------------------------------
  // Operations
  // ---------------------------------------------------------------------------

  /** `motor_on`: the powered phase of a rotation on `pin`. */
  function MotorOn(mode: ThrottleMode, st: MotorState, t: real, pin: int, translating: bool, s: real): (r: Step)
    ensures mode != ServoPwmThrottle ==> r.state == st
    ensures mode == BinaryThrottle ==> r.writes == [DigitalWrite(pin, true)]
    ensures mode == FixedPwmThrottle ==> r.writes == [AnalogWrite(pin, PWM_MOTOR_ON)]
    ensures mode == DynamicPwmThrottle ==> r.writes == [AnalogWrite(pin, DynamicOnDuty(t))]
    ensures OnlyPinChanged(st, r.state, pin)
    ensures mode == ServoPwmThrottle && MotorOfPin(pin).Some? ==>
      Width(r.state, MotorOfPin(pin).value) == ServoOnPulse(t, st.directEscControl, translating, s)
    ensures mode == ServoPwmThrottle ==>
      r.writes == (match MotorOfPin(pin)
                   case Some(m) => [ServoWrite(m, ServoOnPulse(t, st.directEscControl, translating, s))]
                   case None => [])
    ensures MirrorsServo(r)
  {
    match mode
    case BinaryThrottle => Step(st, [DigitalWrite(pin, true)])
    case FixedPwmThrottle => Step(st, [AnalogWrite(pin, PWM_MOTOR_ON)])
    case DynamicPwmThrottle => Step(st, [AnalogWrite(pin, DynamicOnDuty(t))])
    case ServoPwmThrottle => SetPin(st, pin, ServoOnPulse(t, st.directEscControl, translating, s))
  }

  /** `motor_coast`: the unpowered phase of a rotation on `pin`. */
  function MotorCoast(mode: ThrottleMode, p: MotorParams, st: MotorState, pin: int, s: real): (r: Step)
    ensures mode != ServoPwmThrottle ==> r.state == st
    ensures mode == BinaryThrottle ==> r.writes == [DigitalWrite(pin, false)]
    ensures mode == FixedPwmThrottle || mode == DynamicPwmThrottle ==> r.writes == [AnalogWrite(pin, PWM_MOTOR_COAST)]
    ensures OnlyPinChanged(st, r.state, pin)
    ensures mode == ServoPwmThrottle && MotorOfPin(pin).Some? ==>
      var m := MotorOfPin(pin).value;
      Width(r.state, m) == CoastPulse(Width(st, m), p.coastPercent, s)
    ensures mode == ServoPwmThrottle ==>
      r.writes == (match MotorOfPin(pin)
                   case Some(m) => [ServoWrite(m, CoastPulse(Width(st, m), p.coastPercent, s))]
                   case None => [])
    ensures MirrorsServo(r)
  {
    match mode
    case BinaryThrottle => Step(st, [DigitalWrite(pin, false)])
    case FixedPwmThrottle => Step(st, [AnalogWrite(pin, PWM_MOTOR_COAST)])
    case DynamicPwmThrottle => Step(st, [AnalogWrite(pin, PWM_MOTOR_COAST)])
    case ServoPwmThrottle =>
      match MotorOfPin(pin)
      case Some(m) => SetPin(st, pin, CoastPulse(Width(st, m), p.coastPercent, s))
      case None => Step(st, [])
  }

  /** `motor_off`: the robot is spun down. */
  function MotorOff(mode: ThrottleMode, st: MotorState, pin: int): (r: Step)
    ensures mode != ServoPwmThrottle ==> r.state == st
    ensures mode == BinaryThrottle ==> r.writes == [DigitalWrite(pin, false)]
    ensures mode == FixedPwmThrottle || mode == DynamicPwmThrottle ==> r.writes == [AnalogWrite(pin, PWM_MOTOR_OFF)]
    ensures OnlyPinChanged(st, r.state, pin)
    ensures mode == ServoPwmThrottle && MotorOfPin(pin).Some? ==>
      Width(r.state, MotorOfPin(pin).value) == SERVO_NEUTRAL_US
    ensures mode == ServoPwmThrottle ==>
      r.writes == (match MotorOfPin(pin)
                   case Some(m) => [ServoWrite(m, SERVO_NEUTRAL_US)]
                   case None => [])
    ensures MirrorsServo(r)
  {
    match mode
    case BinaryThrottle => Step(st, [DigitalWrite(pin, false)])
    case FixedPwmThrottle => Step(st, [AnalogWrite(pin, PWM_MOTOR_OFF)])
    case DynamicPwmThrottle => Step(st, [AnalogWrite(pin, PWM_MOTOR_OFF)])
    case ServoPwmThrottle => SetPin(st, pin, SERVO_NEUTRAL_US)
  }

  /** `motors_off`: `motor_off` on pin 1, then on pin 2. */
  function MotorsOff(mode: ThrottleMode, st: MotorState): (r: Step)
    ensures mode != ServoPwmThrottle ==> r.state == st
    ensures mode == ServoPwmThrottle ==>
      r.state == st.(width1 := SERVO_NEUTRAL_US, width2 := SERVO_NEUTRAL_US)
    ensures mode == BinaryThrottle ==> r.writes == [DigitalWrite(MOTOR_PIN1, false), DigitalWrite(MOTOR_PIN2, false)]
    ensures mode == FixedPwmThrottle || mode == DynamicPwmThrottle ==>
      r.writes == [AnalogWrite(MOTOR_PIN1, PWM_MOTOR_OFF), AnalogWrite(MOTOR_PIN2, PWM_MOTOR_OFF)]
    ensures mode == ServoPwmThrottle ==>
      r.writes == [ServoWrite(Motor1, SERVO_NEUTRAL_US), ServoWrite(Motor2, SERVO_NEUTRAL_US)]
    ensures MirrorsServo(r)
  {
    var a := MotorOff(mode, st, MOTOR_PIN1);
    var b := MotorOff(mode, a.state, MOTOR_PIN2);
    var r := Step(b.state, a.writes + b.writes);
    MirrorsServoSequential(a, b);
    r
  }

  /** Two steps run one after the other keep the stored widths mirroring the
      last servo writes, provided each does. */
  lemma {:induction false} MirrorsServoSequential(a: Step, b: Step)
    requires MirrorsServo(a) && MirrorsServo(b)
    requires forall m: Motor :: LastServoWrite(b.writes, m).None? ==> Width(b.state, m) == Width(a.state, m)
    ensures MirrorsServo(Step(b.state, a.writes + b.writes))
  {
    forall m: Motor
      ensures LastServoWrite(a.writes + b.writes, m).Some? ==>
        LastServoWrite(a.writes + b.writes, m).value == Width(b.state, m)
    {
      LastServoWriteAppend(a.writes, b.writes, m);
    }
  }

  /** The last write in a concatenation is the second part's last write, or,
      when the second part has none, the first part's. */
  lemma {:induction false} LastServoWriteAppend(xs: seq<PinWrite>, ys: seq<PinWrite>, m: Motor)
    ensures LastServoWrite(xs + ys, m) ==
      if LastServoWrite(ys, m).Some? then LastServoWrite(ys, m) else LastServoWrite(xs, m)
    decreases |ys|
  {
    if |ys| == 0 {
      assert xs + ys == xs;
    } else {
      assert (xs + ys)[..|xs + ys| - 1] == xs + ys[..|ys| - 1];
      LastServoWriteAppend(xs, ys[..|ys| - 1], m);
    }
  }

  /** `set_servo_pwm`: store and send a raw pulse width on one motor. */
  function SetServoPwm(st: MotorState, pin: int, us: int): (r: Step)
    ensures OnlyPinChanged(st, r.state, pin)
    ensures MotorOfPin(pin).Some? ==> Width(r.state, MotorOfPin(pin).value) == us
    ensures MotorOfPin(pin).Some? ==> r.writes == [ServoWrite(MotorOfPin(pin).value, us)]
    ensures MotorOfPin(pin).None? ==> r.state == st && r.writes == []
    ensures MirrorsServo(r)
  {
    SetPin(st, pin, us)
  }

  /** `set_direct_esc_control`: the widths are kept. */
  function SetDirectEscControl(st: MotorState, enable: bool): (r: MotorState)
    ensures r.directEscControl == enable
    ensures r.width1 == st.width1 && r.width2 == st.width2
  {
    st.(directEscControl := enable)
  }

  /** `set_esc_throttle`: under direct control in servo mode, both motors
      receive the same throttle pulse; otherwise nothing happens. */
  function SetEscThrottle(mode: ThrottleMode, st: MotorState, t: real): (r: Step)
    ensures !st.directEscControl || mode != ServoPwmThrottle ==> r == Step(st, [])
    ensures st.directEscControl && mode == ServoPwmThrottle ==>
      && r.state == st.(width1 := ThrottlePulse(t), width2 := ThrottlePulse(t))
      && r.writes == [ServoWrite(Motor1, ThrottlePulse(t)), ServoWrite(Motor2, ThrottlePulse(t))]
    ensures MirrorsServo(r)
  {
    if !st.directEscControl then Step(st, [])
    else if mode == ServoPwmThrottle then
      var us := if t > 0.0 then ServoPulse(t) else SERVO_NEUTRAL_US;
      Step(st.(width1 := us, width2 := us), [ServoWrite(Motor1, us), ServoWrite(Motor2, us)])
    else Step(st, [])
  }

  /** `update_pwm_values`: overwrite the stored widths for diagnostics.  It
      sends nothing, so the stored values can differ from what the ESCs were
      last sent. */
  function UpdatePwmValues(st: MotorState, w1: int, w2: int): (r: Step)
    ensures Width(r.state, Motor1) == w1 && Width(r.state, Motor2) == w2
    ensures r.state.directEscControl == st.directEscControl
    ensures r.writes == []
  {
    Step(st.(width1 := w1, width2 := w2), [])
  }

  /** The dead zone applied to one steering axis. */
  function ApplyDeadzone(v: real, dz: real): (r: real)
    ensures AbsReal(v) <= dz ==> r == 0.0
    ensures AbsReal(v) > dz ==> r == v
  {
    if AbsReal(v) <= dz then 0.0 else v
  }

  /** One motor's pulse from a mixed value: optionally reversed, clamped to
      [-1, 1] and mapped onto 1000-2000 us. */
  function MixedPulse(v: real, reverse: bool): (us: int)
    ensures SERVO_FULL_REVERSE_US <= us <= SERVO_FULL_FORWARD_US
    ensures !reverse && -1.0 <= v <= 1.0 ==> us as real <= 1500.0 + 500.0 * v < us as real + 1.0
    ensures reverse && -1.0 <= v <= 1.0 ==> us as real <= 1500.0 - 500.0 * v < us as real + 1.0
    ensures (if reverse then -v else v) >= 1.0 ==> us == SERVO_FULL_FORWARD_US
    ensures (if reverse then -v else v) <= -1.0 ==> us == SERVO_FULL_REVERSE_US
  {
    var signed := if reverse then -v else v;
    ServoPulse(Constrain(signed, -1.0, 1.0))
  }

  /** `normal_driving_mode`: tank mixing of a steering stick (x right, y
      forward) onto the two motors, in servo mode only. */
  function NormalDrivingMode(mode: ThrottleMode, p: MotorParams, st: MotorState, x: real, y: real): (r: Step)
    ensures mode != ServoPwmThrottle ==> r == Step(st, [])
    ensures mode == ServoPwmThrottle ==>
      && SERVO_FULL_REVERSE_US <= r.state.width1 <= SERVO_FULL_FORWARD_US
      && SERVO_FULL_REVERSE_US <= r.state.width2 <= SERVO_FULL_FORWARD_US
    ensures mode == ServoPwmThrottle ==>
      r.writes == [ServoWrite(Motor1, r.state.width1), ServoWrite(Motor2, r.state.width2)]
    ensures r.state.directEscControl == st.directEscControl
    ensures MirrorsServo(r)
  {
    if mode != ServoPwmThrottle then Step(st, [])
    else
      var sx := ApplyDeadzone(x, p.steeringDeadzone);
      var sy := ApplyDeadzone(y, p.steeringDeadzone);
      var left := MixedPulse(sy + sx, p.reverse1);
      var right := MixedPulse(sy - sx, p.reverse2);
      Step(st.(width1 := left, width2 := right), [ServoWrite(Motor1, left), ServoWrite(Motor2, right)])
  }

  /** A reversed motor is driven by the negated mix. */
  lemma MixedPulseReversal(v: real)
    ensures MixedPulse(v, true) == MixedPulse(-v, false)
  {
  }

  /** The tank mix: motor 1 follows `y + x` and motor 2 follows `y - x` of the
      dead-zoned stick, each negated when its motor is reversed, clamped to
      [-1, 1] and mapped onto 1500 +- 500 us with truncation. */
  lemma NormalDrivingTankMix(p: MotorParams, st: MotorState, x: real, y: real)
    ensures var sx := ApplyDeadzone(x, p.steeringDeadzone);
      var sy := ApplyDeadzone(y, p.steeringDeadzone);
      var m1 := Constrain(if p.reverse1 then -(sy + sx) else sy + sx, -1.0, 1.0);
      var m2 := Constrain(if p.reverse2 then -(sy - sx) else sy - sx, -1.0, 1.0);
      var r := NormalDrivingMode(ServoPwmThrottle, p, st, x, y);
      && r.state.width1 as real <= 1500.0 + 500.0 * m1 < r.state.width1 as real + 1.0
      && r.state.width2 as real <= 1500.0 + 500.0 * m2 < r.state.width2 as real + 1.0
  {
  }

  /** The four stick positions the firmware documents, without reversal and
      with a dead zone narrower than full deflection: forward (0, 1) and
      backward (0, -1) drive both motors fully one way, right (1, 0) and
      left (-1, 0) spin the motors against each other. */
  lemma NormalDrivingStickAnchors(p: MotorParams, st: MotorState)
    requires !p.reverse1 && !p.reverse2 && p.steeringDeadzone < 1.0
    ensures NormalDrivingMode(ServoPwmThrottle, p, st, 0.0, 1.0).state == st.(width1 := 2000, width2 := 2000)
    ensures NormalDrivingMode(ServoPwmThrottle, p, st, 0.0, -1.0).state == st.(width1 := 1000, width2 := 1000)
    ensures NormalDrivingMode(ServoPwmThrottle, p, st, 1.0, 0.0).state == st.(width1 := 2000, width2 := 1000)
    ensures NormalDrivingMode(ServoPwmThrottle, p, st, -1.0, 0.0).state == st.(width1 := 1000, width2 := 2000)
  {
    var dz := p.steeringDeadzone;
    assert ApplyDeadzone(1.0, dz) == 1.0 && ApplyDeadzone(-1.0, dz) == -1.0;
    assert ApplyDeadzone(0.0, dz) == 0.0;
  }

  /** A stick inside the dead zone on both axes (zero steering in particular)
      holds both motors at neutral. */
  lemma NormalDrivingDeadzoneIsNeutral(p: MotorParams, st: MotorState, x: real, y: real)
    requires AbsReal(x) <= p.steeringDeadzone && AbsReal(y) <= p.steeringDeadzone
    ensures NormalDrivingMode(ServoPwmThrottle, p, st, x, y).state.width1 == SERVO_NEUTRAL_US
    ensures NormalDrivingMode(ServoPwmThrottle, p, st, x, y).state.width2 == SERVO_NEUTRAL_US
  {
    ServoConvention();
  }

  lemma NormalDrivingZeroStickIsNeutral(p: MotorParams, st: MotorState)
    ensures NormalDrivingMode(ServoPwmThrottle, p, st, 0.0, 0.0).state.width1 == SERVO_NEUTRAL_US
    ensures NormalDrivingMode(ServoPwmThrottle, p, st, 0.0, 0.0).state.width2 == SERVO_NEUTRAL_US
  {
    ServoConvention();
  }

  /** Steering is symmetric: when both motors share the same reversal setting,
      mirroring the stick left-to-right swaps the two motors' pulses. */
  lemma NormalDrivingMirror(p: MotorParams, st: MotorState, x: real, y: real)
    requires p.reverse1 == p.reverse2
    ensures NormalDrivingMode(ServoPwmThrottle, p, st, -x, y).state.width1
         == NormalDrivingMode(ServoPwmThrottle, p, st, x, y).state.width2
    ensures NormalDrivingMode(ServoPwmThrottle, p, st, -x, y).state.width2
         == NormalDrivingMode(ServoPwmThrottle, p, st, x, y).state.width1
  {
    var dz := p.steeringDeadzone;
    assert AbsReal(-x) == AbsReal(x);
    assert ApplyDeadzone(-x, dz) == -ApplyDeadzone(x, dz);
  }

  /** Pushing the stick straight ahead (no reversal configured) drives both
      motors equally and never backwards. */
  lemma NormalDrivingStraightAhead(p: MotorParams, st: MotorState, y: real)
    requires !p.reverse1 && !p.reverse2 && y >= 0.0
    ensures NormalDrivingMode(ServoPwmThrottle, p, st, 0.0, y).state.width1
         == NormalDrivingMode(ServoPwmThrottle, p, st, 0.0, y).state.width2
    ensures NormalDrivingMode(ServoPwmThrottle, p, st, 0.0, y).state.width1 >= SERVO_NEUTRAL_US
  {
    var sy := ApplyDeadzone(y, p.steeringDeadzone);
    var sx := ApplyDeadzone(0.0, p.steeringDeadzone);
    var c := Constrain(sy + sx, -1.0, 1.0);
    assert 0.0 <= c <= 1.0;
  }

  /** Neutral sent to motor 1, then to motor 2. */
  const NeutralPair: seq<PinWrite> := [ServoWrite(Motor1, SERVO_NEUTRAL_US), ServoWrite(Motor2, SERVO_NEUTRAL_US)]

  /** `arm_calibrate_escs`: the end state of the arming (or calibration)
      sequence; calibration first sends full forward, then neutral. */
  function ArmCalibrateEscs(mode: ThrottleMode, st: MotorState, calibrate: bool): (r: Step)
    ensures mode != ServoPwmThrottle ==> r == Step(st, [])
    ensures mode == ServoPwmThrottle ==>
      r.state == st.(width1 := SERVO_NEUTRAL_US, width2 := SERVO_NEUTRAL_US)
    ensures mode == ServoPwmThrottle ==>
      r.writes == (if calibrate then [ServoWrite(Motor1, SERVO_FULL_FORWARD_US), ServoWrite(Motor2, SERVO_FULL_FORWARD_US)] else [])
                  + NeutralPair
    ensures MirrorsServo(r)
  {
    if mode != ServoPwmThrottle then Step(st, [])
    else
      var neutral := [ServoWrite(Motor1, SERVO_NEUTRAL_US), ServoWrite(Motor2, SERVO_NEUTRAL_US)];
      var writes := if calibrate
        then [ServoWrite(Motor1, SERVO_FULL_FORWARD_US), ServoWrite(Motor2, SERVO_FULL_FORWARD_US)] + neutral
        else neutral;
      var r := Step(st.(width1 := SERVO_NEUTRAL_US, width2 := SERVO_NEUTRAL_US), writes);
      LastServoWriteAppend(writes[..|writes| - 2], neutral, Motor1);
      LastServoWriteAppend(writes[..|writes| - 2], neutral, Motor2);
      assert writes == writes[..|writes| - 2] + neutral;
      r
  }

  /** `init_motors`: arm without calibrating, set neutral again, then turn
      both motors off. */
  function InitMotors(mode: ThrottleMode, st: MotorState): (r: Step)
    ensures mode == ServoPwmThrottle ==>
      r.state == st.(width1 := SERVO_NEUTRAL_US, width2 := SERVO_NEUTRAL_US)
    ensures mode != ServoPwmThrottle ==> r.state == st
    ensures mode == ServoPwmThrottle ==>
      r.writes == NeutralPair + NeutralPair + NeutralPair
    ensures mode == BinaryThrottle ==> r.writes == [DigitalWrite(MOTOR_PIN1, false), DigitalWrite(MOTOR_PIN2, false)]
    ensures mode == FixedPwmThrottle || mode == DynamicPwmThrottle ==>
      r.writes == [AnalogWrite(MOTOR_PIN1, PWM_MOTOR_OFF), AnalogWrite(MOTOR_PIN2, PWM_MOTOR_OFF)]
    ensures MirrorsServo(r)
  {
    var arm := ArmCalibrateEscs(mode, st, false);
    var neutral := if mode == ServoPwmThrottle
      then Step(arm.state.(width1 := SERVO_NEUTRAL_US, width2 := SERVO_NEUTRAL_US),
                [ServoWrite(Motor1, SERVO_NEUTRAL_US), ServoWrite(Motor2, SERVO_NEUTRAL_US)])
      else arm;
    var off := MotorsOff(mode, neutral.state);
    var mid := Step(neutral.state, arm.writes + (if mode == ServoPwmThrottle then neutral.writes else []));
    MirrorsServoSequential(arm, Step(neutral.state, if mode == ServoPwmThrottle then neutral.writes else []));
    MirrorsServoSequential(mid, off);
    Step(off.state, mid.writes + off.writes)
  }

  /** After start-up in the configured servo mode both motors sit at neutral
      and direct control is off. */
  lemma StartupIsNeutral()
    ensures InitMotors(THROTTLE_TYPE, InitialMotorState).state == InitialMotorState
    ensures InitialMotorState.width1 == SERVO_NEUTRAL_US && InitialMotorState.width2 == SERVO_NEUTRAL_US
    ensures !InitialMotorState.directEscControl
  {
  }

  /** Turning a motor off twice is the same as turning it off once. */
  lemma MotorOffIdempotent(mode: ThrottleMode, st: MotorState, pin: int)
    ensures MotorOff(mode, MotorOff(mode, st, pin).state, pin).state == MotorOff(mode, st, pin).state
  {
  }

  /** After `motors_off` in servo mode a coast leaves the motor at neutral. */
  lemma CoastAfterOffStaysNeutral(p: MotorParams, st: MotorState, pin: int, s: real)
    requires MotorOfPin(pin).Some?
    ensures
      var off := MotorsOff(ServoPwmThrottle, st).state;
      Width(MotorCoast(ServoPwmThrottle, p, off, pin, s).state, MotorOfPin(pin).value) == SERVO_NEUTRAL_US
  {
    var c := p.coastPercent;
    TruncOfInt(1500);
  }
}

=== FILE: rc_handler.dfy ===
/** The RC channel decoder (openmelt/rc_handler.cpp).

    Each of the three receiver channels (forward/back, left/right, throttle)
    is decoded from pin-change interrupts: a rising edge stamps the pulse
    start, a falling edge measures the pulse and keeps it only when its width
    is plausible. Readers in the main loop set a lock flag while they copy a
    channel; an interrupt that fires while the flag is set drops its sample
    instead of blocking. Each interrupt is modelled as one atomic step that
    samples `micros()` and `millis()` once. */
module RcHandler {
  import opened Machine

  /** The thresholds of rc_handler.h. */
  datatype RcConfig = RcConfig(
    minPulse: int,            // MIN_RC_PULSE_LENGTH
    maxPulse: int,            // MAX_RC_PULSE_LENGTH
    idlePulse: int,           // IDLE_THROTTLE_PULSE_LENGTH
    fullPulse: int,           // FULL_THROTTLE_PULSE_LENGTH
    centerLeftRight: int,     // CENTER_LEFTRIGHT_PULSE_LENGTH
    centerForBack: int,       // CENTER_FORBACK_PULSE_LENGTH
    forBackMinThresh: int,    // FORBACK_MIN_THRESH_PULSE_LENGTH
    lrConfigDeadzone: int,    // LR_CONFIG_MODE_DEADZONE_WIDTH
    lrNormalDeadzone: int,    // LR_NORMAL_DEADZONE_WIDTH
    maxMsBetweenUpdates: int  // MAX_MS_BETWEEN_RC_UPDATES
  )

  /** What the code needs of those constants: non-negative pulse lengths that
      fit a signed 32-bit value, and an ordered acceptance window.  The full
      throttle length is also small enough that the throttle interpolation's
      `(pulse_length - 1550) * 100`, computed in 32 bits for pulses below it,
      does not wrap. */
  predicate ValidConfig(cfg: RcConfig)
  {
    && 0 <= cfg.minPulse <= cfg.maxPulse <= INT32_MAX
    && 0 <= cfg.idlePulse <= INT32_MAX
    && 0 <= cfg.fullPulse <= INT32_MAX
    && (cfg.fullPulse - NEUTRAL_BAND_HIGH) * 100 <= INT32_MAX
    && 0 <= cfg.centerLeftRight <= INT32_MAX
    && 0 <= cfg.centerForBack <= INT32_MAX
    && 0 <= cfg.maxMsBetweenUpdates <= INT32_MAX
  }

  /** `struct rc_channel_t`. */
  datatype Channel = Channel(
    pin: int,
    pulseLength: U32,     // most recent accepted pulse width, us
    pulseStartTime: U32,  // micros() at the last rising edge
    lastGoodSignal: U32   // millis() when the last plausible pulse ended
  )

  datatype LockState = Unlocked | Locked

  datatype ChannelId = ForBackChannel | LeftRightChannel | ThrottleChannel

  datatype RcState = RcState(lock: LockState, forBack: Channel, leftRight: Channel, throttle: Channel)

  /** One pin change seen by an interrupt handler, with its clock samples. */
  datatype PinEdge = PinEdge(channel: ChannelId, high: bool, nowMicros: U32, nowMillis: U32)

  function InitialChannel(cfg: RcConfig, pin: int): (ch: Channel)
    requires ValidConfig(cfg)
    ensures ch.pulseLength == cfg.minPulse && ch.lastGoodSignal == 0
  {
    Channel(pin, cfg.minPulse, 0, 0)
  }

  // Pins of melty_config.h.
  const FORBACK_RC_CHANNEL_PIN: int := 1
  const LEFTRIGHT_RC_CHANNEL_PIN: int := 2
  const THROTTLE_RC_CHANNEL_PIN: int := 3

  function InitialState(cfg: RcConfig): RcState
    requires ValidConfig(cfg)
  {
    RcState(
      Unlocked,
      InitialChannel(cfg, FORBACK_RC_CHANNEL_PIN),
      InitialChannel(cfg, LEFTRIGHT_RC_CHANNEL_PIN),
      InitialChannel(cfg, THROTTLE_RC_CHANNEL_PIN))
  }

  /** The decoder's invariant: a stored width is always a plausible one. */
  predicate PulseInRange(cfg: RcConfig, ch: Channel)
  {
    cfg.minPulse <= ch.pulseLength <= cfg.maxPulse
  }

  predicate StateInRange(cfg: RcConfig, s: RcState)
  {
    PulseInRange(cfg, s.forBack) && PulseInRange(cfg, s.leftRight) && PulseInRange(cfg, s.throttle)
  }

  /** A falling edge at `now` for a pulse that started at `start` carries a
      usable width: the clock has not wrapped in between and the width is
      inside the acceptance window. */
  predicate AcceptedWidth(cfg: RcConfig, start: U32, now: U32)
  {
    now > start && cfg.minPulse <= now - start <= cfg.maxPulse
  }

  /** `update_rc_channel`: one interrupt on the channel's pin. */
  function UpdateChannel(cfg: RcConfig, lock: LockState, ch: Channel, high: bool, nowMicros: U32, nowMillis: U32): (r: Channel)
    requires ValidConfig(cfg)
    ensures r.pin == ch.pin
    ensures PulseInRange(cfg, ch) ==> PulseInRange(cfg, r)
    ensures r.pulseLength != ch.pulseLength ==> r.pulseLength == nowMicros - ch.pulseStartTime
    ensures r.lastGoodSignal != ch.lastGoodSignal ==> r.lastGoodSignal == nowMillis
  {
    if lock == Locked then ch
    else if high then ch.(pulseStartTime := nowMicros)
    else if AcceptedWidth(cfg, ch.pulseStartTime, nowMicros) then
      ch.(pulseLength := nowMicros - ch.pulseStartTime, lastGoodSignal := nowMillis)
    else ch
  }

  /** An edge while a reader holds the lock changes nothing. */
  lemma LockedEdgeIsIgnored(cfg: RcConfig, ch: Channel, high: bool, nowMicros: U32, nowMillis: U32)
    requires ValidConfig(cfg)
    ensures UpdateChannel(cfg, Locked, ch, high, nowMicros, nowMillis) == ch
  {
  }

  /** A rising edge only stamps the start time. */
  lemma RisingEdgeStampsStart(cfg: RcConfig, ch: Channel, nowMicros: U32, nowMillis: U32)
    requires ValidConfig(cfg)
    ensures var r := UpdateChannel(cfg, Unlocked, ch, true, nowMicros, nowMillis);
      && r.pulseStartTime == nowMicros
      && r.pulseLength == ch.pulseLength
      && r.lastGoodSignal == ch.lastGoodSignal
      && r.pin == ch.pin
  {
  }

  /** A falling edge stores the width and refreshes the signal time exactly
      when the width is acceptable; otherwise the last good values stay. */
  lemma FallingEdgeKeepsLastGood(cfg: RcConfig, ch: Channel, nowMicros: U32, nowMillis: U32)
    requires ValidConfig(cfg)
    ensures var r := UpdateChannel(cfg, Unlocked, ch, false, nowMicros, nowMillis);
      && r.pulseStartTime == ch.pulseStartTime
      && (AcceptedWidth(cfg, ch.pulseStartTime, nowMicros) ==>
            r.pulseLength == nowMicros - ch.pulseStartTime && r.lastGoodSignal == nowMillis)
      && (!AcceptedWidth(cfg, ch.pulseStartTime, nowMicros) ==> r == ch)
  {
  }

  /** Decoding a whole pulse: a rising edge at `t` and a falling edge at
      `t + w` yield exactly the width `w` when `w` is acceptable, and leave the
      stored width as it was otherwise. */
  lemma PulseRoundTrip(cfg: RcConfig, ch: Channel, t: U32, w: nat, ms1: U32, ms2: U32)
    requires ValidConfig(cfg)
    requires t + w < U32_MODULUS
    ensures var r := UpdateChannel(cfg, Unlocked,
                       UpdateChannel(cfg, Unlocked, ch, true, t, ms1), false, t + w, ms2);
      && (0 < w && cfg.minPulse <= w <= cfg.maxPulse ==> r.pulseLength == w && r.lastGoodSignal == ms2)
      && (!(0 < w && cfg.minPulse <= w <= cfg.maxPulse) ==>
            r.pulseLength == ch.pulseLength && r.lastGoodSignal == ch.lastGoodSignal)
  {
  }

  function ChannelOf(s: RcState, id: ChannelId): Channel
  {
    match id
    case ForBackChannel => s.forBack
    case LeftRightChannel => s.leftRight
    case ThrottleChannel => s.throttle
  }

  /** The interrupt service routine for the edge's pin. */
  function Isr(cfg: RcConfig, s: RcState, e: PinEdge): (r: RcState)
    requires ValidConfig(cfg)
    ensures r.lock == s.lock
    ensures forall id: ChannelId :: id != e.channel ==> ChannelOf(r, id) == ChannelOf(s, id)
    ensures StateInRange(cfg, s) ==> StateInRange(cfg, r)
  {
    match e.channel
    case ForBackChannel =>
      s.(forBack := UpdateChannel(cfg, s.lock, s.forBack, e.high, e.nowMicros, e.nowMillis))
    case LeftRightChannel =>
      s.(leftRight := UpdateChannel(cfg, s.lock, s.leftRight, e.high, e.nowMicros, e.nowMillis))
    case ThrottleChannel =>
      s.(throttle := UpdateChannel(cfg, s.lock, s.throttle, e.high, e.nowMicros, e.nowMillis))
  }

  /** A run of interrupts, oldest first. */
  function RunIsrs(cfg: RcConfig, s: RcState, edges: seq<PinEdge>): RcState
    requires ValidConfig(cfg)
    decreases |edges|
  {
    if |edges| == 0 then s else RunIsrs(cfg, Isr(cfg, s, edges[0]), edges[1..])
  }

  /** Every stored width stays within [MIN_RC_PULSE_LENGTH, MAX_RC_PULSE_LENGTH]
      from power-up on, whatever interrupts arrive. */
  lemma {:induction false} PulseRangeInvariant(cfg: RcConfig, s: RcState, edges: seq<PinEdge>)
    requires ValidConfig(cfg)
    requires StateInRange(cfg, s)
    ensures StateInRange(cfg, RunIsrs(cfg, s, edges))
    decreases |edges|
  {
    if |edges| > 0 {
      PulseRangeInvariant(cfg, Isr(cfg, s, edges[0]), edges[1..]);
    }
  }

  lemma InitialStateInRange(cfg: RcConfig)
    requires ValidConfig(cfg)
    ensures StateInRange(cfg, InitialState(cfg))
  {
  }

  /** While the lock is held no interrupt can change any channel, so a reader
      between `lock_rc_data` and `unlock_rc_data` sees a consistent copy. */
  lemma {:induction false} LockedRunChangesNothing(cfg: RcConfig, s: RcState, edges: seq<PinEdge>)
    requires ValidConfig(cfg)
    requires s.lock == Locked
    ensures RunIsrs(cfg, s, edges) == s
    decreases |edges|
  {
    if |edges| > 0 {
      var e := edges[0];
      assert UpdateChannel(cfg, Locked, ChannelOf(s, e.channel), e.high, e.nowMicros, e.nowMillis) == ChannelOf(s, e.channel);
      assert Isr(cfg, s, e) == s;
      LockedRunChangesNothing(cfg, s, edges[1..]);
    }
  }

  function LockRcData(s: RcState): (r: RcState)
    ensures r.lock == Locked
    ensures r.(lock := s.lock) == s
  {
    s.(lock := Locked)
  }

  function UnlockRcData(s: RcState): (r: RcState)
    ensures r.lock == Unlocked
    ensures r.(lock := s.lock) == s
  {
    s.(lock := Unlocked)
  }

  /** A reader's critical section hands back the decoder state it found:
      locking and then unlocking an unlocked state is no change at all. */
  lemma LockThenUnlockRestores(s: RcState)
    requires s.lock == Unlocked
    ensures UnlockRcData(LockRcData(s)) == s
  {
  }

  // ------------------------------------------------------------------ health

  /** `rc_signal_is_healthy`: a plausible throttle pulse has been seen, and not
      longer than MAX_MS_BETWEEN_RC_UPDATES ago (elapsed time in wrapping
      `unsigned long` arithmetic). */
  function SignalIsHealthy(cfg: RcConfig, s: RcState, nowMillis: U32): (healthy: bool)
    requires ValidConfig(cfg)
    ensures healthy ==> s.throttle.lastGoodSignal != 0
    ensures healthy ==> Elapsed(nowMillis, s.throttle.lastGoodSignal) <= cfg.maxMsBetweenUpdates
  {
    var last := s.throttle.lastGoodSignal;
    if last == 0 then false
    else if Elapsed(nowMillis, last) > cfg.maxMsBetweenUpdates then false
    else true
  }

  /** Health depends on the throttle channel alone, and is exactly "seen a
      sample, and it is recent enough". */
  lemma HealthIsThrottleRecency(cfg: RcConfig, s: RcState, other: RcState, nowMillis: U32)
    requires ValidConfig(cfg)
    requires other.throttle.lastGoodSignal == s.throttle.lastGoodSignal
    ensures SignalIsHealthy(cfg, s, nowMillis) == SignalIsHealthy(cfg, other, nowMillis)
    ensures SignalIsHealthy(cfg, s, nowMillis) <==>
      s.throttle.lastGoodSignal != 0 && Elapsed(nowMillis, s.throttle.lastGoodSignal) <= cfg.maxMsBetweenUpdates
  {
  }

  /** Before any plausible throttle pulse the signal is unhealthy at every time. */
  lemma UnhealthyUntilFirstSample(cfg: RcConfig, nowMillis: U32)
    requires ValidConfig(cfg)
    ensures !SignalIsHealthy(cfg, InitialState(cfg), nowMillis)
  {
  }

  /** After a throttle pulse accepted at time `t` (not 0), the signal is
      healthy for exactly MAX_MS_BETWEEN_RC_UPDATES milliseconds (and stays so
      across a wrap of `millis()`), then unhealthy until the next sample. */
  lemma HealthyWindowAfterSample(cfg: RcConfig, s: RcState, start: U32, w: nat, t: U32, d: nat)
    requires ValidConfig(cfg) && s.lock == Unlocked
    requires t != 0 && start + w < U32_MODULUS
    requires 0 < w && cfg.minPulse <= w <= cfg.maxPulse
    requires s.throttle.pulseStartTime == start
    requires d < U32_MODULUS
    ensures var s' := Isr(cfg, s, PinEdge(ThrottleChannel, false, start + w, t));
      SignalIsHealthy(cfg, s', WrapU32(t + d)) <==> d <= cfg.maxMsBetweenUpdates
  {
    var s' := Isr(cfg, s, PinEdge(ThrottleChannel, false, start + w, t));
    assert s'.throttle.lastGoodSignal == t;
    assert Elapsed(WrapU32(t + d), t) == d;
  }

  // ------------------------------------------------------- derived readings

  /** Integer percentage of a span, for a divisor that must be positive:
      the largest `p` with `p * span <= offset * 100`. */
  function PercentOfSpan(offset: nat, span: int): (p: nat)
    requires span > 0
    ensures offset < span ==> p < 100
    ensures p * span <= offset * 100 < (p + 1) * span
  {
    var p := (offset * 100) / span;
    DivBracket(offset * 100, span);
    if offset < span then
      ScaleBelow(offset, span, 100);
      CancelFactor(p, 100, span);
      p
    else p
  }

  /** The quotient brackets the dividend between two multiples of the divisor. */
  lemma DivBracket(q: nat, d: int)
    requires d > 0
    ensures (q / d) * d <= q < (q / d + 1) * d
  {
    assert q == (q / d) * d + q % d;
    assert (q / d + 1) * d == (q / d) * d + d;
  }

  lemma ScaleBelow(a: nat, b: int, c: nat)
    requires a < b && c > 0
    ensures a * c < b * c
  {
  }

  /** `p * d` below `c * d` for a positive `d` puts `p` below `c`. */
  lemma CancelFactor(p: nat, c: nat, d: int)
    requires d > 0
    requires p * d < c * d
    ensures p < c
  {
    assert (c - p) * d == c * d - p * d;
  }


  /** The 1450-1550 us band a bidirectional transmitter sends at minimum stick. */
  const NEUTRAL_BAND_LOW: int := 1450
  const NEUTRAL_BAND_HIGH: int := 1550

  /** `rc_get_throttle_percent` applied to a stored throttle width. The
      full-throttle test comes first, then the neutral band, then the idle
      floor; the two interpolations divide by spans that are positive on the
      paths that reach them, and their percentage is the floor of the
      pulse's share of the span. */
  function ThrottlePercent(cfg: RcConfig, pulse: U32): (pct: int)
    requires ValidConfig(cfg)
    ensures 0 <= pct <= 100
    ensures pulse >= cfg.fullPulse ==> pct == 100
    ensures pulse < cfg.fullPulse && NEUTRAL_BAND_LOW <= pulse <= NEUTRAL_BAND_HIGH ==> pct == 0
    ensures pulse < cfg.fullPulse && pulse <= cfg.idlePulse ==> pct == 0
    ensures pct == 100 ==> pulse >= cfg.fullPulse
    ensures NEUTRAL_BAND_HIGH < pulse < cfg.fullPulse && cfg.idlePulse < pulse ==>
      var span := cfg.fullPulse - NEUTRAL_BAND_HIGH;
      pct * span <= (pulse - NEUTRAL_BAND_HIGH) * 100 < (pct + 1) * span
    ensures cfg.idlePulse < pulse < NEUTRAL_BAND_LOW && pulse < cfg.fullPulse ==>
      var span := cfg.fullPulse - cfg.idlePulse;
      pct * span <= (pulse - cfg.idlePulse) * 100 < (pct + 1) * span
  {
    if pulse >= cfg.fullPulse then 100
    else if NEUTRAL_BAND_LOW <= pulse <= NEUTRAL_BAND_HIGH then 0
    else if pulse <= cfg.idlePulse then 0
    else if pulse > NEUTRAL_BAND_HIGH then
      var p := PercentOfSpan(pulse - NEUTRAL_BAND_HIGH, cfg.fullPulse - NEUTRAL_BAND_HIGH);
      if p > 100 then 100 else p
    else
      var p := PercentOfSpan(pulse - cfg.idlePulse, cfg.fullPulse - cfg.idlePulse);
      if p > 100 then 100 else p
  }

  /** The products the two interpolations form fit a signed 32-bit `long`,
      so the model's exact arithmetic is the firmware's. */
  lemma InterpolationFitsLong(cfg: RcConfig, pulse: U32)
    requires ValidConfig(cfg)
    requires pulse < cfg.fullPulse && cfg.idlePulse < pulse
    requires !(NEUTRAL_BAND_LOW <= pulse <= NEUTRAL_BAND_HIGH)
    ensures pulse > NEUTRAL_BAND_HIGH ==> 0 < (pulse - NEUTRAL_BAND_HIGH) * 100 <= INT32_MAX
    ensures pulse < NEUTRAL_BAND_LOW ==> 0 < (pulse - cfg.idlePulse) * 100 <= INT32_MAX
  {
  }

  /** Halfway between the top of the neutral band and a 2000 us full
      throttle, the stick reads 50 percent. */
  lemma ThrottleHalfway(cfg: RcConfig)
    requires ValidConfig(cfg) && cfg.fullPulse == 2000 && cfg.idlePulse < 1775
    ensures ThrottlePercent(cfg, 1775) == 50
  {
    var pct := ThrottlePercent(cfg, 1775);
    assert pct * 450 <= 22500 < (pct + 1) * 450;
  }

  lemma DivMonotone(a: nat, b: nat, d: int)
    requires a <= b && d > 0
    ensures a / d <= b / d
  {
    var qa, qb := a / d, b / d;
    assert qa * d <= a;
    assert b < qb * d + d;
    assert (qa - qb) * d < d;
    MulAtLeastOnce(qa - qb, d);
  }

  lemma MulAtLeastOnce(y: int, d: int)
    requires d > 0
    ensures y >= 1 ==> y * d >= d
  {
    if y >= 1 {
      assert y * d == (y - 1) * d + d;
      assert (y - 1) * d >= 0;
    }
  }

  /** From the bottom of the neutral band upwards the throttle percentage never
      decreases as the pulse grows (it climbs linearly above 1550 us and is
      100 from FULL_THROTTLE_PULSE_LENGTH on). */
  lemma ThrottleMonotoneAboveNeutral(cfg: RcConfig, p: U32, q: U32)
    requires ValidConfig(cfg)
    requires NEUTRAL_BAND_LOW <= p <= q
    ensures ThrottlePercent(cfg, p) <= ThrottlePercent(cfg, q)
  {
    if q < cfg.fullPulse && p > NEUTRAL_BAND_HIGH && p > cfg.idlePulse {
      DivMonotone((p - NEUTRAL_BAND_HIGH) * 100, (q - NEUTRAL_BAND_HIGH) * 100, cfg.fullPulse - NEUTRAL_BAND_HIGH);
    }
  }

  /** The throttle percentage the main loop reads from the current state. */
  function RcThrottlePercent(cfg: RcConfig, s: RcState): (pct: int)
    requires ValidConfig(cfg)
    ensures 0 <= pct <= 100
  {
    ThrottlePercent(cfg, s.throttle.pulseLength)
  }

  /** `pulse_length - CENTER`: an `unsigned long` difference read back as `int`. */
  function OffsetFromCenter(pulse: U32, center: int): Int32
    requires 0 <= center <= INT32_MAX
  {
    AsInt32(WrapU32(pulse - center))
  }

  /** For stored widths (which fit 31 bits) the offset is the plain signed
      difference: negative below center, positive above. */
  lemma OffsetIsSignedDifference(pulse: U32, center: int)
    requires 0 <= center <= INT32_MAX && pulse <= INT32_MAX
    ensures OffsetFromCenter(pulse, center) == pulse - center
  {
  }

  /** `rc_get_leftright`. */
  function LeftRight(cfg: RcConfig, s: RcState): (offset: Int32)
    requires ValidConfig(cfg)
    ensures StateInRange(cfg, s) ==> offset == s.leftRight.pulseLength - cfg.centerLeftRight
  {
    OffsetFromCenter(s.leftRight.pulseLength, cfg.centerLeftRight)
  }

  /** `rc_get_forback`. */
  function ForBack(cfg: RcConfig, s: RcState): (offset: Int32)
    requires ValidConfig(cfg)
    ensures StateInRange(cfg, s) ==> offset == s.forBack.pulseLength - cfg.centerForBack
  {
    OffsetFromCenter(s.forBack.pulseLength, cfg.centerForBack)
  }

  datatype ForBackDirection = Forward | Backward | Neutral

  /** `rc_get_forback_enum`: FORWARD above the threshold, BACKWARD below its
      negation, NEUTRAL in between; the FORWARD test is made first. */
  function ForBackEnum(cfg: RcConfig, s: RcState): (d: ForBackDirection)
    requires ValidConfig(cfg)
    ensures var off := ForBack(cfg, s);
      && (d == Forward <==> off > cfg.forBackMinThresh)
      && (d == Backward <==> off <= cfg.forBackMinThresh && off < -cfg.forBackMinThresh)
      && (d == Neutral <==> -cfg.forBackMinThresh <= off <= cfg.forBackMinThresh)
  {
    var off := ForBack(cfg, s);
    if off > cfg.forBackMinThresh then Forward
    else if off < cfg.forBackMinThresh * -1 then Backward
    else Neutral
  }

  /** With a non-negative threshold the three directions are the three
      disjoint bands of the offset. */
  lemma ForBackBands(cfg: RcConfig, s: RcState)
    requires ValidConfig(cfg) && cfg.forBackMinThresh >= 0
    ensures var off := ForBack(cfg, s);
      && (ForBackEnum(cfg, s) == Forward <==> off > cfg.forBackMinThresh)
      && (ForBackEnum(cfg, s) == Backward <==> off < -cfg.forBackMinThresh)
      && (ForBackEnum(cfg, s) == Neutral <==> Abs(off) <= cfg.forBackMinThresh)
  {
  }

  /** `rc_get_is_lr_in_config_deadzone`. */
  function InConfigDeadzone(cfg: RcConfig, s: RcState): (inside: bool)
    requires ValidConfig(cfg)
    ensures inside <==> -cfg.lrConfigDeadzone < LeftRight(cfg, s) < cfg.lrConfigDeadzone
  {
    Abs(LeftRight(cfg, s)) < cfg.lrConfigDeadzone
  }

  /** `rc_get_is_lr_in_normal_deadzone`. */
  function InNormalDeadzone(cfg: RcConfig, s: RcState): (inside: bool)
    requires ValidConfig(cfg)
    ensures inside <==> -cfg.lrNormalDeadzone < LeftRight(cfg, s) < cfg.lrNormalDeadzone
  {
    Abs(LeftRight(cfg, s)) < cfg.lrNormalDeadzone
  }

  /** A stick inside the narrow (normal-drive) dead zone is also inside the
      wide (calibration) one when the widths are ordered that way. */
  lemma NormalDeadzoneWithinConfigDeadzone(cfg: RcConfig, s: RcState)
    requires ValidConfig(cfg) && cfg.lrNormalDeadzone <= cfg.lrConfigDeadzone
    ensures InNormalDeadzone(cfg, s) ==> InConfigDeadzone(cfg, s)
  {
  }
}

=== FILE: texts.dfy ===
/** The string primitives the firmware's text handling is built from:
    Arduino `String::indexOf` and `substring`, `String::toInt` (which is
    newlib's `atol`, i.e. `strtol` in base 10), `printf`'s `%d`, and the
    truncation that `strncpy`/`snprintf` into a fixed buffer performs. */
module Texts {
  import opened Machine

  /** The first `n` characters of `s`: what survives a copy into a buffer of
      `n + 1` bytes whose last byte is forced to the terminator. */
  function Truncate(s: string, n: nat): (r: string)
    ensures r <= s
    ensures |r| <= n
    ensures |s| <= n ==> r == s
    ensures n < |s| ==> |r| == n
  {
    if |s| <= n then s else s[..n]
  }

  /** Arduino `s.substring(k)`: the suffix from `k`, empty once `k` runs past the end. */
  function Suffix(s: string, k: nat): (r: string)
    ensures k <= |s| ==> r == s[k..]
    ensures |s| < k ==> r == ""
  {
    if k <= |s| then s[k..] else ""
  }

  // ---------------------------------------------------------------- search

  /** `pat` occurs in `s` starting at position `i`. */
  predicate MatchAt(s: string, pat: string, i: nat)
  {
    i + |pat| <= |s| && s[i..i + |pat|] == pat
  }

  predicate Occurs(s: string, pat: string)
  {
    exists i: nat | i <= |s| :: MatchAt(s, pat, i)
  }

  /** The first position at or after `from` where `pat` starts, or -1. */
  function IndexFrom(s: string, pat: string, from: nat): (r: int)
    decreases |s| - from
    ensures r == -1 || from <= r
    ensures r == -1 <==> forall j: nat :: from <= j ==> !MatchAt(s, pat, j)
    ensures r >= 0 ==> MatchAt(s, pat, r) && forall j: nat :: from <= j < r ==> !MatchAt(s, pat, j)
  {
    if from + |pat| > |s| then -1
    else if s[from..from + |pat|] == pat then assert MatchAt(s, pat, from); from
    else IndexFrom(s, pat, from + 1)
  }

  /** Arduino `s.indexOf(pat)`: the first occurrence, or -1 when there is none. */
  function IndexOf(s: string, pat: string): (r: int)
    ensures r == -1 <==> !Occurs(s, pat)
    ensures r >= 0 ==> MatchAt(s, pat, r) && forall j: nat :: j < r ==> !MatchAt(s, pat, j)
  {
    IndexFrom(s, pat, 0)
  }

  /** Characterisation of the first occurrence by its two defining facts. */
  lemma IndexOfIs(s: string, pat: string, n: nat)
    requires MatchAt(s, pat, n)
    requires forall j: nat :: j < n ==> !MatchAt(s, pat, j)
    ensures IndexOf(s, pat) == n
  {
    assert Occurs(s, pat);
  }

  /** Cutting at the first occurrence: the text is what comes before it, the
      pattern, and the rest, and the part before holds no occurrence. */
  lemma FirstOccurrenceSplit(s: string, pat: string)
    requires |pat| > 0 && IndexOf(s, pat) >= 0
    ensures var k := IndexOf(s, pat);
      && k + |pat| <= |s|
      && s == s[..k] + pat + s[k + |pat|..]
      && !Occurs(s[..k], pat)
  {
    var k := IndexOf(s, pat);
    assert s[k..k + |pat|] == pat;
    assert s == s[..k] + s[k..k + |pat|] + s[k + |pat|..];
    forall j: nat | j <= k
      ensures !MatchAt(s[..k], pat, j)
    {
      if j + |pat| <= k {
        assert j < k;
        assert !MatchAt(s, pat, j);
        assert s[..k][j..j + |pat|] == s[j..j + |pat|];
      }
    }
  }


  /** A match at `i` pins every character of the window; one character that
      differs rules the match out. */
  lemma NoMatchWhereCharDiffers(s: string, pat: string, i: nat, k: nat)
    requires k < |pat| && i + k < |s|
    requires s[i + k] != pat[k]
    ensures !MatchAt(s, pat, i)
  {
    if i + |pat| <= |s| {
      assert s[i..i + |pat|][k] == s[i + k];
    }
  }

  /** A pattern with a character that `s` lacks does not occur in `s`. */
  lemma {:induction false} AbsentCharNotFound(s: string, pat: string, k: nat)
    requires k < |pat|
    requires pat[k] !in s
    ensures IndexOf(s, pat) == -1
  {
    forall i: nat | i + |pat| <= |s|
      ensures !MatchAt(s, pat, i)
    {
      assert s[i + k] in s;
      NoMatchWhereCharDiffers(s, pat, i, k);
    }
  }

  /** The first occurrence of `pat` in `p + pat + rest` is the one right after
      `p`, provided some character of `pat` is absent from `p` and from the
      part of `pat` before it: every earlier window would have to place that
      character inside `p` or inside `pat[..k]`. */
  lemma {:induction false} FoundAfterPrefix(p: string, pat: string, rest: string, k: nat)
    requires k < |pat|
    requires pat[k] !in p && pat[k] !in pat[..k]
    ensures IndexOf(p + pat + rest, pat) == |p|
  {
    var s := p + pat + rest;
    assert s[|p|..|p| + |pat|] == pat;
    forall j: nat | j < |p|
      ensures !MatchAt(s, pat, j)
    {
      if j + k < |p| {
        assert s[j + k] == p[j + k];
        NoMatchWhereCharDiffers(s, pat, j, k);
      } else {
        var q := j + k - |p|;
        assert q < k;
        assert s[j + k] == pat[q];
        assert pat[q] == pat[..k][q];
        NoMatchWhereCharDiffers(s, pat, j, k);
      }
    }
    IndexOfIs(s, pat, |p|);
  }

  /** Windows that start inside `p` are not affected by what follows
      `p + q` when they fail within `p + q`. */
  lemma {:induction false} NoMatchInPrefixExtends(s: string, t: string, pat: string, i: nat, k: nat)
    requires s <= t
    requires k < |pat| && i + k < |s| && s[i + k] != pat[k]
    ensures !MatchAt(t, pat, i)
  {
    assert t[i + k] == s[i + k];
    NoMatchWhereCharDiffers(t, pat, i, k);
  }

  /** The first occurrence of `pat` in `a + d + b + pat + rest` is the one
      after `b` when a key character `pat[kk]` appears nowhere in `a`, `b`
      or `pat[..kk]`, appears in the decoy `d` only at the same offset `kk`,
      and the decoy differs from `pat` at some offset `k`. */
  lemma {:induction false} FoundAfterDecoy(a: string, d: string, b: string, pat: string, rest: string, kk: nat, k: nat)
    requires kk < |d| && kk < |pat|
    requires pat[kk] !in a && pat[kk] !in b && pat[kk] !in pat[..kk]
    requires forall i :: 0 <= i < |d| && i != kk ==> d[i] != pat[kk]
    requires k < |d| && k < |pat| && d[k] != pat[k]
    ensures IndexOf(a + d + b + pat + rest, pat) == |a| + |d| + |b|
  {
    var s := a + d + b + pat + rest;
    var n := |a| + |d| + |b|;
    assert s[n..n + |pat|] == pat;
    forall j: nat | j < n
      ensures !MatchAt(s, pat, j)
    {
      var q := j + kk;
      if q < |a| {
        assert s[q] == a[q];
        NoMatchWhereCharDiffers(s, pat, j, kk);
      } else if q < |a| + |d| {
        if q - |a| == kk {
          assert s[j + k] == d[k];
          NoMatchWhereCharDiffers(s, pat, j, k);
        } else {
          assert s[q] == d[q - |a|];
          NoMatchWhereCharDiffers(s, pat, j, kk);
        }
      } else if q < n {
        assert s[q] == b[q - |a| - |d|];
        NoMatchWhereCharDiffers(s, pat, j, kk);
      } else {
        assert s[q] == pat[q - n];
        assert pat[q - n] == pat[..kk][q - n];
        NoMatchWhereCharDiffers(s, pat, j, kk);
      }
    }
    IndexOfIs(s, pat, n);
  }

  // ------------------------------------------------------------ formatting

  predicate IsDigit(c: char)
  {
    '0' <= c <= '9'
  }

  predicate AllDigits(s: string)
  {
    forall i :: 0 <= i < |s| ==> IsDigit(s[i])
  }

  function DigitChar(d: nat): (c: char)
    requires d < 10
    ensures IsDigit(c)
    ensures c as int - '0' as int == d
  {
    ('0' as int + d) as char
  }

  /** Decimal digits of `n`, most significant first, no leading zeros. */
  function NatToString(n: nat): (r: string)
    decreases n
    ensures 1 <= |r|
    ensures AllDigits(r)
  {
    if n < 10 then [DigitChar(n)] else NatToString(n / 10) + [DigitChar(n % 10)]
  }

  /** `printf("%d", n)`. */
  function IntToString(n: int): (r: string)
    ensures 1 <= |r|
    ensures n >= 0 ==> AllDigits(r)
    ensures n < 0 ==> r[0] == '-' && AllDigits(r[1..])
  {
    if n < 0 then "-" + NatToString(-n) else NatToString(n)
  }

  /** Value of a run of decimal digits. */
  function DigitsValue(ds: string): nat
    requires AllDigits(ds)
  {
    if |ds| == 0 then 0
    else DigitsValue(ds[..|ds| - 1]) * 10 + (ds[|ds| - 1] as int - '0' as int)
  }

  /** Number of decimal digits at the start of `s`. */
  function LeadingDigits(s: string): (n: nat)
    ensures n <= |s|
    ensures AllDigits(s[..n])
    ensures n < |s| ==> !IsDigit(s[n])
  {
    if |s| == 0 || !IsDigit(s[0]) then 0
    else
      var m := LeadingDigits(s[1..]);
      assert s[..m + 1] == [s[0]] + s[1..][..m];
      m + 1
  }

  /** The C `isspace` set: space, tab, newline, vertical tab, form feed, carriage return. */
  predicate IsSpace(c: char)
  {
    c == ' ' || c == '\t' || c == '\n' || c == '\r' || c as int == 11 || c as int == 12
  }

  function SkipSpaces(s: string): (r: string)
    ensures |r| <= |s| && r == s[|s| - |r|..]
    ensures |r| == 0 || !IsSpace(r[0])
  {
    if |s| > 0 && IsSpace(s[0]) then SkipSpaces(s[1..]) else s
  }

  function ClampInt32(x: int): (r: Int32)
    ensures INT32_MIN <= x <= INT32_MAX ==> r == x
    ensures x >= INT32_MAX ==> r == INT32_MAX
    ensures x <= INT32_MIN ==> r == INT32_MIN
  {
    if x > INT32_MAX then INT32_MAX else if x < INT32_MIN then INT32_MIN else x
  }

  /** Arduino `String::toInt`, which is newlib's `atol`: skip white space,
      read an optional sign and the longest run of digits, and saturate at the
      32-bit `long` bounds as `strtol` does. Text without digits reads as 0. */
  function Atol(s: string): (r: Int32)
    ensures var t := SkipSpaces(s);
      |t| == 0 || (!IsDigit(t[0]) && t[0] != '-' && t[0] != '+') ==> r == 0
  {
    ReadSignedDigits(SkipSpaces(s))
  }

  /** The part of `atol` after the white space: sign, digits, saturation. */
  function ReadSignedDigits(t: string): Int32
  {
    var signed := |t| > 0 && (t[0] == '-' || t[0] == '+');
    var u := if signed then t[1..] else t;
    var v: int := DigitsValue(u[..LeadingDigits(u)]);
    ClampInt32(if signed && t[0] == '-' then -v else v)
  }

  /** `%d` prints only digits and a minus sign. */
  lemma NumeralChars(n: int)
    ensures forall i :: 0 <= i < |IntToString(n)| ==> IsDigit(IntToString(n)[i]) || IntToString(n)[i] == '-'
  {
    var r := IntToString(n);
    if n < 0 {
      forall i | 1 <= i < |r|
        ensures IsDigit(r[i])
      {
        assert r[i] == r[1..][i - 1];
      }
    }
  }

  // ------------------------------------------------------------ round trip

  lemma {:induction false} DigitsValueOfNatToString(n: nat)
    decreases n
    ensures DigitsValue(NatToString(n)) == n
  {
    var r := NatToString(n);
    if n >= 10 {
      DigitsValueOfNatToString(n / 10);
      assert r[..|r| - 1] == NatToString(n / 10);
    }
  }

  lemma {:induction false} LeadingDigitsOfDigitsThen(ds: string, rest: string)
    requires AllDigits(ds)
    requires |rest| == 0 || !IsDigit(rest[0])
    ensures LeadingDigits(ds + rest) == |ds|
    decreases |ds|
  {
    if |ds| > 0 {
      assert (ds + rest)[1..] == ds[1..] + rest;
      LeadingDigitsOfDigitsThen(ds[1..], rest);
    }
  }

  lemma {:induction false} SkipSpacesOver(sp: string, t: string)
    requires forall i :: 0 <= i < |sp| ==> IsSpace(sp[i])
    requires |t| == 0 || !IsSpace(t[0])
    ensures SkipSpaces(sp + t) == t
    decreases |sp|
  {
    if |sp| > 0 {
      assert (sp + t)[1..] == sp[1..] + t;
      SkipSpacesOver(sp[1..], t);
    } else {
      assert sp + t == t;
    }
  }

  /** After the white space, `atol` sees a digit run followed by a non-digit. */
  lemma {:induction false} AtolOfDigits(ds: string, rest: string)
    requires |ds| >= 1 && AllDigits(ds)
    requires |rest| == 0 || !IsDigit(rest[0])
    ensures ReadSignedDigits(ds + rest) == ClampInt32(DigitsValue(ds))
  {
    var t := ds + rest;
    assert t[0] == ds[0];
    assert IsDigit(t[0]);
    LeadingDigitsOfDigitsThen(ds, rest);
    assert t[..|ds|] == ds;
  }

  lemma {:induction false} AtolOfMinusDigits(ds: string, rest: string)
    requires |ds| >= 1 && AllDigits(ds)
    requires |rest| == 0 || !IsDigit(rest[0])
    ensures ReadSignedDigits("-" + ds + rest) == ClampInt32(-(DigitsValue(ds) as int))
  {
    var t := "-" + ds + rest;
    assert t[0] == '-';
    assert t[1..] == ds + rest;
    LeadingDigitsOfDigitsThen(ds, rest);
    assert (ds + rest)[..|ds|] == ds;
  }

  /** After the white space, `atol` reads back what `%d` printed. */
  lemma {:induction false} ReadSignedDigitsOfIntToString(n: Int32, rest: string)
    requires |rest| == 0 || !IsDigit(rest[0])
    ensures ReadSignedDigits(IntToString(n) + rest) == n
  {
    if n < 0 {
      ReadNegative(n, rest);
    } else {
      ReadNonNegative(n, rest);
    }
  }

  lemma {:induction false} ReadNonNegative(n: Int32, rest: string)
    requires n >= 0
    requires |rest| == 0 || !IsDigit(rest[0])
    ensures ReadSignedDigits(IntToString(n) + rest) == n
  {
    var ds := NatToString(n as nat);
    assert IntToString(n) == ds;
    AtolOfDigits(ds, rest);
    DigitsValueOfNatToString(n as nat);
    assert ClampInt32(DigitsValue(ds)) == n;
  }

  lemma {:induction false} ReadNegative(n: Int32, rest: string)
    requires n < 0
    requires |rest| == 0 || !IsDigit(rest[0])
    ensures ReadSignedDigits(IntToString(n) + rest) == n
  {
    var m: nat := -(n as int);
    var ds := NatToString(m);
    assert IntToString(n) == "-" + ds;
    MinusRegroup(ds, rest);
    AtolOfMinusDigits(ds, rest);
    DigitsValueOfNatToString(m);
  }

  lemma MinusRegroup(ds: string, rest: string)
    ensures ("-" + ds) + rest == "-" + ds + rest
  {
  }

  /** `atol` reads back what `%d` printed: white space before the number and
      any text after it that does not start with a digit leave the value intact. */
  lemma {:induction false} AtolReadsIntToString(sp: string, n: Int32, rest: string)
    requires forall i :: 0 <= i < |sp| ==> IsSpace(sp[i])
    requires |rest| == 0 || !IsDigit(rest[0])
    ensures Atol(sp + IntToString(n) + rest) == n
  {
    var t := IntToString(n) + rest;
    assert sp + IntToString(n) + rest == sp + t;
    assert t[0] == IntToString(n)[0];
    SkipSpacesOver(sp, t);
    ReadSignedDigitsOfIntToString(n, rest);
  }

  /** `toInt` saturates: a run of digits whose value exceeds the 32-bit
      `long` range reads as its largest value. */
  lemma {:induction false} AtolSaturatesHigh(sp: string, ds: string, rest: string)
    requires forall i :: 0 <= i < |sp| ==> IsSpace(sp[i])
    requires |ds| >= 1 && AllDigits(ds) && DigitsValue(ds) > INT32_MAX
    requires |rest| == 0 || !IsDigit(rest[0])
    ensures Atol(sp + ds + rest) == INT32_MAX
  {
    var t := ds + rest;
    assert sp + ds + rest == sp + t;
    AtolOfDigits(ds, rest);
    assert t[0] == ds[0];
    SkipSpacesOver(sp, t);
  }

  /** ... and with a minus sign in front, as its smallest. */
  lemma {:induction false} AtolSaturatesLow(sp: string, ds: string, rest: string)
    requires forall i :: 0 <= i < |sp| ==> IsSpace(sp[i])
    requires |ds| >= 1 && AllDigits(ds) && DigitsValue(ds) > INT32_MAX
    requires |rest| == 0 || !IsDigit(rest[0])
    ensures Atol(sp + "-" + ds + rest) == INT32_MIN
  {
    var u := "-" + ds + rest;
    assert sp + "-" + ds + rest == sp + u;
    AtolOfMinusDigits(ds, rest);
    assert u[0] == '-';
    SkipSpacesOver(sp, u);
  }

  /** `%d` of a 32-bit value never needs more than 11 characters. */
  lemma {:induction false} NatToStringLength(n: nat, k: nat)
    requires 1 <= k && n < Pow10(k)
    ensures |NatToString(n)| <= k
    decreases k
  {
    if n >= 10 {
      assert Pow10(1) == 10;
      assert k >= 2;
      assert n / 10 < Pow10(k - 1);
      NatToStringLength(n / 10, k - 1);
    }
  }

  function Pow10(k: nat): (r: nat)
    ensures r >= 1
  {
    if k == 0 then 1 else 10 * Pow10(k - 1)
  }

  lemma IntToStringInt32Length(n: Int32)
    ensures |IntToString(n)| <= 11
  {
    assert Pow10(10) == 10_000_000_000;
    var m: int := n;
    if m < 0 {
      NatToStringLength(-m, 10);
    } else {
      NatToStringLength(m, 10);
    }
  }
}

=== FILE: web_server.dfy ===
/** The data side of the on-robot web server (openmelt/web_server.cpp): the
    telemetry and log buffers the diagnostics task fills, the parser that
    turns the telemetry line into the JSON the dashboard polls, and the JSON
    describing the EEPROM settings. */
module WebServer {
  import opened Machine
  import opened Texts
  import opened MeltyConfig
  import opened Wrappers
  import DebugLog

  /** `webTelemetryBuffer[1024]` and `webLogBuffer[2048]` hold C strings. */
  const TELEMETRY_BUFFER_CAPACITY: int := 1023
  const LOG_BUFFER_CAPACITY: int := 2047

  datatype WebBuffers = WebBuffers(telemetry: string, logs: string)

  const InitialWebBuffers: WebBuffers := WebBuffers("", "")

  /** `update_web_data`: each text is copied with `strncpy` into its buffer,
      so only a prefix that fits is kept. */
  function UpdateWebData(telemetry: string, logs: string): (r: WebBuffers)
    ensures |r.telemetry| <= TELEMETRY_BUFFER_CAPACITY && r.telemetry <= telemetry
    ensures |r.logs| <= LOG_BUFFER_CAPACITY && r.logs <= logs
    ensures |telemetry| <= TELEMETRY_BUFFER_CAPACITY ==> r.telemetry == telemetry
    ensures |logs| <= LOG_BUFFER_CAPACITY ==> r.logs == logs
  {
    WebBuffers(Truncate(telemetry, TELEMETRY_BUFFER_CAPACITY), Truncate(logs, LOG_BUFFER_CAPACITY))
  }

  /** `handleLogs`: the log buffer as plain text. */
  function HandleLogs(b: WebBuffers): (r: string)
    ensures r == b.logs
  {
    b.logs
  }

  /** What `/logs` serves after the log text was stored: the text itself when
      it fits the buffer, else the prefix that does. */
  lemma LogsServedAsStored(telemetry: string, logs: string)
    ensures HandleLogs(UpdateWebData(telemetry, logs)) <= logs
    ensures |HandleLogs(UpdateWebData(telemetry, logs))| == if |logs| <= LOG_BUFFER_CAPACITY then |logs| else LOG_BUFFER_CAPACITY
  {
  }

  /** `handleClear`: clear the debug log and answer with a fixed text. */
  function HandleClear(st: DebugLog.DebugState): (r: (DebugLog.DebugState, string))
    requires DebugLog.Valid(st)
    ensures DebugLog.Valid(r.0)
    ensures r.1 == "Logs cleared"
    ensures st.initialized ==> forall i :: 0 <= i < |r.0.entries| ==> !r.0.entries[i].used
  {
    (DebugLog.ClearDebugData(st), "Logs cleared")
  }

  // ---------------------------------------------------------------------------
  // Reading integer fields out of the telemetry line
  // ---------------------------------------------------------------------------

  /** `s.indexOf(tag)` and, when it is found, `s.substring(pos + offset).toInt()`. */
  function ReadIntAt(s: string, tag: string, offset: nat): (r: Option<Int32>)
    ensures r.None? <==> !Occurs(s, tag)
  {
    var pos := IndexOf(s, tag);
    if pos >= 0 then Some(Atol(Suffix(s, pos + offset))) else None
  }

  /** The integer-valued fields of the telemetry JSON. */
  datatype IntFields = IntFields(rcThrottle: Int32, rcSteering: Int32, motor1Throttle: int, motor2Throttle: int, rpm: int)

  /** `(pwm - 1500) / 5`: a forward servo pulse as a throttle percentage.  The
      operand is positive wherever it is used, so C's truncating division
      agrees with Dafny's. */
  function PwmToPercent(pwm: int): (pct: int)
    requires pwm > SERVO_NEUTRAL_US
    ensures pct >= 0
    ensures pwm <= SERVO_FULL_FORWARD_US ==> pct <= 100
    ensures 5 * pct <= pwm - SERVO_NEUTRAL_US < 5 * pct + 5
  {
    (pwm - SERVO_NEUTRAL_US) / 5
  }

  /** A motor throttle: the percentage a forward PWM value gives, else the default. */
  function MotorThrottle(pwm: Option<Int32>, default: int): (r: int)
    ensures pwm.None? || pwm.value <= SERVO_NEUTRAL_US ==> r == default
  {
    if pwm.Some? && pwm.value > SERVO_NEUTRAL_US then PwmToPercent(pwm.value) else default
  }

  /** The integer fields `parseTelemetryToJSON` extracts.  `rpmEstimate` is the
      value the square-root estimate from the float fields would give. */
  function ParseIntFields(s: string, rpmEstimate: int): (f: IntFields)
    ensures !Occurs(s, "RC Throttle:") ==> f.rcThrottle == 0
    ensures !Occurs(s, "RC Steering:") ==> f.rcSteering == 0
    ensures !Occurs(s, "Motor1 PWM:") ==> f.motor1Throttle == f.rcThrottle
    ensures !Occurs(s, "Motor2 PWM:") ==> f.motor2Throttle == f.rcThrottle
    ensures !Occurs(s, "RPM:") ==> f.rpm == rpmEstimate
  {
    var rc := ReadIntAt(s, "RC Throttle:", 12);
    var rcThrottle := if rc.Some? then rc.value else 0;
    var steering := ReadIntAt(s, "RC Steering:", 12);
    var rcSteering := if steering.Some? then steering.value else 0;
    var m1 := MotorThrottle(ReadIntAt(s, "Motor1 PWM:", 11), rcThrottle);
    var m2 := MotorThrottle(ReadIntAt(s, "Motor2 PWM:", 11), rcThrottle);
    var rpmText := ReadIntAt(s, "RPM:", 4);
    var rpm := if rpmText.Some? then rpmText.value else rpmEstimate;
    IntFields(rcThrottle, rcSteering, m1, m2, rpm)
  }

  /** Full forward on a motor reads back as 100%, neutral as the RC default. */
  lemma MotorThrottleAnchors(default: int)
    ensures MotorThrottle(Some(SERVO_FULL_FORWARD_US), default) == 100
    ensures MotorThrottle(Some(1750), default) == 50
    ensures MotorThrottle(Some(SERVO_NEUTRAL_US), default) == default
  {
  }

  /** An integer written after a tag as `"<tag> %d"` followed by a
      non-digit is read back by the parser, provided the tag has a
      character that neither the text before it nor the tag's own start
      contains. */
  lemma ReadIntAfterLabel(p: string, tag: string, k: nat, n: Int32, rest: string)
    requires k < |tag|
    requires tag[k] !in p && tag[k] !in tag[..k]
    requires |rest| == 0 || !IsDigit(rest[0])
    ensures ReadIntAt(p + tag + " " + IntToString(n) + rest, tag, |tag|) == Some(n)
  {
    var tail := " " + IntToString(n) + rest;
    var s := p + tag + tail;
    assert s == p + tag + " " + IntToString(n) + rest;
    FoundAfterPrefix(p, tag, tail, k);
    assert Suffix(s, |p| + |tag|) == tail;
    assert tail == [' '] + IntToString(n) + rest;
    AtolReadsIntToString([' '], n, rest);
  }

  // ---------------------------------------------------------------------------
  // JSON
  // ---------------------------------------------------------------------------

  /** A JSON object member: a key and its already-rendered value. */
  datatype Member = Member(key: string, value: string)

  function RenderMember(m: Member): string
  {
    "\"" + m.key + "\":" + m.value
  }

  /** Members separated by commas, in order. */
  function RenderMembers(ms: seq<Member>): string
  {
    if |ms| == 0 then ""
    else if |ms| == 1 then RenderMember(ms[0])
    else RenderMembers(ms[..|ms| - 1]) + "," + RenderMember(ms[|ms| - 1])
  }

  /** A JSON object with the given members in the given order. */
  function JsonObject(ms: seq<Member>): (r: string)
    ensures |r| >= 2 && r[0] == '{' && r[|r| - 1] == '}'
  {
    "{" + RenderMembers(ms) + "}"
  }

  function Keys(ms: seq<Member>): (ks: seq<string>)
    ensures |ks| == |ms|
    ensures forall i :: 0 <= i < |ms| ==> ks[i] == ms[i].key
  {
    seq(|ms|, i requires 0 <= i < |ms| => ms[i].key)
  }

  /** Adding one more member to a non-empty object appends `,"key":value`. */
  lemma RenderMembersSnoc(ms: seq<Member>, m: Member)
    requires |ms| >= 1
    ensures RenderMembers(ms + [m]) == RenderMembers(ms) + "," + RenderMember(m)
  {
    assert (ms + [m])[..|ms|] == ms;
  }

  /** The floating-point values of the telemetry JSON, already rendered by
      `String(x, digits)`. */
  datatype FloatTexts = FloatTexts(
    gForce: string, accelUsed: string, accelX: string, accelY: string, accelZ: string,
    battery: string, radius: string)

  /** `parseTelemetryToJSON`: the fields are read from the telemetry line
      and appended to the result string in the source's order.  The result
      is the JSON object of `TelemetryMembers`, with `battery` present exactly
      when the telemetry has a `"Battery:"` reading and `radius` exactly when
      it has a `"Radius:"` one. */
  function ParseTelemetryToJson(s: string, floats: FloatTexts, rpmEstimate: int): (r: string)
    ensures r == JsonObject(TelemetryMembers(ParseIntFields(s, rpmEstimate), floats, Occurs(s, "Battery:"), Occurs(s, "Radius:")))
  {
    var f := ParseIntFields(s, rpmEstimate);
    TelemetryTextIsObject(f, floats, IndexOf(s, "Battery:") >= 0, IndexOf(s, "Radius:") >= 0);
    TelemetryJsonText(f, floats, IndexOf(s, "Battery:") >= 0, IndexOf(s, "Radius:") >= 0)
  }

  /** The result string of `parseTelemetryToJSON`, appended member by
      member the way the source builds it: nine fixed members, then
      `battery` if present, `rpm`, then `radius` if present. */
  function TelemetryJsonText(f: IntFields, floats: FloatTexts, hasBattery: bool, hasRadius: bool): string
  {
    var body :=
      RenderMember(Member("gForce", floats.gForce)) + ","
      + RenderMember(Member("motor1Throttle", IntToString(f.motor1Throttle))) + ","
      + RenderMember(Member("motor2Throttle", IntToString(f.motor2Throttle))) + ","
      + RenderMember(Member("accelUsed", floats.accelUsed)) + ","
      + RenderMember(Member("rcThrottle", IntToString(f.rcThrottle))) + ","
      + RenderMember(Member("rcSteering", IntToString(f.rcSteering))) + ","
      + RenderMember(Member("accelX", floats.accelX)) + ","
      + RenderMember(Member("accelY", floats.accelY)) + ","
      + RenderMember(Member("accelZ", floats.accelZ));
    var withBattery := if hasBattery then body + "," + RenderMember(Member("battery", floats.battery)) else body;
    var withRpm := withBattery + "," + RenderMember(Member("rpm", IntToString(f.rpm)));
    var full := if hasRadius then withRpm + "," + RenderMember(Member("radius", floats.radius)) else withRpm;
    "{" + full + "}"
  }

  /** The nine members every telemetry JSON starts with. */
  function FixedTelemetryMembers(f: IntFields, floats: FloatTexts): (ms: seq<Member>)
    ensures |ms| == 9
  {
    [ Member("gForce", floats.gForce),
      Member("motor1Throttle", IntToString(f.motor1Throttle)),
      Member("motor2Throttle", IntToString(f.motor2Throttle)),
      Member("accelUsed", floats.accelUsed),
      Member("rcThrottle", IntToString(f.rcThrottle)),
      Member("rcSteering", IntToString(f.rcSteering)),
      Member("accelX", floats.accelX),
      Member("accelY", floats.accelY),
      Member("accelZ", floats.accelZ) ]
  }

  /** The members the telemetry JSON is meant to carry, in order. */
  function TelemetryMembers(f: IntFields, floats: FloatTexts, hasBattery: bool, hasRadius: bool): seq<Member>
  {
    FixedTelemetryMembers(f, floats)
      + (if hasBattery then [Member("battery", floats.battery)] else [])
      + [Member("rpm", IntToString(f.rpm))]
      + (if hasRadius then [Member("radius", floats.radius)] else [])
  }

  /** The keys of the telemetry JSON: the nine fixed keys in order, then
      `battery` only when present, `rpm` always, and `radius` only when
      present. */
  lemma TelemetryKeyOrder(f: IntFields, floats: FloatTexts, hasBattery: bool, hasRadius: bool)
    ensures Keys(TelemetryMembers(f, floats, hasBattery, hasRadius)) ==
      ["gForce", "motor1Throttle", "motor2Throttle", "accelUsed", "rcThrottle", "rcSteering", "accelX", "accelY", "accelZ"]
      + (if hasBattery then ["battery"] else [])
      + ["rpm"]
      + (if hasRadius then ["radius"] else [])
  {
  }

  /** The text appended member by member is the JSON object of the members. */
  lemma {:induction false} TelemetryTextIsObject(f: IntFields, floats: FloatTexts, hasBattery: bool, hasRadius: bool)
    ensures TelemetryJsonText(f, floats, hasBattery, hasRadius) == JsonObject(TelemetryMembers(f, floats, hasBattery, hasRadius))
  {
    var ms := FixedTelemetryMembers(f, floats);
    FixedMembersRendering(f, floats);
    var battery := if hasBattery then [Member("battery", floats.battery)] else [];
    var withBattery := ms + battery;
    if hasBattery {
      RenderMembersSnoc(ms, Member("battery", floats.battery));
    } else {
      assert withBattery == ms;
    }
    var rpm := Member("rpm", IntToString(f.rpm));
    RenderMembersSnoc(withBattery, rpm);
    var withRpm := withBattery + [rpm];
    if hasRadius {
      RenderMembersSnoc(withRpm, Member("radius", floats.radius));
    } else {
      assert withRpm + [] == withRpm;
    }
  }

  /** Rendering the nine fixed members gives the body the source appends. */
  lemma {:induction false} FixedMembersRendering(f: IntFields, floats: FloatTexts)
    ensures RenderMembers(FixedTelemetryMembers(f, floats)) ==
      RenderMember(Member("gForce", floats.gForce)) + ","
      + RenderMember(Member("motor1Throttle", IntToString(f.motor1Throttle))) + ","
      + RenderMember(Member("motor2Throttle", IntToString(f.motor2Throttle))) + ","
      + RenderMember(Member("accelUsed", floats.accelUsed)) + ","
      + RenderMember(Member("rcThrottle", IntToString(f.rcThrottle))) + ","
      + RenderMember(Member("rcSteering", IntToString(f.rcSteering))) + ","
      + RenderMember(Member("accelX", floats.accelX)) + ","
      + RenderMember(Member("accelY", floats.accelY)) + ","
      + RenderMember(Member("accelZ", floats.accelZ))
  {
    RenderNine(FixedTelemetryMembers(f, floats));
  }

  /** Nine members render as the nine member texts separated by commas. */
  lemma {:induction false} RenderNine(ms: seq<Member>)
    requires |ms| == 9
    ensures RenderMembers(ms) ==
      RenderMember(ms[0]) + "," + RenderMember(ms[1]) + "," + RenderMember(ms[2]) + ","
      + RenderMember(ms[3]) + "," + RenderMember(ms[4]) + "," + RenderMember(ms[5]) + ","
      + RenderMember(ms[6]) + "," + RenderMember(ms[7]) + "," + RenderMember(ms[8])
  {
    var r1 := RenderMembers(ms[..1]);
    assert r1 == RenderMember(ms[0]) by { RenderPrefix(ms, 1); }
    var r2 := RenderMembers(ms[..2]);
    assert r2 == r1 + "," + RenderMember(ms[1]) by { RenderPrefix(ms, 2); }
    var r3 := RenderMembers(ms[..3]);
    assert r3 == r2 + "," + RenderMember(ms[2]) by { RenderPrefix(ms, 3); }
    var r4 := RenderMembers(ms[..4]);
    assert r4 == r3 + "," + RenderMember(ms[3]) by { RenderPrefix(ms, 4); }
    var r5 := RenderMembers(ms[..5]);
    assert r5 == r4 + "," + RenderMember(ms[4]) by { RenderPrefix(ms, 5); }
    var r6 := RenderMembers(ms[..6]);
    assert r6 == r5 + "," + RenderMember(ms[5]) by { RenderPrefix(ms, 6); }
    var r7 := RenderMembers(ms[..7]);
    assert r7 == r6 + "," + RenderMember(ms[6]) by { RenderPrefix(ms, 7); }
    var r8 := RenderMembers(ms[..8]);
    assert r8 == r7 + "," + RenderMember(ms[7]) by { RenderPrefix(ms, 8); }
    var r9 := RenderMembers(ms[..9]);
    assert r9 == r8 + "," + RenderMember(ms[8]) by { RenderPrefix(ms, 9); }
    assert ms[..9] == ms;
  }

  /** Rendering the first `k` members extends rendering the first `k - 1`. */
  lemma RenderPrefix(ms: seq<Member>, k: nat)
    requires 2 <= k <= |ms| || k == 1 <= |ms|
    ensures k == 1 ==> RenderMembers(ms[..1]) == RenderMember(ms[0])
    ensures k >= 2 ==> RenderMembers(ms[..k]) == RenderMembers(ms[..k - 1]) + "," + RenderMember(ms[k - 1])
  {
    if k >= 2 {
      assert ms[..k][..k - 1] == ms[..k - 1];
    }
  }

  // ---------------------------------------------------------------------------
  // EEPROM settings
  // ---------------------------------------------------------------------------

  /** One EEPROM setting as `handleEEPROM` reports it: its key, the name the
      dashboard shows, the current and default value (already rendered as
      JSON numbers), the unit and a description. */
  datatype Setting = Setting(key: string, name: string, value: string, default: string, unit: string, description: string)

  /** The five members of a setting's JSON object, in order. */
  function SettingMembers(st: Setting): (ms: seq<Member>)
    ensures Keys(ms) == ["name", "value", "default", "unit", "description"]
    ensures ms[1].value == st.value && ms[2].value == st.default
  {
    [ Member("name", "\"" + st.name + "\""),
      Member("value", st.value),
      Member("default", st.default),
      Member("unit", "\"" + st.unit + "\""),
      Member("description", "\"" + st.description + "\"") ]
  }

  /** A setting as a member of the EEPROM object: its key and its object. */
  function SettingMember(st: Setting): Member
  {
    Member(st.key, JsonObject(SettingMembers(st)))
  }

  /** The rendered floating-point values of the EEPROM JSON. */
  datatype EepromFloatTexts = EepromFloatTexts(accelRadius: string, accelRadiusDefault: string, zeroG: string, zeroGDefault: string)

  /** The names and descriptions the EEPROM settings are shown with. */
  const LED_OFFSET_NAME: string := "LED Heading Offset"
  const LED_OFFSET_DESCRIPTION: string := "Position of heading LED (percentage of rotation)"
  const ACCEL_RADIUS_NAME: string := "Accelerometer Mount Radius"
  const ACCEL_RADIUS_DESCRIPTION: string := "Distance from center of rotation to accelerometer"
  const ZERO_G_NAME: string := "Zero G Offset"
  const ZERO_G_DESCRIPTION: string := "Calibrated zero-point for accelerometer (when stationary)"
  const SENTINEL_NAME: string := "EEPROM Sentinel Value"
  const SENTINEL_DESCRIPTION: string := "Changing this value will reset all EEPROM settings to defaults"

  /** The four settings `handleEEPROM` reports, in the order it appends them. */
  function EepromSettings(ledOffset: Int32, floats: EepromFloatTexts): (ss: seq<Setting>)
    ensures |ss| == 4
  {
    [ Setting("ledOffset", LED_OFFSET_NAME, IntToString(ledOffset),
        IntToString(DEFAULT_LED_OFFSET_PERCENT), "%", LED_OFFSET_DESCRIPTION),
      Setting("accelRadius", ACCEL_RADIUS_NAME, floats.accelRadius,
        floats.accelRadiusDefault, "cm", ACCEL_RADIUS_DESCRIPTION),
      Setting("zeroGOffset", ZERO_G_NAME, floats.zeroG,
        floats.zeroGDefault, "g", ZERO_G_DESCRIPTION),
      Setting("eepromSentinel", SENTINEL_NAME,
        IntToString(EEPROM_WRITTEN_SENTINEL_VALUE), IntToString(EEPROM_WRITTEN_SENTINEL_VALUE), "",
        SENTINEL_DESCRIPTION) ]
  }

  /** The members of the EEPROM object, one per setting. */
  function EepromMembers(ledOffset: Int32, floats: EepromFloatTexts): (ms: seq<Member>)
    ensures |ms| == 4
  {
    var ss := EepromSettings(ledOffset, floats);
    [SettingMember(ss[0]), SettingMember(ss[1]), SettingMember(ss[2]), SettingMember(ss[3])]
  }

  /** The EEPROM object is keyed `ledOffset`, `accelRadius`, `zeroGOffset`,
      `eepromSentinel` in that order; the LED offset reports the stored
      value against a default of 0, the mount radius and zero-g offset
      report their rendered floats, and the sentinel reports 42 as both value
      and default. */
  lemma EepromSettingsReported(ledOffset: Int32, floats: EepromFloatTexts)
    ensures Keys(EepromMembers(ledOffset, floats)) == ["ledOffset", "accelRadius", "zeroGOffset", "eepromSentinel"]
    ensures var ss := EepromSettings(ledOffset, floats);
      && ss[0].value == IntToString(ledOffset) && ss[0].default == "0"
      && ss[1].value == floats.accelRadius && ss[1].default == floats.accelRadiusDefault
      && ss[2].value == floats.zeroG && ss[2].default == floats.zeroGDefault
      && ss[3].value == "42" && ss[3].default == "42"
  {
    IntToStringAnchors();
  }

  lemma IntToStringAnchors()
    ensures IntToString(0) == "0"
    ensures IntToString(42) == "42"
  {
    assert NatToString(4) == "4";
    assert NatToString(42) == NatToString(4) + [DigitChar(2)];
  }

  /** The text `handleEEPROM` appends for one setting: the setting's key and
      an object of five members, written field by field. */
  function SettingText(st: Setting): string
  {
    RenderMember(Member(st.key,
      "{" + RenderMember(Member("name", "\"" + st.name + "\"")) + ","
      + RenderMember(Member("value", st.value)) + ","
      + RenderMember(Member("default", st.default)) + ","
      + RenderMember(Member("unit", "\"" + st.unit + "\"")) + ","
      + RenderMember(Member("description", "\"" + st.description + "\"")) + "}"))
  }

  /** `handleEEPROM`: the LED offset, mount radius, zero-g offset and the
      sentinel, appended one setting after the other. */
  function HandleEeprom(ledOffset: Int32, floats: EepromFloatTexts): (r: string)
    ensures r == JsonObject(EepromMembers(ledOffset, floats))
  {
    var ss := EepromSettings(ledOffset, floats);
    FourSettingsText(ss);
    "{" + (SettingText(ss[0]) + "," + SettingText(ss[1]) + "," + SettingText(ss[2]) + "," + SettingText(ss[3])) + "}"
  }

  /** Four settings written one after the other, separated by commas and
      braced, are the JSON object of their members. */
  lemma {:induction false} FourSettingsText(ss: seq<Setting>)
    requires |ss| == 4
    ensures "{" + (SettingText(ss[0]) + "," + SettingText(ss[1]) + "," + SettingText(ss[2]) + "," + SettingText(ss[3])) + "}"
      == JsonObject([SettingMember(ss[0]), SettingMember(ss[1]), SettingMember(ss[2]), SettingMember(ss[3])])
  {
    SettingTextIsMember(ss[0]);
    SettingTextIsMember(ss[1]);
    SettingTextIsMember(ss[2]);
    SettingTextIsMember(ss[3]);
    RenderFour([SettingMember(ss[0]), SettingMember(ss[1]), SettingMember(ss[2]), SettingMember(ss[3])]);
  }

  /** Each setting's text is the key with the setting's JSON object. */
  lemma SettingTextIsMember(st: Setting)
    ensures SettingText(st) == RenderMember(SettingMember(st))
  {
    RenderFive(SettingMembers(st));
  }

  /** The LED offset the dashboard reads back from the EEPROM response is the
      stored offset: the `value` text of the `ledOffset` setting is the
      decimal that `toInt` turns back into the same number. */
  lemma EepromLedOffsetRoundTrip(ledOffset: Int32, floats: EepromFloatTexts)
    ensures Atol(EepromSettings(ledOffset, floats)[0].value) == ledOffset
  {
    AtolReadsIntToString([], ledOffset, "");
    assert [] + IntToString(ledOffset) + "" == IntToString(ledOffset);
  }

  lemma {:induction false} RenderFour(ms: seq<Member>)
    requires |ms| == 4
    ensures RenderMembers(ms) ==
      RenderMember(ms[0]) + "," + RenderMember(ms[1]) + "," + RenderMember(ms[2]) + "," + RenderMember(ms[3])
  {
    var r1 := RenderMembers(ms[..1]);
    assert r1 == RenderMember(ms[0]) by { RenderPrefix(ms, 1); }
    var r2 := RenderMembers(ms[..2]);
    assert r2 == r1 + "," + RenderMember(ms[1]) by { RenderPrefix(ms, 2); }
    var r3 := RenderMembers(ms[..3]);
    assert r3 == r2 + "," + RenderMember(ms[2]) by { RenderPrefix(ms, 3); }
    var r4 := RenderMembers(ms[..4]);
    assert r4 == r3 + "," + RenderMember(ms[3]) by { RenderPrefix(ms, 4); }
    assert ms[..4] == ms;
  }

  lemma {:induction false} RenderFive(ms: seq<Member>)
    requires |ms| == 5
    ensures RenderMembers(ms) ==
      RenderMember(ms[0]) + "," + RenderMember(ms[1]) + "," + RenderMember(ms[2]) + ","
      + RenderMember(ms[3]) + "," + RenderMember(ms[4])
  {
    var r4 := RenderMembers(ms[..4]);
    assert r4 == RenderMember(ms[0]) + "," + RenderMember(ms[1]) + "," + RenderMember(ms[2]) + "," + RenderMember(ms[3]) by {
      RenderFour(ms[..4]);
    }
    var r5 := RenderMembers(ms[..5]);
    assert r5 == r4 + "," + RenderMember(ms[4]) by { RenderPrefix(ms, 5); }
    assert ms[..5] == ms;
  }
}

=== FILE: wrappers.dfy ===
/** Optional values, for lookups that can come back empty. */
module Wrappers {

  datatype Option<+T> = None | Some(value: T)
}
